=== FILE: README.md ===
# Preveza gameplay rules and the "Super" inspector plugin, in Dafny

This project models two groups of rules from the Unity game *Preveza*. It states their properties as Dafny contracts and lemmas.

**Gameplay state machines (`Assets/Scripts`).**

- **Mode registry (`Modes`).** An integer-keyed registry with a cycling switch. The switch exits the old mode before it enters the next one.
- **Quest progress counter (`Quests`).** Completing a Kill quest hands control to the quiz mode.
- **Quiz (`Quizzes`).** A question-index / score machine over the loaded quiz data.
- **Health (`HealthModel`).** Hit-point rules with a single death trigger.
- **Highlighting (`Highlighting`).** The per-ship highlight flag, and the tracker that drives it from an abstract raycast outcome.

Each is a record-to-record transition. Each call that the original makes on another object is returned as data: the mode entered or exited, the message shown, the ship highlighted.

**The "Super" editor plugin (`Assets/Plugins/LoM/Super`).** This is the decision logic of a custom inspector:

- **Icons (`Icons`, `IconUtility`, `SuperIcons`).** The class-name to icon rule chain, icon paths, and the `SuperIcon` attribute.
- **Preferences (`PreferenceProviders`, `Preferences`).** Preference keys over a map-shaped preference store. Also the registration, ordering and error isolation of preference providers.
- **Caches (`StyleCache`, `Caches`).** Named get-or-create caches.
- **Reflection and serialization (`Reflection`, `SerializationUtility`, `SerializedAttributesModel`, `Conditions`, `Buttons`, `SerializedObjects`).**
  - The reflective field filter, the info cache and the pre-cache path sanitiser.
  - The attributes read from a member, with last-condition-wins evaluation and button attributes.
  - The multi-target serialized object: its layout, path lookup and method dispatch.
- **Drawing (`GuiLayout`, `SuperEditors`, `ProjectWindow`).**
  - Drawing is an emitted trace of placed widgets.
  - This covers the inspector's visibility, enable and write-back rules, and the project-window icon overlay.

Host services become data or parameters:

- Reflection objects are records.
- `EditorPrefs` is a `map<string, Value>`.
- Each C# dictionary is a sequence in insertion order.
- User input, click results and the results of thrown exceptions are function parameters.

## Model

| member | source | states |
|---|---|---|
| Modes.RegisterMode | Assets/Scripts/ModesSwitcher/ModeManager.cs:73-78 | registering an id already present leaves the manager unchanged; otherwise exactly that id is added, with that mode, and every other entry, the index and the current mode are kept |
| Modes.SetCurrentModeById | Assets/Scripts/ModesSwitcher/ModeManager.cs:54-62 | an unregistered id or a null mode changes nothing and enters nothing; otherwise that mode becomes current and is entered once; the registry and the cycle index never change |
| Modes.ResetCurrentModeById | Assets/Scripts/ModesSwitcher/ModeManager.cs:64-71 | exits the mode registered under the id when it is present and not null, and makes no call otherwise |
| Modes.SwitchToNextMode | Assets/Scripts/ModesSwitcher/ModeManager.cs:42-52 | with an empty registry nothing changes and nothing is called; otherwise the new index lies in [0, count) and the registry is unchanged |
| Modes.CsRemainder | Assets/Scripts/ModesSwitcher/ModeManager.cs:48 | C#'s truncating remainder agrees with the mathematical one for a non-negative dividend and is never positive for a negative one |
| Modes.InitialValid | Assets/Scripts/ModesSwitcher/ModeManager.cs:8-10 | a fresh manager has an empty registry, no current mode and a valid index |
| Modes.OperationsPreserveValid | Assets/Scripts/ModesSwitcher/ModeManager.cs:42-78 | registering, setting by id and switching all keep the cycle index within [0, count) |
| Modes.SwitchCallOrder | Assets/Scripts/ModesSwitcher/ModeManager.cs:46-50 | a switch moves the index to (old + 1) mod count, exits the mode at the old index, then enters the mode at the new one, each only when registered and not null |
| Modes.SwitchReachesOnlyLowIds | Assets/Scripts/ModesSwitcher/ModeManager.cs:48-59 | after a switch the current mode is the old one or a mode registered under an id in [0, count), so modes under other ids are unreachable by cycling |
| Modes.SetThenSwitchExitsOldIndex | Assets/Scripts/ModesSwitcher/ModeManager.cs:42-62 | setting a mode by id does not change the calls the next switch makes: it still exits the mode at the old index |
| Modes.QuizModeNeverExitedBySwitch | Assets/Scripts/QuestSystem/QuestSystem.cs:47-48 | in the game's set-up, after the quiz mode is registered under 2 and set, the next switch exits the character mode and enters the cannon mode, and never exits the quiz mode |
| Quests.StartQuest | Assets/Scripts/QuestSystem/QuestSystem.cs:12-19 | the quest becomes active with progress 0, a start message is shown, and modes are untouched |
| Quests.CompleteQuest | Assets/Scripts/QuestSystem/QuestSystem.cs:39-52 | a non-Kill quest is cleared; a Kill quest with no quiz mode returns before clearing; a Kill quest with a quiz mode registers it under 2, enters it and is cleared |
| Quests.ReportProgress | Assets/Scripts/QuestSystem/QuestSystem.cs:21-37 | with no active quest, or a different target, nothing changes; a matching report raises progress by exactly one and completes the quest once progress reaches the required amount |
| Quests.ClearedQuestIgnoresReports | Assets/Scripts/QuestSystem/QuestSystem.cs:23 | once no quest is active, any sequence of reports leaves the system unchanged |
| Quests.ReportsBelowRequiredCount | Assets/Scripts/QuestSystem/QuestSystem.cs:24-32 | n matching reports that stay below the required amount add exactly n to progress and change nothing else |
| Quests.StartedQuestCompletesAfterRequiredReports | Assets/Scripts/QuestSystem/QuestSystem.cs:12-51 | a freshly started non-Kill quest is still active after required-1 matching reports and is cleared by the next one |
| Quests.KillQuestWithoutQuizNeverClears | Assets/Scripts/QuestSystem/QuestSystem.cs:43-46 | when no quiz mode exists, the completing report of a Kill quest leaves it active |
| Quizzes.ShowQuestion | Assets/Scripts/QuizSystem/Quiz.cs:30-49 | asks question `index` exactly when it is below the question count; otherwise the end screen reports the score and the question count |
| Quizzes.Start | Assets/Scripts/QuizSystem/Quiz.cs:18-24 | the quiz starts at index 0 with score 0, showing the first question or, with no questions, the end screen |
| Quizzes.OnAnswerSelected | Assets/Scripts/QuizSystem/Quiz.cs:50-64 | fails with an index error exactly when the index is past the last question; otherwise the index rises by one and the score rises by one exactly when the selection is the correct answer |
| Quizzes.StartValid | Assets/Scripts/QuizSystem/Quiz.cs:18-19 | the start state keeps 0 <= score <= index <= count |
| Quizzes.AnswerPreservesValid | Assets/Scripts/QuizSystem/Quiz.cs:54-62 | answering keeps 0 <= score <= index <= count |
| Quizzes.PlayScoresCorrectAnswers | Assets/Scripts/QuizSystem/Quiz.cs:50-64 | a run of answers within the question count advances the index by the run's length and the score by the number of correct answers, and shows the screen for the new index |
| Quizzes.CorrectCount | Assets/Scripts/QuizSystem/Quiz.cs:50-63 | the reference score is at most the number of answers, equals it exactly when every answer is correct, and is 0 exactly when none is |
| Quizzes.FullQuizReportsScore | Assets/Scripts/QuizSystem/Quiz.cs:45-48 | answering every question ends on the screen reporting the correct-answer count out of the question count, and one more answer fails |
| Quizzes.PlayAppend | Assets/Scripts/QuizSystem/Quiz.cs:50-64 | a run of answers extended by one is the run followed by one answer, and a failed run stays failed |
| HealthModel.TakeDamage | Assets/Scripts/Health/Health.cs:28-38 | a dead target is unchanged; otherwise exactly `damage` is subtracted, and the death trigger fires exactly when this call kills the target |
| HealthModel.Heal | Assets/Scripts/Health/Health.cs:16-21 | at or above the maximum nothing changes; below it the full amount is added |
| HealthModel.IsDead | Assets/Scripts/Health/Health.cs:22-25 | a target is dead when its health is 0 or below; TakeDamage and DieFiresAtMostOnce state the rules in terms of it |
| HealthModel.HealOvershootsMax | Assets/Scripts/Health/Health.cs:18-19 | healing 50 at 99 of 100 gives 149: healing is not clamped |
| HealthModel.DieFiresAtMostOnce | Assets/Scripts/Health/Health.cs:28-38 | over any sequence of damage the death trigger fires at most once, and exactly when a live target ends dead |
| HealthModel.HealRevivesDeadTarget | Assets/Scripts/Health/Health.cs:16-26 | a target killed from full health is below the maximum, so healing raises it and it is no longer dead |
| Highlighting.NewShip | Assets/Scripts/SelectionManager/highlightableShip.cs:12-13 | a ship starts neither highlighted nor outlined |
| Highlighting.Highlight | Assets/Scripts/SelectionManager/highlightableShip.cs:15-22 | the ship is highlighted even without an outline; its outline is shown only when it has one |
| Highlighting.RemoveHighlight | Assets/Scripts/SelectionManager/highlightableShip.cs:24-31 | the ship is not highlighted even without an outline; an existing outline is hidden |
| Highlighting.HighlightCallsIdempotent | Assets/Scripts/SelectionManager/highlightableShip.cs:15-31 | calling either operation twice is the same as calling it once |
| Highlighting.LastCallDecides | Assets/Scripts/SelectionManager/highlightableShip.cs:13-31 | after any non-empty sequence of calls, the highlight flag, and the outline when there is one, reflect the last call |
| Highlighting.RemoveCurrentHighlight | Assets/Scripts/SelectionManager/HighlightManager.cs:47-56 | with no current highlight, or one that is not highlighted, nothing changes; otherwise that ship is un-highlighted, the tracker is cleared and no other ship changes |
| Highlighting.Update | Assets/Scripts/SelectionManager/HighlightManager.cs:11-45 | no mode changes nothing; another mode, a miss or a non-highlightable hit removes the current highlight; a hit on the current target changes nothing; a hit on a new target removes the old highlight, highlights the new ship and records it |
| Highlighting.FreshSceneConsistent | Assets/Scripts/SelectionManager/highlightableShip.cs:12 | a fresh scene, with no ship highlighted and no tracked target, is consistent |
| Highlighting.UpdatePreservesConsistent | Assets/Scripts/SelectionManager/HighlightManager.cs:11-56 | from a consistent state, where the only highlighted ship is the tracked one, every update keeps that invariant |
| Icons.ParseIconName | Assets/Plugins/LoM/Super/Editor/Settings/SuperBehaviourPreferenceProvider.cs:162-166 | parsing an icon's name gives that icon back |
| Icons.IconNameInjective | Assets/Plugins/LoM/Super/Attributes/Icon/SuperIcon.cs:62 | two icons have the same name exactly when they are equal |
| Icons.IconFileInjective | Assets/Plugins/LoM/Super/Attributes/Icon/SuperIcon.cs:62 | two icon file paths are equal exactly when their names are |
| IconUtility.FirstMatch | Assets/Plugins/LoM/Super/Editor/Utilities/IconUtility.cs:28-141 | the result is the icon of the earliest matching rule, or Default when no rule matches |
| IconUtility.GetIconByClassName | Assets/Plugins/LoM/Super/Editor/Utilities/IconUtility.cs:28-141 | the class-name icon is Default or the icon of some rule of the table |
| IconUtility.DefaultIffNoRuleMatches | Assets/Plugins/LoM/Super/Editor/Utilities/IconUtility.cs:140 | the class-name icon is Default exactly when no rule of the chain matches |
| IconUtility.NeverNoneOrCustom | Assets/Plugins/LoM/Super/Editor/Utilities/IconUtility.cs:28-141 | the class-name icon is never None, Custom or a file-kind icon |
| IconUtility.TestWinsOverEverything | Assets/Plugins/LoM/Super/Editor/Utilities/IconUtility.cs:30-33 | any name containing "Test" is a Test, whatever else it contains |
| IconUtility.SpecificManagersBeforeManager | Assets/Plugins/LoM/Super/Editor/Utilities/IconUtility.cs:35-63 | GameManager, then SceneManager, are decided before the generic Manager rule |
| IconUtility.PlayerControllerBeforeController | Assets/Plugins/LoM/Super/Editor/Utilities/IconUtility.cs:45-68 | PlayerController is decided before the generic Controller rule |
| IconUtility.SoundWords | Assets/Plugins/LoM/Super/Editor/Utilities/IconUtility.cs:55-58 | "Sound", "Audio" or "Music" anywhere gives Sound once the earlier rules have not matched |
| IconUtility.SuffixRules | Assets/Plugins/LoM/Super/Editor/Utilities/IconUtility.cs:105-123 | exactly the Data/Store, State and Control rules test the end of the name; every other rule looks anywhere |
| IconUtility.GetIconTexture | Assets/Plugins/LoM/Super/Editor/Utilities/IconUtility.cs:162-172 | a cached icon returns its cached texture without loading; otherwise the icon's texture path is loaded once and cached |
| IconUtility.GetIconTextures | Assets/Plugins/LoM/Super/Editor/Utilities/IconUtility.cs:162-172 | over any run of lookups each texture is loaded at most once, only for icons not cached at the start, and every lookup returns the cached or the loaded texture |
| Caches.GetOrFetchAll | Assets/Plugins/LoM/Super/Editor/Utilities/IconUtility.cs:164-171 | the get-or-add rule over a run of keys: one fetch per uncached key, results agree with the first fetch, and the cache ends holding every key seen |
| Caches.SecondLookupHits | Assets/Plugins/LoM/Super/Editor/Utilities/SuperGUIStyleUtility.cs:43-46 | a second lookup of a key returns what the first stored, without fetching |
| SuperIcons.IconPath | Assets/Plugins/LoM/Super/Attributes/Icon/SuperIcon.cs:59-63 | the path lies in the icon folder and ends in ".png"; None is shown as Default, and every other icon as the texture path the icon utility loads |
| SuperIcons.IconPathCollisions | Assets/Plugins/LoM/Super/Attributes/Icon/SuperIcon.cs:61-62 | two icons share a path exactly when they are equal or are None and Default |
| SuperIcons.FromIcon | Assets/Plugins/LoM/Super/Attributes/Icon/SuperIcon.cs:30-37 | construction fails with an argument error exactly for Custom; otherwise the icon is kept and its path is both the base path and what GetPath returns |
| SuperIcons.FromPath | Assets/Plugins/LoM/Super/Attributes/Icon/SuperIcon.cs:43-47 | the icon is Custom and GetPath returns the given path verbatim |
| SuperIcons.GetPath | Assets/Plugins/LoM/Super/Attributes/Icon/SuperIcon.cs:53-56 | a custom icon returns its custom path; any other returns a path in the icon folder |
| PreferenceProviders.Order | Assets/Plugins/LoM/Super/Editor/Settings/SuperBehaviourPreferenceProvider.cs:23 | a provider that does not override Order has order 0 |
| PreferenceProviders.BuildKey | Assets/Plugins/LoM/Super/Editor/Settings/SuperBehaviourPreferenceProvider.cs:181 | keys start with "SuperBehaviour." and end with the key; the "Default" provider adds nothing between them, any other adds its name and a dot |
| PreferenceProviders.BuildKeyInjective | Assets/Plugins/LoM/Super/Editor/Settings/SuperBehaviourPreferenceProvider.cs:181 | one provider never maps two keys to one store key |
| PreferenceProviders.DefaultKeysShadowNamedKeys | Assets/Plugins/LoM/Super/Editor/Settings/SuperBehaviourPreferenceProvider.cs:181 | the "Default" provider's key "N.k" is provider N's key "k" |
| PreferenceProviders.CoreKeysAreLiteralKeys | Assets/Plugins/LoM/Super/Editor/Settings/SuperBehaviourPreferenceProvider.cs:181 | the core provider's keys are the literal keys other parts of the plugin read |
| PreferenceProviders.RenderEnumField | Assets/Plugins/LoM/Super/Editor/Settings/SuperBehaviourPreferenceProvider.cs:159-169 | a stored string naming no icon makes parsing throw an argument error; otherwise an unedited field shows the parsed value and writes nothing, and an edit is stored by name |
| PreferenceProviders.RenderToggle | Assets/Plugins/LoM/Super/Editor/Settings/SuperBehaviourPreferenceProvider.cs:110-122 | an unedited toggle shows the stored bool, or the default when none is stored, and writes nothing; an edit is shown, written under the field's key alone, and read back whatever the default |
| PreferenceProviders.RenderBoolField | Assets/Plugins/LoM/Super/Editor/Settings/SuperBehaviourPreferenceProvider.cs:124 | behaves as RenderToggle on every input |
| PreferenceProviders.RenderIntField | Assets/Plugins/LoM/Super/Editor/Settings/SuperBehaviourPreferenceProvider.cs:95-108 | an unedited field shows the stored int, or the default when none is stored, and writes nothing; an edit is shown, written under the field's key alone, and read back whatever the default |
| PreferenceProviders.RenderFloatField | Assets/Plugins/LoM/Super/Editor/Settings/SuperBehaviourPreferenceProvider.cs:129-157 | an unedited field shows the stored float, or the default when none is stored, and writes nothing; an edit is shown, written under the field's key alone, and read back whatever the default |
| PreferenceProviders.RenderTextField | Assets/Plugins/LoM/Super/Editor/Settings/SuperBehaviourPreferenceProvider.cs:80-93 | an unedited field shows the stored string, or the default when none is stored, and writes nothing; an edit is shown, written under the field's key alone, and read back whatever the default |
| PreferenceProviders.FreshStoreShowsDefaults | Assets/Plugins/LoM/Super/Editor/Settings/SuperBehaviourPreferenceProvider.cs:80-119 | with nothing stored, every field shows the default it is given |
| PreferenceProviders.UneditedRenderWritesNothing | Assets/Plugins/LoM/Super/Editor/Settings/SuperBehaviourPreferenceProvider.cs:85-88 | a field that reports no change leaves the store unchanged |
| PreferenceProviders.EditIsRemembered | Assets/Plugins/LoM/Super/Editor/Settings/SuperBehaviourPreferenceProvider.cs:110-120 | after an edit, the next unedited showing with any default shows the edited value, and every other key is untouched |
| PreferenceProviders.EnumEditIsRemembered | Assets/Plugins/LoM/Super/Editor/Settings/SuperBehaviourPreferenceProvider.cs:162-166 | an icon edited into the store by name is read back as the same icon |
| PreferenceProviders.RenderTitleCollapse | Assets/Plugins/LoM/Super/Editor/Settings/SuperBehaviourPreferenceProvider.cs:50-75 | the collapse toggle shows true when nothing is stored and nothing is edited |
| Preferences.NameLeTotal | Assets/Plugins/LoM/Super/Editor/Settings/SuperBehaviourPreferences.cs:36 | the name order used by ThenBy relates every two names |
| Preferences.NameLeTransitive | Assets/Plugins/LoM/Super/Editor/Settings/SuperBehaviourPreferences.cs:36 | the name order is transitive |
| Preferences.Insert | Assets/Plugins/LoM/Super/Editor/Settings/SuperBehaviourPreferences.cs:36 | inserting a provider yields the list with that one provider added |
| Preferences.InsertSorted | Assets/Plugins/LoM/Super/Editor/Settings/SuperBehaviourPreferences.cs:36 | inserting a provider into a sorted list keeps it sorted by order, then name |
| Preferences.Sort | Assets/Plugins/LoM/Super/Editor/Settings/SuperBehaviourPreferences.cs:36 | the render order is sorted by ascending order, then name, and is a permutation of the registered providers |
| Preferences.LowerOrderRendersFirst | Assets/Plugins/LoM/Super/Editor/Settings/SuperBehaviourPreferences.cs:36 | a provider with a lower order renders before one with a higher order |
| Preferences.CoreRendersBeforeConnect | Assets/Plugins/LoM/Super/Editor/Settings/SuperBehaviourPreferences.cs:36 | the core provider (order -999) renders before the connect provider (order -1) |
| Preferences.Register | Assets/Plugins/LoM/Super/Editor/Settings/SuperBehaviourPreferences.cs:59-63 | registering a type already present is a no-op; otherwise exactly that provider is appended |
| Preferences.RegisterPreservesUniqueTypes | Assets/Plugins/LoM/Super/Editor/Settings/SuperBehaviourPreferences.cs:61-62 | registration keeps every provider type unique |
| Preferences.RegisterIdempotent | Assets/Plugins/LoM/Super/Editor/Settings/SuperBehaviourPreferences.cs:61 | registering the same type twice is the same as registering it once |
| Preferences.SortPreservesUniqueTypes | Assets/Plugins/LoM/Super/Editor/Settings/SuperBehaviourPreferences.cs:36 | sorting keeps provider types unique |
| Preferences.RunProvider | Assets/Plugins/LoM/Super/Editor/Settings/SuperBehaviourPreferences.cs:39-46 | a provider that completes draws its items; one that throws draws what it drew before the throw and then an error box naming it |
| Preferences.GuiHandler | Assets/Plugins/LoM/Super/Editor/Settings/SuperBehaviourPreferences.cs:33-47 | the stored list becomes the sorted permutation, of the same length, and the window starts with a space |
| Preferences.RunAll | Assets/Plugins/LoM/Super/Editor/Settings/SuperBehaviourPreferences.cs:37-46 | every error box names a provider of the list that threw |
| Preferences.RunAllAppend | Assets/Plugins/LoM/Super/Editor/Settings/SuperBehaviourPreferences.cs:37-46 | running two lists of providers draws what the first draws, then what the second draws |
| Preferences.ProviderDrawsInItsSlot | Assets/Plugins/LoM/Super/Editor/Settings/SuperBehaviourPreferences.cs:33-47 | each sorted provider's own drawing sits, unchanged, right after the space and what the providers before it drew, whether or not any of them threw |
| Preferences.ErrorBoxPerThrowingProvider | Assets/Plugins/LoM/Super/Editor/Settings/SuperBehaviourPreferences.cs:37-46 | the providers draw exactly one error box per throwing provider; that every provider still draws its own items is stated by ProviderDrawsInItsSlot |
| Preferences.ErrorBoxesCountThrowingProviders | Assets/Plugins/LoM/Super/Editor/Settings/SuperBehaviourPreferences.cs:34-47 | the preferences window shows exactly as many error boxes as there are throwing providers |
| StyleCache.PrefixedNameInjective | Assets/Plugins/LoM/Super/Editor/Utilities/SuperGUIStyleUtility.cs:33 | prefixed names of one prefix collide exactly when the names are equal |
| StyleCache.GetStyle | Assets/Plugins/LoM/Super/Editor/Utilities/SuperGUIStyleUtility.cs:20-24 | returns the cached style exactly when the name is cached, and null otherwise |
| StyleCache.GetPrefixedStyle | Assets/Plugins/LoM/Super/Editor/Utilities/SuperGUIStyleUtility.cs:31-34 | finds a style exactly when prefix + "_" + name is cached |
| StyleCache.GetOrCreateStyle | Assets/Plugins/LoM/Super/Editor/Utilities/SuperGUIStyleUtility.cs:41-47 | a hit returns the cached style without creating; a miss caches and returns the created style |
| StyleCache.GetOrCreatePrefixedStyle | Assets/Plugins/LoM/Super/Editor/Utilities/SuperGUIStyleUtility.cs:55-61 | the prefixed overload, written out separately, behaves as the plain one on prefix + "_" + name |
| StyleCache.Variant | Assets/Plugins/LoM/Super/Editor/Utilities/SuperGUIStyleUtility.cs:68-75 | a hit returns the cached style, whatever the base; a miss caches and returns a mutated copy of the base |
| StyleCache.PrefixedVariant | Assets/Plugins/LoM/Super/Editor/Utilities/SuperGUIStyleUtility.cs:83-90 | the prefixed variant, written out separately, behaves as the plain one on prefix + "_" + name |
| StyleCache.ClearCache | Assets/Plugins/LoM/Super/Editor/Utilities/SuperGUIStyleUtility.cs:94 | after clearing, no style name is found |
| StyleCache.CreatedStyleIsCached | Assets/Plugins/LoM/Super/Editor/Utilities/SuperGUIStyleUtility.cs:43-46 | a created style is what later lookups see, and a second call neither creates again nor changes the cache |
| StyleCache.FirstVariantWins | Assets/Plugins/LoM/Super/Editor/Utilities/SuperGUIStyleUtility.cs:70-74 | the first variant under a name fixes that name's style for later bases and mutators |
| StyleCache.VariantAndGetStyleShareNames | Assets/Plugins/LoM/Super/Editor/Utilities/SuperGUIStyleUtility.cs:43-73 | styles from GetStyle and from Variant share one name space |
| Buttons.MethodButton | Assets/Plugins/LoM/Super/Attributes/ButtonAttribute.cs:29-33 | keeps the text and display side, leaves the method name null, and IsMethod false |
| Buttons.MemberButton | Assets/Plugins/LoM/Super/Attributes/ButtonAttribute.cs:41-46 | keeps the text, method name and display side, and IsMethod false |
| Buttons.ButtonDefaults | Assets/Plugins/LoM/Super/Attributes/ButtonAttribute.cs:13-46 | whatever the arguments, IsMethod is false, and without a display side the button is shown before the member |
| Buttons.ConstructorsAgreeWithoutMethodName | Assets/Plugins/LoM/Super/Attributes/ButtonAttribute.cs:29-46 | the two constructors build the same button exactly when no method name is given |
| Conditions.EditableIfBool | Assets/Plugins/LoM/Super/Attributes/Condition/EditableIfAttribute.cs:27 | the bool form forwards its field name and value unchanged |
| Conditions.EditableIfEnum | Assets/Plugins/LoM/Super/Attributes/Condition/EditableIfAttribute.cs:45 | the enum form forwards its field name, enum value and isEqualTo unchanged |
| Conditions.EvaluateActive | Assets/Plugins/LoM/Super/Attributes/Condition/EditableIfAttribute.cs:52-55 | an EditableIf condition is always active; a ShowIf condition is as its base evaluates |
| Conditions.EvaluateReadOnly | Assets/Plugins/LoM/Super/Attributes/Condition/EditableIfAttribute.cs:62-65 | an EditableIf condition is read-only exactly when the same ShowIf condition would hide the member |
| Conditions.EditableIfEnumDocumented | Assets/Plugins/LoM/Super/Attributes/Condition/EditableIfAttribute.cs:30-45 | under the documented semantics, the enum form is editable exactly when the watched value equals the enum value, or differs from it when isEqualTo is false |
| Conditions.EditableIfBoolDocumented | Assets/Plugins/LoM/Super/Attributes/Condition/EditableIfAttribute.cs:20-27 | under the documented semantics, the bool form is editable exactly when the watched flag has the expected value |
| SerializedAttributesModel.SerializedAttributes.FixedBufferSize | Assets/Plugins/LoM/Super/Editor/Serialization/SerializedAttributes.cs:51-52 | the buffer's length with a FixedBuffer attribute, and 0 without one |
| SerializedAttributesModel.ApplyConditions | Assets/Plugins/LoM/Super/Editor/Serialization/SerializedAttributes.cs:113-122 | with no conditions both flags are kept; otherwise both equal the last condition's results |
| SerializedAttributesModel.EvaluateConditions | Assets/Plugins/LoM/Super/Editor/Serialization/SerializedAttributes.cs:113-122 | with no conditions the attributes are unchanged; otherwise IsActive and IsReadOnly equal the last condition's results, and nothing else changes |
| SerializedAttributesModel.EvaluateConditionsIdempotent | Assets/Plugins/LoM/Super/Editor/Serialization/SerializedAttributes.cs:87-121 | evaluating the conditions again changes nothing |
| SerializedAttributesModel.LabelOf | Assets/Plugins/LoM/Super/Editor/Serialization/SerializedAttributes.cs:77 | the text of the first Label attribute when it has one; the nicified member name when that text is null or there is no Label attribute |
| SerializedAttributesModel.ReadField | Assets/Plugins/LoM/Super/Editor/Serialization/SerializedAttributes.cs:89-108 | each flag of a field holds exactly when its Unity attribute is present, and the member starts active; headers, spaces, buttons, tooltip and fixed buffer are present exactly when such an attribute is |
| SerializedAttributesModel.ReadProperty | Assets/Plugins/LoM/Super/Editor/Serialization/SerializedAttributes.cs:66-86 | a property is read-only exactly when it has no setter; each other flag holds exactly when its Property* attribute is present, and the member starts active |
| SerializedAttributesModel.FreshMemberIsActive | Assets/Plugins/LoM/Super/Editor/Serialization/SerializedAttributes.cs:20 | a member without condition attributes is active |
| SerializedAttributesModel.ConditionsOverrideMissingSetter | Assets/Plugins/LoM/Super/Editor/Serialization/SerializedAttributes.cs:69-120 | a setter-less property whose last condition is a satisfied EditableIf ends active and editable |
| SerializedAttributesModel.LastCollected | Assets/Plugins/LoM/Super/Editor/Serialization/SerializedAttributes.cs:76 | the attributes are collected in declaration order, so the last attribute is the last condition |
| SerializationUtility.PopulateFields | Assets/Plugins/LoM/Super/Editor/Serialization/SuperSerializationUtility.cs:157-167 | a field is kept exactly when it is an instance field passing the inclusion filter |
| SerializationUtility.FieldFilterRules | Assets/Plugins/LoM/Super/Editor/Serialization/SuperSerializationUtility.cs:161-165 | a field is excluded without a serialization reason, and excluded by any of HideInInspector, Obsolete, NonSerialized or SerializeProperty; allowing code smells only adds fields |
| SerializationUtility.PopulateProperties | Assets/Plugins/LoM/Super/Editor/Serialization/SuperSerializationUtility.cs:170-176 | a property is kept exactly when it is an instance property carrying SerializeProperty |
| SerializationUtility.FieldNamed | Assets/Plugins/LoM/Super/Editor/Serialization/SuperSerializationUtility.cs:150 | finds an instance field of the name, or reports that there is none |
| SerializationUtility.ScanFields | Assets/Plugins/LoM/Super/Editor/Serialization/SuperSerializationUtility.cs:141-156 | the scan yields at most one field per visible name, never "m_Script", and only instance fields whose name is visible |
| SerializationUtility.ScanFieldsKeepsOrder | Assets/Plugins/LoM/Super/Editor/Serialization/SuperSerializationUtility.cs:145-153 | when every visible name resolves and none is "m_Script", the scan yields, in iterator order, exactly the field each name looks up |
| SerializationUtility.ScanFieldsSkipsUnscannable | Assets/Plugins/LoM/Super/Editor/Serialization/SuperSerializationUtility.cs:145-153 | names without an instance field, and "m_Script", are skipped: the scan equals the scan of the remaining names |
| SerializationUtility.ScanFieldsIsLookupOfScannable | Assets/Plugins/LoM/Super/Editor/Serialization/SuperSerializationUtility.cs:141-156 | for every input, the scan has one field per scannable name, in iterator order, each the field that name looks up |
| SerializationUtility.GetUnityObjectInfo | Assets/Plugins/LoM/Super/Editor/Serialization/SuperSerializationUtility.cs:23-28 | a cached type returns its entry unchanged; a miss computes the info by reflection and inserts it |
| SerializationUtility.GetUnityObjectInfoFor | Assets/Plugins/LoM/Super/Editor/Serialization/SuperSerializationUtility.cs:30-35 | a cached type returns its entry unchanged; a miss computes the info from the serialized object and inserts it |
| SerializationUtility.OverloadsShareEntries | Assets/Plugins/LoM/Super/Editor/Serialization/SuperSerializationUtility.cs:23-35 | whichever overload fills a type's entry, the other one then returns it |
| SerializationUtility.PreCacheRoots | Assets/Plugins/LoM/Super/Editor/Serialization/SuperSerializationUtility.cs:42-52 | no roots exactly when pre-caching is off, or the scripts path is empty and the plugins preference is off; otherwise the non-empty scripts path, then "Plugins" when its preference is on |
| SerializationUtility.DefaultRoots | Assets/Plugins/LoM/Super/Editor/Serialization/SuperSerializationUtility.cs:42-50 | with nothing stored, the roots are "Scripts" and "Plugins" |
| SerializationUtility.SanitizedShape | Assets/Plugins/LoM/Super/Editor/Serialization/SuperSerializationUtility.cs:56-58 | a sanitised path is lower case, has no backslash and starts with "assets/" |
| SerializationUtility.Sanitize | Assets/Plugins/LoM/Super/Editor/Serialization/SuperSerializationUtility.cs:56-58 | the sanitiser itself; SanitizedShape and CapitalisedAssetsPathIsPrefixedTwice state what it yields |
| SerializationUtility.CapitalisedAssetsPathIsPrefixedTwice | Assets/Plugins/LoM/Super/Editor/Serialization/SuperSerializationUtility.cs:56-57 | the prefix test reads the unsanitised path, so a path starting "Assets/" is sanitised to one starting "assets/assets/" |
| SerializationUtility.SanitizedFolders | Assets/Plugins/LoM/Super/Editor/Serialization/SuperSerializationUtility.cs:54-60 | one sanitised folder per root, in order |
| SerializationUtility.SelectedAssembly | Assets/Plugins/LoM/Super/Editor/Serialization/SuperSerializationUtility.cs:82-92 | an assembly is selected when one of its source files, slashes normalised and lowered, contains a sanitised folder; PreCache states the cache in terms of it |
| SerializationUtility.AddTypes | Assets/Plugins/LoM/Super/Editor/Serialization/SuperSerializationUtility.cs:64-79 | existing entries are kept, and a type is cached exactly when it was before or is a SuperBehaviour type of the list, new ones with their reflected info |
| SerializationUtility.AddAssemblies | Assets/Plugins/LoM/Super/Editor/Serialization/SuperSerializationUtility.cs:59-60 | existing entries are kept, and exactly the SuperBehaviour types of the assemblies are added, each with its reflected info |
| SerializationUtility.PreCache | Assets/Plugins/LoM/Super/Editor/Serialization/SuperSerializationUtility.cs:39-80 | without roots the cache is unchanged; otherwise existing entries are kept, and a type is cached exactly when it was cached before or is a SuperBehaviour type of an assembly with a source file under a sanitised root, new ones with their reflected info |
| SerializationUtility.ClearCache | Assets/Plugins/LoM/Super/Editor/Serialization/SuperSerializationUtility.cs:96-101 | the cache restarts empty, and with roots it holds exactly the SuperBehaviour types of the selected assemblies, each with its reflected info; it stays empty when pre-caching is disabled |
| SerializedObjects.Upsert | Assets/Plugins/LoM/Super/Editor/Serialization/SuperSerializedObject.cs:78-80 | a target's entry is replaced at its own position or appended, targets stay distinct, and every other entry keeps its place and value |
| SerializedObjects.BuildEntry | Assets/Plugins/LoM/Super/Editor/Serialization/SuperSerializedObject.cs:87-105 | All is Fields followed by Properties: fields[i] wraps the i-th field, properties[i] the i-th property, and the methods are the type's |
| SerializedObjects.InitProperties | Assets/Plugins/LoM/Super/Editor/Serialization/SuperSerializedObject.cs:78-106 | the type becomes the target's and is cached; the target's entry is built from the cached info; every other entry is one that was there before, the first entry keeps its place, and no target is added or lost |
| SerializedObjects.Create | Assets/Plugins/LoM/Super/Editor/Serialization/SuperSerializedObject.cs:41-73 | there is an entry exactly for each target, targets are distinct, the first entry is the first target's, and the type is the last target's |
| SerializedObjects.CreateBuildsFromCache | Assets/Plugins/LoM/Super/Editor/Serialization/SuperSerializedObject.cs:41-106 | the info cache only grows, and every entry is built from the info the cache holds for its target's type |
| SerializedObjects.GettersReadFirstTarget | Assets/Plugins/LoM/Super/Editor/Serialization/SuperSerializedObject.cs:32-35 | with some target, the getters read the first target's arrays, built from the cached info of its type |
| SerializedObjects.FirstEntry | Assets/Plugins/LoM/Super/Editor/Serialization/SuperSerializedObject.cs:32-35 | the getters read the first target's entry, and there is one exactly when some target exists |
| SerializedObjects.AllProperties | Assets/Plugins/LoM/Super/Editor/Serialization/SuperSerializedObject.cs:161-172 | a property is listed exactly when it belongs to some target |
| SerializedObjects.MatchesPerTargetAppend | Assets/Plugins/LoM/Super/Editor/Serialization/SuperSerializedObject.cs:161-172 | a target added later contributes its matches after all earlier targets' matches |
| SerializedObjects.FilterAllIsMatchesPerTarget | Assets/Plugins/LoM/Super/Editor/Serialization/SuperSerializedObject.cs:150-172 | filtering all properties by path is the same as filtering each target's array in turn |
| SerializedObjects.FindAllPropertiesByPath | Assets/Plugins/LoM/Super/Editor/Serialization/SuperSerializedObject.cs:161-172 | returns exactly the properties of any target whose path matches, target by target in dictionary order and, within a target, in array order |
| SerializedObjects.FindPropertyByPath | Assets/Plugins/LoM/Super/Editor/Serialization/SuperSerializedObject.cs:150-160 | a result has the path and belongs to a target; null exactly when no property matches |
| SerializedObjects.FindIsFirstOfFindAll | Assets/Plugins/LoM/Super/Editor/Serialization/SuperSerializedObject.cs:150-172 | the first match is the head of all matches, in target order, then array order |
| SerializedObjects.StaticInvokedAtMostOnce | Assets/Plugins/LoM/Super/Editor/Serialization/SuperSerializedObject.cs:190-216 | across all targets, a matching static method is invoked at most once |
| SerializedObjects.MatchingMethodsInvoked | Assets/Plugins/LoM/Super/Editor/Serialization/SuperSerializedObject.cs:190-216 | every matching instance method is invoked on its target, and a matching static method is invoked when none was before |
| SerializedObjects.InvokeAll | Assets/Plugins/LoM/Super/Editor/Serialization/SuperSerializedObject.cs:193-215 | every call is of a listed method with the name, on its target, and records whether it threw |
| SerializedObjects.InvokeMethod | Assets/Plugins/LoM/Super/Editor/Serialization/SuperSerializedObject.cs:190-216 | calls go only to methods with the name, on a target that has them; each exception is recorded; at most one static method is invoked, and one is when any exists; every instance method with the name is invoked on its target |
| SerializedObjects.EntryOf | Assets/Plugins/LoM/Super/Editor/Serialization/SuperSerializedObject.cs:225-227 | the entry of a target is found exactly when it has one, and it is the target's only entry when targets are distinct |
| SerializedObjects.OwnPairs | Assets/Plugins/LoM/Super/Editor/Serialization/SuperSerializedObject.cs:227 | a target's methods are iterated in array order, each paired with that target |
| SerializedObjects.InvokeMethodOn | Assets/Plugins/LoM/Super/Editor/Serialization/SuperSerializedObject.cs:223-246 | an unregistered target gets no call; otherwise calls go only to the target's own methods with the name, each exception is recorded, every such instance method is invoked, and exactly one static one when any exists |
| SerializedObjects.ThrowsDoNotChangeInvocations | Assets/Plugins/LoM/Super/Editor/Serialization/SuperSerializedObject.cs:200-212 | a throwing method is logged and the loop goes on, so which methods throw does not change which are invoked |
| SerializedObjects.FirstSuccess | Assets/Plugins/LoM/Super/Editor/Serialization/SuperSerializedObject.cs:256-276 | the result is the first matching pair whose invocation does not throw, and there is none exactly when every match throws |
| SerializedObjects.InvokeMethodValue | Assets/Plugins/LoM/Super/Editor/Serialization/SuperSerializedObject.cs:256-276 | default when every matching method throws or none exists; otherwise the value of the first matching method, in target then array order, that does not throw |
| SerializedObjects.ValueOfFirstSuccess | Assets/Plugins/LoM/Super/Editor/Serialization/SuperSerializedObject.cs:258-275 | default when every match throws; otherwise the value of the first match that does not throw |
| SerializedObjects.InvokeMethodValueOn | Assets/Plugins/LoM/Super/Editor/Serialization/SuperSerializedObject.cs:286-304 | an unregistered target gives default; otherwise default when every own method with the name throws, and else the value of the first that does not throw |
| SerializedObjects.NoThrowsPicksFirstInvoked | Assets/Plugins/LoM/Super/Editor/Serialization/SuperSerializedObject.cs:256-276 | with no throws, the value comes from the first method the invocation loop reaches |
| GuiLayout.DrawSpace | Assets/Plugins/LoM/Super/Editor/GUI/EditorSuperGUILayout.cs:126-136 | false, with nothing drawn, when inactive, without spaces, or for a field with ignoreFieldProperties; otherwise one space per attribute, in order |
| GuiLayout.DrawHeaders | Assets/Plugins/LoM/Super/Editor/GUI/EditorSuperGUILayout.cs:143-155 | false, with nothing drawn, when inactive, without headers, or for a field with ignoreFieldProperties; otherwise one header per attribute, in order |
| GuiLayout.PropertyButtons | Assets/Plugins/LoM/Super/Editor/GUI/EditorSuperGUILayout.cs:165-176 | the buttons on the requested side, in attribute order, each labelled with its text or "Do not press!"; the invocations are the method names of the clicked buttons that are not method buttons, in order, and nothing else |
| GuiLayout.DrawButtons | Assets/Plugins/LoM/Super/Editor/GUI/EditorSuperGUILayout.cs:163-177 | true exactly when the property is active and has any button; then the buttons drawn and the methods invoked are those of the requested side in attribute order, and otherwise nothing is drawn or invoked |
| GuiLayout.ButtonsReportedWithoutButtons | Assets/Plugins/LoM/Super/Editor/GUI/EditorSuperGUILayout.cs:165-176 | an active property whose buttons are all on the other side reports true while drawing nothing |
| GuiLayout.DrawMethodButtons | Assets/Plugins/LoM/Super/Editor/GUI/EditorSuperGUILayout.cs:186-210 | the method's buttons on the requested side in order, labelled with their text or the method's name, then, before the member only, one button per context menu; one invocation of the method's name per clicked button or menu; true exactly when something is drawn |
| GuiLayout.MethodButtonsDrawnIff | Assets/Plugins/LoM/Super/Editor/GUI/EditorSuperGUILayout.cs:186-210 | a method's draw reports true exactly when it has a button for the requested side, or a context menu on the toolbox before the fields |
| GuiLayout.DrawAttributesBefore | Assets/Plugins/LoM/Super/Editor/GUI/EditorSuperGUILayout.cs:217-222 | the result of the non-short-circuit "or": true exactly when the member is active and has spaces or headers it is allowed to draw, or has any button; an inactive member draws nothing; only spaces, headers and buttons are drawn, and only buttons for a field with ignoreFieldProperties |
| GuiLayout.BeforeDrawsEverySection | Assets/Plugins/LoM/Super/Editor/GUI/EditorSuperGUILayout.cs:125-177 | for an active member that is not an ignored field, every space in order, then every header in order, then the buttons for before the member in order: all three drawers run |
| GuiLayout.BeforeInvokesAndFieldButtons | Assets/Plugins/LoM/Super/Editor/GUI/EditorSuperGUILayout.cs:163-222 | before an active member only the buttons invoke, each clicked non-method button's method name once, in order; a field with ignoreFieldProperties gets exactly its before-buttons |
| GuiLayout.DrawAttributesAfter | Assets/Plugins/LoM/Super/Editor/GUI/EditorSuperGUILayout.cs:229-232 | only buttons are drawn after a member, and only for an active one |
| GuiLayout.Body | Assets/Plugins/LoM/Super/Editor/GUI/EditorSuperGUILayout.cs:61-78 | a drawer is used exactly when there is one; otherwise a field gets the default field, a Unity object reference the object field, and any other property the "no drawer" text, each exactly in its case |
| GuiLayout.Assemble | Assets/Plugins/LoM/Super/Editor/GUI/EditorSuperGUILayout.cs:31-84 | the body sits right after the decorations before it, everything else is a decoration, and nothing is enabled when the scope is not |
| GuiLayout.PropertyField | Assets/Plugins/LoM/Super/Editor/GUI/EditorSuperGUILayout.cs:25-87 | always returns false and restores GUI.enabled; an inactive member draws nothing; a read-only one draws everything disabled; the body is drawn once; a field without a drawer gets no space or header; a read-only member or a disabled scope invokes nothing; otherwise the clicked buttons before the member invoke their methods, and the clicked buttons after it too unless the missing-drawer text turned the GUI off |
| GuiLayout.GatedInvocations | Assets/Plugins/LoM/Super/Editor/GUI/EditorSuperGUILayout.cs:28-80 | each button pass around an active member invokes the clicked buttons of its side when the GUI is enabled for it, and nothing when it is disabled |
| GuiLayout.DisabledButtonsInvokeNothing | Assets/Plugins/LoM/Super/Editor/GUI/EditorSuperGUILayout.cs:165-176 | buttons drawn while the GUI is disabled invoke nothing, on either side |
| GuiLayout.BeforeWidgetsIgnoreClicks | Assets/Plugins/LoM/Super/Editor/GUI/EditorSuperGUILayout.cs:163-222 | what is drawn before a member is the same whatever is clicked |
| SuperEditors.ActionFor | Assets/Plugins/LoM/Super/Editor/SuperEditor.cs:148-168 | an inactive or hidden field is skipped; layer, tag, tab and HDR-colour fields are drawn by the improved branch, with layer, tag and HDR decided before tab |
| SuperEditors.WriteBack | Assets/Plugins/LoM/Super/Editor/SuperEditor.cs:237-263 | a value is written back exactly when the field is not read-only and the comparison the field's type uses reports a change, and then it is the entered value |
| SuperEditors.ImprovedEdit | Assets/Plugins/LoM/Super/Editor/SuperEditor.cs:221-304 | nothing is written for a read-only field or while the GUI is disabled; otherwise a layer, tag or colour field writes exactly when the entered value differs from the stored one (a colour by more than Unity's tolerance), and writes the entered value; a tab writes only the clicked tab |
| SuperEditors.ImprovedEditChangesValue | Assets/Plugins/LoM/Super/Editor/SuperEditor.cs:237-263 | any layer, tag or colour write comes from an editable field and changes the value, a colour beyond the tolerance |
| SuperEditors.NearColorNotWritten | Assets/Plugins/LoM/Super/Editor/SuperEditor.cs:258-266 | a colour entered within Unity's tolerance of the stored one is not written back, though it differs |
| SuperEditors.MixModeIffValuesDiffer | Assets/Plugins/LoM/Super/Editor/SuperEditor.cs:390-420 | for a comparison that is symmetric and transitive, mixed mode holds exactly when several objects are edited and some two values compare unequal |
| SuperEditors.ExactMixModeIffValuesDiffer | Assets/Plugins/LoM/Super/Editor/SuperEditor.cs:390-410 | for layers and tags, mixed mode holds exactly when several objects are edited and not all values are equal |
| SuperEditors.ColorMixModeMissesOuterPair | Assets/Plugins/LoM/Super/Editor/SuperEditor.cs:412-420 | three colours each within tolerance of the middle one, listed middle first, are not shown as mixed though the outer two differ beyond the tolerance |
| SuperEditors.MixModeFor | Assets/Plugins/LoM/Super/Editor/SuperEditor.cs:390-420 | mixed mode is only ever shown when several objects are edited |
| SuperEditors.MixModeEnabled | Assets/Plugins/LoM/Super/Editor/SuperEditor.cs:390-420 | mixed mode implies several objects and some value; it holds exactly when some value compares unequal to the first one |
| SuperEditors.SingleTargetNeverMixed | Assets/Plugins/LoM/Super/Editor/SuperEditor.cs:390-420 | a single object with one property of the path is never mixed, for any comparison under which equal values compare equal |
| SuperEditors.DrawField | Assets/Plugins/LoM/Super/Editor/SuperEditor.cs:148-303 | skipped fields draw nothing, write nothing and invoke nothing; read-only fields draw disabled, write nothing and invoke nothing, and so does any field in a disabled scope; standard fields write nothing themselves; an enabled field invokes its clicked before-buttons and then its clicked after-buttons, except after the missing-drawer text |
| SuperEditors.DrawProperties | Assets/Plugins/LoM/Super/Editor/SuperEditor.cs:204-218 | nothing is enabled in a disabled scope; an enabled widget comes from an editable property's field; with no active, visible property nothing is drawn |
| SuperEditors.PropertyPlacedHolds | Assets/Plugins/LoM/Super/Editor/SuperEditor.cs:208-216 | one property places nothing when inactive or hidden, and an enabled widget only in an enabled section and from its own field when it is editable |
| SuperEditors.PropertiesInvoked | Assets/Plugins/LoM/Super/Editor/SuperEditor.cs:204-218 | a disabled section invokes nothing, and neither does one whose active, visible properties are all read-only |
| SuperEditors.DisabledPropertyInvokesNothing | Assets/Plugins/LoM/Super/Editor/SuperEditor.cs:208-216 | a property invokes nothing when the section is disabled, or when it is inactive, hidden or read-only |
| SuperEditors.PropertiesInvokeNothing | Assets/Plugins/LoM/Super/Editor/SuperEditor.cs:204-218 | a loop over properties that each invoke nothing invokes nothing |
| SuperEditors.DrawPropertiesSingleton | Assets/Plugins/LoM/Super/Editor/SuperEditor.cs:204-218 | one property places its field, disabled when read-only or in a disabled scope, exactly when it is active and visible, and nothing otherwise |
| SuperEditors.PropertiesInvokedSingleton | Assets/Plugins/LoM/Super/Editor/SuperEditor.cs:204-218 | one property invokes what its field invokes, with the GUI disabled when it is read-only or the section is disabled, exactly when it is active and visible, and nothing otherwise |
| SuperEditors.DrawPropertiesAppend | Assets/Plugins/LoM/Super/Editor/SuperEditor.cs:204-218 | the properties of a concatenation are drawn, and invoke their methods, one list after the other |
| SuperEditors.PropertiesSection | Assets/Plugins/LoM/Super/Editor/SuperEditor.cs:183-218 | no properties draw nothing; otherwise the header is drawn; a collapsed section stops after it and invokes nothing; an open one draws the properties loop and its invocations, enabled only in play mode with one object and an enabled scope, so outside play mode or with several objects everything is disabled and nothing is invoked |
| SuperEditors.OneSmellPerPublicField | Assets/Plugins/LoM/Super/Editor/SuperEditor.cs:337-342 | the code-smell list has exactly one entry per public field, naming it |
| SuperEditors.CodeSmells | Assets/Plugins/LoM/Super/Editor/SuperEditor.cs:307-310 | either code-smell preference switched off gives an empty list |
| SuperEditors.FreshStoreShowsSummaryForPublicFields | Assets/Plugins/LoM/Super/Editor/SuperEditor.cs:307-345 | with default preferences the list is non-empty exactly when there is a public field |
| SuperEditors.ToolboxCountMatchesButtons | Assets/Plugins/LoM/Super/Editor/SuperEditor.cs:434-451 | the count the toolbox is sized for equals the number of buttons drawn into it |
| SuperEditors.DrawToolbox | Assets/Plugins/LoM/Super/Editor/SuperEditor.cs:429-451 | the toolbox is drawn exactly when there is a serialized object whose first target has a positive button count; it then holds that many buttons, and the clicks invoke each method's name once per click, method by method in order |
| SuperEditors.ToolboxInvocations | Assets/Plugins/LoM/Super/Editor/SuperEditor.cs:445-448 | the methods' draws invoke, method by method in order, each method's name once per click on one of its buttons or menus |
| SuperEditors.UpdateIcon | Assets/Plugins/LoM/Super/Editor/SuperEditor.cs:454-466 | a missing type throws; without a SuperIcon attribute the class-name icon's texture path is assigned; with one, the attribute's path |
| SuperEditors.UpdateIconNeverSkips | Assets/Plugins/LoM/Super/Editor/SuperEditor.cs:454-457 | the remembered icon stays None and no class-name icon is None, so the early exit never fires and an icon is always assigned |
| ProjectWindow.DeclaredFirstIffBeforeAll | Assets/Plugins/LoM/Super/Editor/GUI/ProjectWindowItemCustomizer.cs:99-118 | a declaration counts exactly when it occurs and precedes the first "class" and the first "struct" wherever they occur |
| ProjectWindow.OverridesIcon | Assets/Plugins/LoM/Super/Editor/GUI/ProjectWindowItemCustomizer.cs:83-88 | a script overrides its icon when its text contains "[SuperIcon(" or "[Icon("; OverlayIffDecorated states its effect |
| ProjectWindow.IsEnum | Assets/Plugins/LoM/Super/Editor/GUI/ProjectWindowItemCustomizer.cs:99-107 | a script is an enum when "public enum" is declared first; DeclaredFirstIffBeforeAll states the test |
| ProjectWindow.IsInterface | Assets/Plugins/LoM/Super/Editor/GUI/ProjectWindowItemCustomizer.cs:109-118 | a script is an interface when "public interface" is declared first and its file name starts with "I" |
| ProjectWindow.IsSuperBehaviour | Assets/Plugins/LoM/Super/Editor/GUI/ProjectWindowItemCustomizer.cs:90-97 | a script is a SuperBehaviour when it loads and its class derives from SuperBehaviour |
| ProjectWindow.LastIndexOfChar | Assets/Plugins/LoM/Super/Editor/GUI/ProjectWindowItemCustomizer.cs:114 | the index of the last occurrence of the character, or -1 when there is none |
| ProjectWindow.FileNameOfScript | Assets/Plugins/LoM/Super/Editor/GUI/ProjectWindowItemCustomizer.cs:77 | the file name of "folder/Name.cs" without extension is Name |
| ProjectWindow.SquareRect | Assets/Plugins/LoM/Super/Editor/GUI/ProjectWindowItemCustomizer.cs:50-59 | a wider rect becomes height + 1 wide and moves right by one; a taller one becomes as high as it is wide; a square one is kept |
| ProjectWindow.Variant | Assets/Plugins/LoM/Super/Editor/GUI/ProjectWindowItemCustomizer.cs:60-64 | the "_W" variant is used exactly for small, selected items |
| ProjectWindow.ItemOverlay | Assets/Plugins/LoM/Super/Editor/GUI/ProjectWindowItemCustomizer.cs:16-81 | non-".cs" assets, scripts that override their icon, and scripts that are none of SuperBehaviour, enum or interface get no overlay |
| ProjectWindow.OverlayIcon | Assets/Plugins/LoM/Super/Editor/GUI/ProjectWindowItemCustomizer.cs:29-78 | an overlay shows the enum icon before the interface icon for plain scripts, and the class-name icon of a SuperBehaviour's file name, in the variant for its size and selection |
| ProjectWindow.ExpectedIcon | Assets/Plugins/LoM/Super/Editor/GUI/ProjectWindowItemCustomizer.cs:29-43 | the enum icon only for a plain script declared as an enum, the interface icon only for a plain script that is not, and for a SuperBehaviour a class-name classification, never None, Custom or a file icon |
| ProjectWindow.OverlayIffDecorated | Assets/Plugins/LoM/Super/Editor/GUI/ProjectWindowItemCustomizer.cs:22-43 | an overlay is drawn exactly for a ".cs" script that does not override its icon and is a SuperBehaviour, an enum or an interface |
| ProjectWindow.LargeItemsNeverWhite | Assets/Plugins/LoM/Super/Editor/GUI/ProjectWindowItemCustomizer.cs:60-78 | items 20 or more wide never use the white variant |

## Left out

- Unity engine calls are left out: input actions, `Debug.Log`, animators, `Destroy`, `FindAnyObjectByType`, camera rays, outlines, UI text and panels. The values they return are parameters; the calls made on modes, ships and messages are recorded as data.
- `ArabicFixer` text shaping, the `Random.Range` choice of encouragement message and the message texts are left out: a shown message is recorded by kind.
- Quiz loading from `Resources` and JSON is left out: the quiz data is a parameter. The answer-button wiring in `ShowQuestion` is left out too, including the exception it raises when a question has fewer answers than there are buttons.
- Modes.SwitchToNextMode: the log line's type-name lookup on a null current mode is recorded as a flag, not as an exception that reaches the input system.
- HealthModel.TakeDamage: health is an `int`, not a `float`, because it only changes by integer amounts; float rounding at large magnitudes is not modelled.
- C# 32-bit integer overflow is not modelled (quest progress, quiz score, mode index, int preferences): all integers are unbounded.
- Mode implementations are reduced to opaque ids: `CharacterControllerMode`, `CannonControllerMode` and `QuizMode` do only camera and UI work.
- `ConnectServer`, the default property drawers, `RichtextDialog`, `SuperBehaviourInspector`, and the core and connect providers' `OnGUI` bodies are left out: they are I/O, threads or thin widget wrappers. Only the two providers' names and orders are used, as data.
- `SuperSerializedProperty` is not part of this model: a property's path is its member's name, and its value update, re-evaluation and disposal are left out.
- `ShowIfAttribute` is not part of this model: its evaluation on a target is a parameter, and only the documented semantics are stated separately.
- Reflection itself is left out. Attributes are assumed unique where the source reads them with `GetCustomAttribute`, so the ambiguity exception is not modelled, and member order is declaration order.
- `ObjectNames.NicifyVariableName` is a parameter. `EditorPrefs` persistence is a map, and reading a key stored under another kind gives the default.
- String comparison is ordinal, and `ToLowerInvariant` lowers ASCII letters only. Culture-sensitive `Contains`, `EndsWith`, `IndexOf` and name ordering are not modelled.
- `Enum.Parse` accepts only member names. Numeric strings and case variants are not modelled.
- Preferences.Sort: stability is not stated. LINQ's `OrderBy(...).ThenBy(...)` is stable, and so is the insertion sort here, which puts a provider before equal ones only when it came first; the contract states sortedness and permutation only.
- Preferences.Insert: states the permutation only; sortedness is stated by InsertSorted, and the position among equal providers is not stated.
- `Parallel.ForEach` in pre-caching is sequential insertion, and `AppDomain` assembly discovery is a parameter.
- `Path.GetFileNameWithoutExtension` splits on '/' only.
- The composition of `OnInspectorGUI`, `OnEnable` and `OnSceneGUI` is left out; their parts are modelled one by one.
- A disabled Unity control is taken to return the value it was given, and a disabled button to report no click, so nothing the user types into a disabled field reaches the write-back test and no disabled button invokes a method.
- The tab strip's enum-value layout and the remaining rect and pixel arithmetic are left out: a tab click is an input naming the value.
- SerializedObjects.InvokeMethod: the list of already-invoked static method names is a single flag, since only one name is invoked per call.
- SuperEditors.MixModeIffValuesDiffer: the "not all values are equal" reading is stated only for comparisons that are symmetric and transitive, which covers layers and tags. Unity's colour comparison is not transitive, and ColorMixModeMissesOuterPair shows the colour test comparing every value only with the first one.
- Colour components are reals, not 32-bit floats, and the tolerance comparison is exact over them. Rounding in the squared distance near the tolerance is not modelled.
- SuperEditors.MixModeFor: only "mixed implies several objects" is stated on the helper itself; the full condition is stated on `MixModeEnabled` by `MixModeIffValuesDiffer`.

=== FILE: button_attribute.dfy ===
/** `ButtonAttribute`: an inspector button before or after a field,
    property or method. */
module Buttons {
  import opened Wrappers

  /** The attribute's state; `text` and `methodName` are null when not
      given. */
  datatype ButtonAttribute = ButtonAttribute(isMethod: bool, text: Option<string>, displayAfter: bool, methodName: Option<string>)

  /** `ButtonAttribute(text = null, displayAfter = false)`: a button on a
      method, drawn with the method's name when no text is given. */
  function MethodButton(text: Option<string> := None, displayAfter: bool := false): (b: ButtonAttribute)
    ensures b.text == text && b.displayAfter == displayAfter
    ensures b.methodName.None?
    ensures !b.isMethod
  {
    ButtonAttribute(false, text, displayAfter, None)
  }

  /** `ButtonAttribute(text, methodName, displayAfter = false)`: a button
      beside a field or property that calls the named method. */
  function MemberButton(text: Option<string>, methodName: Option<string>, displayAfter: bool := false): (b: ButtonAttribute)
    ensures b.text == text && b.methodName == methodName && b.displayAfter == displayAfter
    ensures !b.isMethod
  {
    ButtonAttribute(false, text, displayAfter, methodName)
  }

  /** Whatever the arguments, a constructed button's `IsMethod` is false,
      and a button is displayed before its member unless asked otherwise. */
  lemma ButtonDefaults(text: Option<string>, methodName: Option<string>, b: ButtonAttribute)
    requires b == MethodButton(text) || b == MemberButton(text, methodName)
    ensures !b.isMethod && !b.displayAfter
  {
  }

  /** The two constructors agree exactly when no method name is given. */
  lemma ConstructorsAgreeWithoutMethodName(text: Option<string>, methodName: Option<string>, displayAfter: bool)
    ensures MemberButton(text, methodName, displayAfter) == MethodButton(text, displayAfter) <==> methodName.None?
  {
  }
}

=== FILE: caches.dfy ===
/** Get-or-create caches keyed by name or enum member: the icon texture
    cache, the GUI style cache and the reflection-info cache all follow
    this rule. */
module Caches {

  /** One cached lookup: the value returned, the cache afterwards, and
      whether the value had to be fetched. */
  datatype Lookup<K, V> = Lookup(value: V, cache: map<K, V>, fetched: bool)

  /** Get-or-fetch on a cache: a cached key is returned as cached;
      otherwise its value is fetched, cached and returned. */
  function GetOrFetch<K, V>(cache: map<K, V>, key: K, fetch: K -> V): (r: Lookup<K, V>)
    ensures key in cache ==> r == Lookup(cache[key], cache, false)
    ensures key !in cache ==> r.fetched && r.value == fetch(key) && r.cache == cache[key := r.value]
  {
    if key in cache then Lookup(cache[key], cache, false)
    else
      var v := fetch(key);
      Lookup(v, cache[key := v], true)
  }

  /** A second lookup of the same key hits what the first one stored. */
  lemma SecondLookupHits<K, V>(cache: map<K, V>, key: K, fetch: K -> V, fetch': K -> V)
    ensures var first := GetOrFetch(cache, key, fetch);
      GetOrFetch(first.cache, key, fetch') == Lookup(first.value, first.cache, false)
  {
  }

  /** What a lookup must return: the entry cached at the start, or the
      fetched value. */
  function Expected<K, V>(cache0: map<K, V>, fetch: K -> V, key: K): V {
    if key in cache0 then cache0[key] else fetch(key)
  }

  /** A run of lookups on one cache: every key is fetched at most once,
      only keys that were not cached at the start are fetched, and each
      lookup returns the initially cached or the fetched value. */
  method GetOrFetchAll<K, V>(cache0: map<K, V>, keys: seq<K>, fetch: K -> V)
    returns (values: seq<V>, cache: map<K, V>, fetches: seq<K>)
    ensures |values| == |keys|
    ensures forall i :: 0 <= i < |keys| ==> values[i] == Expected(cache0, fetch, keys[i])
    ensures forall i, j :: 0 <= i < j < |fetches| ==> fetches[i] != fetches[j]
    ensures forall x :: x in fetches <==> x !in cache0 && x in keys
    ensures forall x :: x in cache <==> x in cache0 || x in keys
  {
    values, cache, fetches := [], cache0, [];
    for n := 0 to |keys|
      invariant |values| == n
      invariant forall i :: 0 <= i < n ==> values[i] == Expected(cache0, fetch, keys[i])
      invariant forall k :: k in cache ==> cache[k] == Expected(cache0, fetch, k)
      invariant forall x :: x in cache <==> x in cache0 || x in keys[..n]
      invariant forall i, j :: 0 <= i < j < |fetches| ==> fetches[i] != fetches[j]
      invariant forall x :: x in fetches <==> x !in cache0 && x in keys[..n]
    {
      var key := keys[n];
      assert keys[..n + 1] == keys[..n] + [key];
      var r := GetOrFetch(cache, key, fetch);
      values := values + [r.value];
      if key !in cache {
        fetches := fetches + [key];
      }
      cache := r.cache;
    }
    assert keys[..|keys|] == keys;
  }
}

=== FILE: conditions.dfy ===
/** Condition attributes: `ShowIfAttribute` and its subclass
    `EditableIfAttribute`. `ShowIfAttribute`'s own source is not part of
    this model; its evaluation on a target is a parameter. */
module Conditions {

  /** The arguments of a `ShowIf`-style condition: a watched field and a
      boolean to compare with, or an enum value (as an int) and whether
      the field should equal it. */
  datatype ConditionArgs =
    | BoolArgs(fieldName: string, value: bool)
    | EnumArgs(fieldName: string, enumValue: int, isEqualTo: bool)

  datatype Condition = ShowIf(args: ConditionArgs) | EditableIf(args: ConditionArgs)

  /** `ShowIfAttribute.EvaluateActive` and `EvaluateReadOnly` on the current
      target. */
  datatype ShowIfEvaluation = ShowIfEvaluation(active: ConditionArgs -> bool, readOnly: ConditionArgs -> bool)

  /** `EditableIfAttribute(fieldName, value = true)`. */
  function EditableIfBool(fieldName: string, value: bool := true): (c: Condition)
    ensures c.EditableIf? && c.args == BoolArgs(fieldName, value)
  {
    EditableIf(BoolArgs(fieldName, value))
  }

  /** `EditableIfAttribute(fieldName, enumValue, isEqualTo = true)`. */
  function EditableIfEnum(fieldName: string, enumValue: int, isEqualTo: bool := true): (c: Condition)
    ensures c.EditableIf? && c.args == EnumArgs(fieldName, enumValue, isEqualTo)
  {
    EditableIf(EnumArgs(fieldName, enumValue, isEqualTo))
  }

  /** `EvaluateActive`: an `EditableIf` condition never hides its member. */
  function EvaluateActive(c: Condition, base: ShowIfEvaluation): (r: bool)
    ensures c.EditableIf? ==> r
    ensures c.ShowIf? ==> r == base.active(c.args)
  {
    match c
    case ShowIf(a) => base.active(a)
    case EditableIf(_) => true
  }

  /** `EvaluateReadOnly`: an `EditableIf` member is read-only exactly when
      the same `ShowIf` condition would hide it. */
  function EvaluateReadOnly(c: Condition, base: ShowIfEvaluation): (r: bool)
    ensures c.EditableIf? ==> r == !EvaluateActive(ShowIf(c.args), base)
    ensures c.ShowIf? ==> r == base.readOnly(c.args)
  {
    match c
    case ShowIf(a) => base.readOnly(a)
    case EditableIf(a) => !base.active(a)
  }

  /** The value of the watched field, as far as the documented semantics
      need it. */
  datatype Watched = BoolField(b: bool) | IntField(i: int) | NullReference | OtherValue

  /** The documented `ShowIf` semantics: a bool field is compared with the
      expected value, an enum field with the enum value (equal or not equal
      as asked), and any other field is tested for null. */
  function DocumentedActive(args: ConditionArgs, watched: Watched): bool {
    match args
    case BoolArgs(_, v) => if watched.BoolField? then watched.b == v else !watched.NullReference?
    case EnumArgs(_, e, eq) => watched.IntField? && ((watched.i == e) == eq)
  }

  /** Under the documented semantics, an enum-form `EditableIf` member is
      editable exactly when the watched value equals the enum value, or
      differs from it when `isEqualTo` is false. */
  lemma EditableIfEnumDocumented(fieldName: string, enumValue: int, isEqualTo: bool, watched: int, readOnly: ConditionArgs -> bool)
    ensures var base := ShowIfEvaluation(a => DocumentedActive(a, IntField(watched)), readOnly);
      var c := EditableIfEnum(fieldName, enumValue, isEqualTo);
      EvaluateActive(c, base) && (!EvaluateReadOnly(c, base) <==> ((watched == enumValue) == isEqualTo))
  {
  }

  /** Under the documented semantics, a bool-form `EditableIf` member is
      editable exactly when the watched flag has the expected value. */
  lemma EditableIfBoolDocumented(fieldName: string, value: bool, watched: bool, readOnly: ConditionArgs -> bool)
    ensures var base := ShowIfEvaluation(a => DocumentedActive(a, BoolField(watched)), readOnly);
      !EvaluateReadOnly(EditableIfBool(fieldName, value), base) <==> watched == value
  {
  }
}

=== FILE: gui_layout.dfy ===
/** `EditorSuperGUILayout`: drawing a field or property of a
    `SuperSerializedObject` with the attributes around it. Drawing is
    modelled as the list of widgets emitted, each with the `GUI.enabled`
    state it was drawn under; which buttons the user clicks this frame is
    a parameter. */
module GuiLayout {
  import opened Wrappers
  import opened Buttons
  import opened Reflection
  import opened SerializedAttributesModel

  datatype Widget =
    | SpaceWidget(height: real)
    | HeaderLabel(text: string)
    | ButtonWidget(text: string)
    | DrawerGui            // the property's custom drawer
    | DefaultField         // Unity's own `PropertyField` for a field
    | ObjectField          // an object field for a Unity object property
    | MissingDrawerText    // the disabled "No property drawer found" text

  datatype Placed = Placed(widget: Widget, enabled: bool)

  /** What `PropertyField` needs to know about a `SuperSerializedProperty`. */
  datatype PropertyView = PropertyView(attrs: SerializedAttributes, isField: bool, isUnityObject: bool, hasDrawer: bool)

  /** The outcome of a draw call: its return value, the widgets emitted
      and the method names invoked by clicked buttons. */
  datatype Drawn = Drawn(result: bool, widgets: seq<Widget>, invoked: seq<Option<string>>)

  const NoDraw: Drawn := Drawn(false, [], [])

  /** `DrawSpace`: one space per space attribute, unless the property is
      inactive, has none, or is a field whose spaces Unity draws itself. */
  function DrawSpace(p: PropertyView, ignoreFieldProperties: bool): (r: Drawn)
    ensures r.result <==> p.attrs.isActive && p.attrs.HasSpaces() && !(p.isField && ignoreFieldProperties)
    ensures r.result <==> r.widgets != []
    ensures r.result ==> r.widgets == SpaceWidgets(p.attrs.spaces)
    ensures forall w :: w in r.widgets ==> w.SpaceWidget?
    ensures r.invoked == []
  {
    if !p.attrs.isActive || !p.attrs.HasSpaces() || (p.isField && ignoreFieldProperties) then NoDraw
    else Drawn(true, SpaceWidgets(p.attrs.spaces), [])
  }

  /** One space per height, in order. */
  function SpaceWidgets(spaces: seq<real>): (r: seq<Widget>)
    ensures |r| == |spaces|
    ensures forall i :: 0 <= i < |spaces| ==> r[i] == SpaceWidget(spaces[i])
  {
    seq(|spaces|, i requires 0 <= i < |spaces| => SpaceWidget(spaces[i]))
  }

  /** `DrawHeaders`: one bold label per header, under the same guards as
      `DrawSpace`. */
  function DrawHeaders(p: PropertyView, ignoreFieldProperties: bool): (r: Drawn)
    ensures r.result <==> p.attrs.isActive && p.attrs.HasHeaders() && !(p.isField && ignoreFieldProperties)
    ensures r.result <==> r.widgets != []
    ensures r.result ==> r.widgets == HeaderWidgets(p.attrs.headers)
    ensures forall w :: w in r.widgets ==> w.HeaderLabel?
    ensures r.invoked == []
  {
    if !p.attrs.isActive || !p.attrs.HasHeaders() || (p.isField && ignoreFieldProperties) then NoDraw
    else Drawn(true, HeaderWidgets(p.attrs.headers), [])
  }

  /** One bold label per header, in order. */
  function HeaderWidgets(headers: seq<string>): (r: seq<Widget>)
    ensures |r| == |headers|
    ensures forall i :: 0 <= i < |headers| ==> r[i] == HeaderLabel(headers[i])
  {
    seq(|headers|, i requires 0 <= i < |headers| => HeaderLabel(headers[i]))
  }

  /** The buttons meant for one side of the member. */
  function OnSide(displayAfter: bool): ButtonAttribute -> bool {
    (b: ButtonAttribute) => b.displayAfter == displayAfter
  }

  /** The labels of a run of buttons: each button's text, or `fallback`
      when it has none. */
  function ButtonLabels(bs: seq<ButtonAttribute>, fallback: string): (r: seq<Widget>)
    ensures |r| == |bs|
    ensures forall i :: 0 <= i < |bs| ==> r[i] == ButtonWidget(bs[i].text.GetOr(fallback))
  {
    seq(|bs|, i requires 0 <= i < |bs| => ButtonWidget(bs[i].text.GetOr(fallback)))
  }

  lemma ButtonLabelsAppend(a: seq<ButtonAttribute>, b: seq<ButtonAttribute>, fallback: string)
    ensures ButtonLabels(a + b, fallback) == ButtonLabels(a, fallback) + ButtonLabels(b, fallback)
  {
  }

  /** The method names of a run of buttons, in order. */
  function MethodNames(bs: seq<ButtonAttribute>): (r: seq<Option<string>>)
    ensures |r| == |bs|
    ensures forall i :: 0 <= i < |bs| ==> r[i] == bs[i].methodName
  {
    seq(|bs|, i requires 0 <= i < |bs| => bs[i].methodName)
  }

  lemma MethodNamesAppend(a: seq<ButtonAttribute>, b: seq<ButtonAttribute>)
    ensures MethodNames(a + b) == MethodNames(a) + MethodNames(b)
  {
  }

  /** A property button calls its method when it is clicked and is not a
      method button. */
  function Invokes(clicked: ButtonAttribute -> bool): ButtonAttribute -> bool {
    (b: ButtonAttribute) => clicked(b) && !b.isMethod
  }

  /** A button drawn while the GUI is disabled never reports a click. */
  function ClicksWhen(enabled: bool, clicked: ButtonAttribute -> bool): ButtonAttribute -> bool {
    if enabled then clicked else (b: ButtonAttribute) => false
  }

  /** The method names the clicked property buttons on one side invoke,
      in attribute order. */
  function SideInvocations(buttons: seq<ButtonAttribute>, displayAfter: bool, clicked: ButtonAttribute -> bool): seq<Option<string>> {
    MethodNames(Where(Where(buttons, OnSide(displayAfter)), Invokes(clicked)))
  }

  lemma DisabledButtonsInvokeNothing(buttons: seq<ButtonAttribute>, displayAfter: bool, clicked: ButtonAttribute -> bool)
    ensures SideInvocations(buttons, displayAfter, ClicksWhen(false, clicked)) == []
  {
    var side := Where(buttons, OnSide(displayAfter));
    assert forall b :: b in side ==> !Invokes(ClicksWhen(false, clicked))(b);
  }

  /** The button loop of `DrawButtons(property)`: buttons on the requested
      side, in attribute order, labelled with their text or "Do not press!";
      a clicked button that is not a method button invokes its method name. */
  function PropertyButtons(buttons: seq<ButtonAttribute>, displayAfter: bool, clicked: ButtonAttribute -> bool): (r: Drawn)
    ensures r.widgets == ButtonLabels(Where(buttons, OnSide(displayAfter)), "Do not press!")
    ensures r.invoked == MethodNames(Where(Where(buttons, OnSide(displayAfter)), Invokes(clicked)))
    ensures !r.result
  {
    if buttons == [] then NoDraw
    else
      var b := buttons[0];
      var rest := PropertyButtons(buttons[1..], displayAfter, clicked);
      PropertyButtonsStep(buttons, displayAfter, clicked, rest);
      if b.displayAfter != displayAfter then rest
      else
        var invoked := if clicked(b) && !b.isMethod then [b.methodName] else [];
        Drawn(false, [ButtonWidget(b.text.GetOr("Do not press!"))] + rest.widgets, invoked + rest.invoked)
  }

  /** One turn of the button loop, as `PropertyButtons` takes it. */
  lemma PropertyButtonsStep(buttons: seq<ButtonAttribute>, displayAfter: bool, clicked: ButtonAttribute -> bool, rest: Drawn)
    requires buttons != []
    requires rest.widgets == ButtonLabels(Where(buttons[1..], OnSide(displayAfter)), "Do not press!")
    requires rest.invoked == MethodNames(Where(Where(buttons[1..], OnSide(displayAfter)), Invokes(clicked)))
    ensures var b := buttons[0];
      var kept := Where(buttons, OnSide(displayAfter));
      if b.displayAfter != displayAfter then
        ButtonLabels(kept, "Do not press!") == rest.widgets
        && MethodNames(Where(kept, Invokes(clicked))) == rest.invoked
      else
        ButtonLabels(kept, "Do not press!") == [ButtonWidget(b.text.GetOr("Do not press!"))] + rest.widgets
        && MethodNames(Where(kept, Invokes(clicked))) == (if clicked(b) && !b.isMethod then [b.methodName] else []) + rest.invoked
  {
    var b := buttons[0];
    var side := OnSide(displayAfter);
    var restKept := Where(buttons[1..], side);
    var kept := Where(buttons, side);
    SideStep(buttons, side);
    if b.displayAfter == displayAfter {
      assert side(b);
      assert kept == [b] + restKept;
      LabelsStep(b, restKept, "Do not press!");
      NamesStep(b, restKept, Invokes(clicked));
      assert Invokes(clicked)(b) == (clicked(b) && !b.isMethod);
    } else {
      assert !side(b);
      assert kept == restKept;
    }
  }

  lemma SideStep(buttons: seq<ButtonAttribute>, side: ButtonAttribute -> bool)
    requires buttons != []
    ensures Where(buttons, side) == (if side(buttons[0]) then [buttons[0]] else []) + Where(buttons[1..], side)
  {
    assert buttons == [buttons[0]] + buttons[1..];
    WhereCons(buttons[0], buttons[1..], side);
  }

  lemma LabelsStep(b: ButtonAttribute, bs: seq<ButtonAttribute>, fallback: string)
    ensures ButtonLabels([b] + bs, fallback) == [ButtonWidget(b.text.GetOr(fallback))] + ButtonLabels(bs, fallback)
  {
    ButtonLabelsAppend([b], bs, fallback);
  }

  lemma NamesStep(b: ButtonAttribute, bs: seq<ButtonAttribute>, keep: ButtonAttribute -> bool)
    ensures MethodNames(Where([b] + bs, keep)) == (if keep(b) then [b.methodName] else []) + MethodNames(Where(bs, keep))
  {
    var rest := Where(bs, keep);
    WhereCons(b, bs, keep);
    if keep(b) {
      MethodNamesAppend([b], rest);
      assert MethodNames([b]) == [b.methodName];
    } else {
      assert Where([b] + bs, keep) == rest;
    }
  }

  /** `DrawButtons(property, displayAfter)`. */
  function DrawButtons(p: PropertyView, displayAfter: bool, clicked: ButtonAttribute -> bool): (r: Drawn)
    ensures r.result <==> p.attrs.isActive && p.attrs.HasButtons()
    ensures !r.result ==> r.widgets == [] && r.invoked == []
    ensures r.result ==> r.widgets == ButtonLabels(Where(p.attrs.buttons, OnSide(displayAfter)), "Do not press!")
    ensures r.result ==> r.invoked == MethodNames(Where(Where(p.attrs.buttons, OnSide(displayAfter)), Invokes(clicked)))
    ensures forall w :: w in r.widgets ==> w.ButtonWidget?
  {
    if !p.attrs.isActive || !p.attrs.HasButtons() then NoDraw
    else
      var drawn := PropertyButtons(p.attrs.buttons, displayAfter, clicked);
      Drawn(true, drawn.widgets, drawn.invoked)
  }

  /** Unlike its documentation, `DrawButtons(property)` reports buttons as
      drawn when the property only has buttons for the other side. */
  lemma ButtonsReportedWithoutButtons(p: PropertyView, displayAfter: bool, clicked: ButtonAttribute -> bool)
    requires p.attrs.isActive && p.attrs.HasButtons()
    requires forall b :: b in p.attrs.buttons ==> b.displayAfter != displayAfter
    ensures DrawButtons(p, displayAfter, clicked).result
    ensures DrawButtons(p, displayAfter, clicked).widgets == []
  {
  }

  /** The context menus drawn with a method's buttons: all of them before
      the member, none after it. */
  function MenusOn(m: MethodInfo, displayAfter: bool): seq<string> {
    if displayAfter then [] else ContextMenusOf(m.attributes)
  }

  /** How many of a method's drawn buttons were clicked this frame. */
  function MethodClicks(m: MethodInfo, displayAfter: bool, clicked: ButtonAttribute -> bool, menuClicked: string -> bool): nat {
    |Where(Where(ButtonsOf(m.attributes), OnSide(displayAfter)), clicked)| + |Where(MenusOn(m, displayAfter), menuClicked)|
  }

  /** `DrawButtons(serializedObject, method, displayAfter)`: the method's
      buttons on the requested side, labelled with their text or the
      method's name, then, before the member only, one button per
      `ContextMenu`; each click invokes the method by name. */
  function DrawMethodButtons(m: MethodInfo, displayAfter: bool, clicked: ButtonAttribute -> bool, menuClicked: string -> bool): (r: Drawn)
    ensures r.result <==> r.widgets != []
    ensures r.widgets == LabelsThenMenus(Where(ButtonsOf(m.attributes), OnSide(displayAfter)), m.name, MenusOn(m, displayAfter))
    ensures |r.invoked| == MethodClicks(m, displayAfter, clicked, menuClicked)
    ensures forall n :: n in r.invoked ==> n == Some(m.name)
  {
    var buttons := Where(ButtonsOf(m.attributes), OnSide(displayAfter));
    var menus := MenusOn(m, displayAfter);
    var widgets := LabelsThenMenus(buttons, m.name, menus);
    var invoked := Repeat(Some(m.name), MethodClicks(m, displayAfter, clicked, menuClicked));
    Drawn(widgets != [], widgets, invoked)
  }

  /** A method reports drawing exactly when it has a button for the
      requested side, or a context menu and the toolbox is the one before
      the fields. */
  lemma MethodButtonsDrawnIff(m: MethodInfo, displayAfter: bool, clicked: ButtonAttribute -> bool, menuClicked: string -> bool)
    ensures DrawMethodButtons(m, displayAfter, clicked, menuClicked).result <==>
      (exists b :: b in ButtonsOf(m.attributes) && b.displayAfter == displayAfter) || (!displayAfter && ContextMenusOf(m.attributes) != [])
  {
    SideButtonsExist(ButtonsOf(m.attributes), displayAfter);
  }

  /** A method's buttons, then its context menus. */
  function LabelsThenMenus(buttons: seq<ButtonAttribute>, fallback: string, menus: seq<string>): (r: seq<Widget>)
    ensures |r| == |buttons| + |menus|
    ensures forall i :: 0 <= i < |buttons| ==> r[i] == ButtonWidget(buttons[i].text.GetOr(fallback))
    ensures forall j :: 0 <= j < |menus| ==> r[|buttons| + j] == ButtonWidget(menus[j])
  {
    ButtonLabels(buttons, fallback) + MenuLabels(menus)
  }

  /** One button per context menu, labelled with its menu item. */
  function MenuLabels(menus: seq<string>): (r: seq<Widget>)
    ensures |r| == |menus|
    ensures forall i :: 0 <= i < |menus| ==> r[i] == ButtonWidget(menus[i])
  {
    seq(|menus|, i requires 0 <= i < |menus| => ButtonWidget(menus[i]))
  }

  /** `n` copies of `x`. */
  function Repeat<T>(x: T, n: nat): (r: seq<T>)
    ensures |r| == n
    ensures forall y :: y in r ==> y == x
  {
    seq(n, i => x)
  }

  /** Some button is on the requested side exactly when the side's filter
      keeps one. */
  lemma SideButtonsExist(bs: seq<ButtonAttribute>, displayAfter: bool)
    ensures Where(bs, OnSide(displayAfter)) != [] <==> exists b :: b in bs && b.displayAfter == displayAfter
  {
    var kept := Where(bs, OnSide(displayAfter));
    if kept != [] {
      assert kept[0] in kept;
    }
  }

  /** `DrawAttributesBefore`: the non-short-circuit `|` runs all three,
      in the order spaces, headers, buttons, and reports whether any of
      them reported drawing. */
  function DrawAttributesBefore(p: PropertyView, ignoreFieldProperties: bool, clicked: ButtonAttribute -> bool): (r: Drawn)
    ensures r.result <==> (p.attrs.isActive &&
      (((p.attrs.HasSpaces() || p.attrs.HasHeaders()) && !(p.isField && ignoreFieldProperties)) || p.attrs.HasButtons()))
    ensures !p.attrs.isActive ==> r == NoDraw
    ensures forall w :: w in r.widgets ==> w.SpaceWidget? || w.HeaderLabel? || w.ButtonWidget?
    ensures p.isField && ignoreFieldProperties ==> forall w :: w in r.widgets ==> w.ButtonWidget?
  {
    var space := DrawSpace(p, ignoreFieldProperties);
    var headers := DrawHeaders(p, ignoreFieldProperties);
    var buttons := DrawButtons(p, false, clicked);
    Drawn(space.result || headers.result || buttons.result,
          space.widgets + headers.widgets + buttons.widgets,
          buttons.invoked)
  }

  /** `DrawAttributesAfter`: the buttons meant for after the member. */
  function DrawAttributesAfter(p: PropertyView, clicked: ButtonAttribute -> bool): (r: Drawn)
    ensures r.result ==> p.attrs.isActive
    ensures forall w :: w in r.widgets ==> w.ButtonWidget?
  {
    DrawButtons(p, true, clicked)
  }

  /** Before an active member that Unity does not decorate itself, every
      space comes first, then every header, then the buttons meant for
      before the member, each section in attribute order. */
  lemma BeforeDrawsEverySection(p: PropertyView, ignoreFieldProperties: bool, clicked: ButtonAttribute -> bool)
    requires p.attrs.isActive && !(p.isField && ignoreFieldProperties)
    ensures DrawAttributesBefore(p, ignoreFieldProperties, clicked).widgets
      == SpaceWidgets(p.attrs.spaces) + HeaderWidgets(p.attrs.headers)
        + ButtonLabels(Where(p.attrs.buttons, OnSide(false)), "Do not press!")
  {
    assert DrawSpace(p, ignoreFieldProperties).widgets == SpaceWidgets(p.attrs.spaces);
    assert DrawHeaders(p, ignoreFieldProperties).widgets == HeaderWidgets(p.attrs.headers);
  }

  /** Only the buttons before the member invoke anything, each clicked
      one that is not a method button once, in order; a field whose
      decorations Unity draws gets exactly those buttons. */
  /** What is drawn before a member does not depend on what is clicked. */
  lemma BeforeWidgetsIgnoreClicks(p: PropertyView, ignoreFieldProperties: bool, c1: ButtonAttribute -> bool, c2: ButtonAttribute -> bool)
    ensures DrawAttributesBefore(p, ignoreFieldProperties, c1).widgets == DrawAttributesBefore(p, ignoreFieldProperties, c2).widgets
  {
    assert DrawButtons(p, false, c1).widgets == DrawButtons(p, false, c2).widgets;
  }

  lemma BeforeInvokesAndFieldButtons(p: PropertyView, ignoreFieldProperties: bool, clicked: ButtonAttribute -> bool)
    requires p.attrs.isActive
    ensures DrawAttributesBefore(p, ignoreFieldProperties, clicked).invoked
      == MethodNames(Where(Where(p.attrs.buttons, OnSide(false)), Invokes(clicked)))
    ensures p.isField && ignoreFieldProperties ==>
      (DrawAttributesBefore(p, ignoreFieldProperties, clicked).widgets
        == ButtonLabels(Where(p.attrs.buttons, OnSide(false)), "Do not press!"))
  {
  }

  /** The body chosen by `PropertyField`: the drawer, else Unity's field
      for a field, else an object field for a Unity object, else the
      disabled "No property drawer found" text. */
  function Body(p: PropertyView): (w: Widget)
    ensures w == MissingDrawerText <==> !p.hasDrawer && !p.isField && !p.isUnityObject
    ensures p.hasDrawer <==> w == DrawerGui
    ensures w == DefaultField <==> !p.hasDrawer && p.isField
    ensures w == ObjectField <==> !p.hasDrawer && !p.isField && p.isUnityObject
  {
    if p.hasDrawer then DrawerGui
    else if p.isField then DefaultField
    else if p.isUnityObject then ObjectField
    else MissingDrawerText
  }

  function PlaceAll(ws: seq<Widget>, enabled: bool): (r: seq<Placed>)
    ensures |r| == |ws|
    ensures forall i :: 0 <= i < |ws| ==> r[i] == Placed(ws[i], enabled)
  {
    seq(|ws|, i requires 0 <= i < |ws| => Placed(ws[i], enabled))
  }

  predicate IsDecoration(w: Widget) {
    w.SpaceWidget? || w.HeaderLabel? || w.ButtonWidget?
  }

  /** The missing-drawer text turns the GUI off for the rest of the call. */
  function BodyEnabled(body: Widget, enabled: bool): bool {
    if body == MissingDrawerText then false else enabled
  }

  /** The widgets before the body, the body and the buttons after it. The
      missing-drawer text turns the GUI off, so it and everything after it
      are drawn disabled. */
  function Assemble(before: seq<Widget>, body: Widget, after: seq<Widget>, enabled: bool): (r: seq<Placed>)
    requires forall w :: w in before ==> IsDecoration(w)
    requires forall w :: w in after ==> w.ButtonWidget?
    ensures |before| < |r| && r[|before|].widget == body
    ensures forall i :: 0 <= i < |r| && i != |before| ==> IsDecoration(r[i].widget)
    ensures forall x :: x in r && x.enabled ==> enabled
    ensures (forall w :: w in before ==> w.ButtonWidget?) ==> forall x :: x in r ==> x.widget == body || x.widget.ButtonWidget?
  {
    var enabledBody := BodyEnabled(body, enabled);
    var r := PlaceAll(before, enabled) + [Placed(body, enabledBody)] + PlaceAll(after, enabledBody);
    assert forall i :: 0 <= i < |before| ==> r[i] == Placed(before[i], enabled) && before[i] in before;
    assert forall i :: |before| < i < |r| ==> r[i] == Placed(after[i - |before| - 1], enabledBody) && after[i - |before| - 1] in after;
    r
  }

  datatype FieldDraw = FieldDraw(result: bool, placed: seq<Placed>, invoked: seq<Option<string>>, enabledAfter: bool)

  /** `PropertyField(property, label)`: nothing for an inactive property;
      otherwise the attributes before (fields without a drawer leave
      spaces and headers to Unity), the body and the buttons after, all
      disabled when read-only. The missing-drawer text disables the GUI
      for the rest of the call. A disabled button reports no click, so
      nothing is invoked in a disabled scope or for a read-only member,
      and the buttons after the missing-drawer text invoke nothing. */
  function PropertyField(p: PropertyView, enabledBefore: bool, clicked: ButtonAttribute -> bool): (r: FieldDraw)
    ensures !r.result
    ensures r.enabledAfter == enabledBefore
    ensures !p.attrs.isActive ==> r.placed == [] && r.invoked == []
    ensures p.attrs.isActive ==> |r.placed| > 0
    ensures p.attrs.isReadOnly ==> forall x :: x in r.placed ==> !x.enabled
    ensures forall x :: x in r.placed && x.enabled ==> enabledBefore
    ensures p.attrs.isActive ==>
      var k := |DrawAttributesBefore(p, !p.hasDrawer, clicked).widgets|;
      k < |r.placed| && r.placed[k].widget == Body(p)
        && forall i :: 0 <= i < |r.placed| && i != k ==> IsDecoration(r.placed[i].widget)
    ensures p.isField && !p.hasDrawer ==> forall x :: x in r.placed ==> !x.widget.SpaceWidget? && !x.widget.HeaderLabel?
    ensures !enabledBefore || p.attrs.isReadOnly ==> r.invoked == []
    ensures p.attrs.isActive && enabledBefore && !p.attrs.isReadOnly ==>
      r.invoked == SideInvocations(p.attrs.buttons, false, clicked)
        + (if Body(p) == MissingDrawerText then [] else SideInvocations(p.attrs.buttons, true, clicked))
  {
    if !p.attrs.isActive then FieldDraw(false, [], [], enabledBefore)
    else
      var enabled := if p.attrs.isReadOnly then false else enabledBefore;
      var body := Body(p);
      var enabledBody := BodyEnabled(body, enabled);
      var before := DrawAttributesBefore(p, !p.hasDrawer, ClicksWhen(enabled, clicked));
      var after := DrawAttributesAfter(p, ClicksWhen(enabledBody, clicked));
      BeforeWidgetsIgnoreClicks(p, !p.hasDrawer, ClicksWhen(enabled, clicked), clicked);
      GatedInvocations(p, !p.hasDrawer, enabled, enabledBody, clicked);
      var placed := Assemble(before.widgets, body, after.widgets, enabled);
      FieldDraw(false, placed, before.invoked + after.invoked, enabledBefore)
  }

  /** The invocations of the two button passes around an active member,
      each pass gated by whether the GUI is enabled when it is drawn. */
  lemma GatedInvocations(p: PropertyView, ignoreFieldProperties: bool, enabled: bool, enabledAfter: bool, clicked: ButtonAttribute -> bool)
    requires p.attrs.isActive
    ensures DrawAttributesBefore(p, ignoreFieldProperties, ClicksWhen(enabled, clicked)).invoked
      == (if enabled then SideInvocations(p.attrs.buttons, false, clicked) else [])
    ensures DrawAttributesAfter(p, ClicksWhen(enabledAfter, clicked)).invoked
      == (if enabledAfter then SideInvocations(p.attrs.buttons, true, clicked) else [])
  {
    BeforeInvokesAndFieldButtons(p, ignoreFieldProperties, ClicksWhen(enabled, clicked));
    DisabledButtonsInvokeNothing(p.attrs.buttons, false, clicked);
    DisabledButtonsInvokeNothing(p.attrs.buttons, true, clicked);
    if !p.attrs.HasButtons() {
      assert Where(p.attrs.buttons, OnSide(true)) == [];
    }
  }
}

=== FILE: health.dfy ===
/** Hit points (`Health`): damage subtracts, healing adds while below the
    maximum, and the die trigger fires when damage takes a living target to
    zero or below. The health value only ever changes by integer amounts,
    so it is an `int` here. */
module HealthModel {

  datatype Health = Health(current: int, max: int)

  /** `CurrentHealth` and `MaxHealth` both start at 100. */
  const Initial: Health := Health(100, 100)

  predicate IsDead(h: Health) {
    h.current <= 0
  }

  /** `TakeDamage(damage)`: the new state and whether `Die` was triggered. */
  function TakeDamage(h: Health, damage: int): (r: (Health, bool))
    ensures IsDead(h) ==> r == (h, false)
    ensures !IsDead(h) ==> r.0 == h.(current := h.current - damage)
    ensures r.1 <==> !IsDead(h) && IsDead(r.0)
    ensures r.0.max == h.max
  {
    if h.current <= 0 then (h, false)
    else
      var h' := h.(current := h.current - damage);
      (h', h'.current <= 0)
  }

  /** `Heal(amount)`: nothing at or above the maximum; below it the full
      amount is added with no clamp. */
  function Heal(h: Health, amount: int): (r: Health)
    ensures h.current >= h.max ==> r == h
    ensures h.current < h.max ==> r.current == h.current + amount && r.max == h.max
  {
    if h.current >= h.max then h else h.(current := h.current + amount)
  }

  /** Healing is not clamped: a target one point below its maximum healed by
      50 ends 49 above it. */
  lemma HealOvershootsMax()
    ensures Heal(Health(99, 100), 50) == Health(149, 100)
  {
  }

  /** A run of damage calls: the final state and how many times `Die` fired. */
  function DamageRun(h: Health, damages: seq<int>): (Health, nat)
    decreases |damages|
  {
    if damages == [] then (h, 0)
    else
      var (h', died) := TakeDamage(h, damages[0]);
      var (last, deaths) := DamageRun(h', damages[1..]);
      (last, deaths + if died then 1 else 0)
  }

  /** Over any run of damage, `Die` fires exactly once if the target goes
      from alive to dead and never otherwise; a dead target stays dead. */
  lemma {:induction false} DieFiresAtMostOnce(h: Health, damages: seq<int>)
    ensures DamageRun(h, damages).1 <= 1
    ensures DamageRun(h, damages).1 == 1 <==> !IsDead(h) && IsDead(DamageRun(h, damages).0)
    ensures IsDead(h) ==> DamageRun(h, damages).0 == h
    decreases |damages|
  {
    if damages != [] {
      var (h', died) := TakeDamage(h, damages[0]);
      DieFiresAtMostOnce(h', damages[1..]);
    }
  }

  /** Healing a dead target below its maximum brings it back, so a later
      hit can fire `Die` a second time. */
  lemma HealRevivesDeadTarget()
    ensures var dead := TakeDamage(Initial, 100);
      dead.1 && IsDead(dead.0) &&
      !IsDead(Heal(dead.0, 10)) && TakeDamage(Heal(dead.0, 10), 10).1
  {
  }
}

=== FILE: highlight.dfy ===
/** Ship highlighting: the per-object flag (`highlightableShip`) and the
    tracker (`HighlightManager`) that, each frame in the cannon mode,
    highlights the highlightable object under the screen centre and
    un-highlights the previous one. The raycast is an input. */
module Highlighting {
  import opened Wrappers
  import opened Modes

  /** A highlightable ship: whether an `Outline` component is attached,
      the `IsHighlighted` flag, and whether the outline is showing. */
  datatype Ship = Ship(hasOutline: bool, isHighlighted: bool, outlineShown: bool)

  /** A ship starts not highlighted. */
  function NewShip(hasOutline: bool): (s: Ship)
    ensures !s.isHighlighted && !s.outlineShown && s.hasOutline == hasOutline
  {
    Ship(hasOutline, false, false)
  }

  /** `Highlight`: the flag is set even when no outline is attached. */
  function Highlight(s: Ship): (r: Ship)
    ensures r.isHighlighted && r.hasOutline == s.hasOutline
    ensures r.outlineShown == (s.hasOutline || s.outlineShown)
  {
    if !s.hasOutline then s.(isHighlighted := true)
    else s.(isHighlighted := true, outlineShown := true)
  }

  /** `RemoveHighlight`: the flag is cleared even when no outline is attached. */
  function RemoveHighlight(s: Ship): (r: Ship)
    ensures !r.isHighlighted && r.hasOutline == s.hasOutline
    ensures r.outlineShown == (!s.hasOutline && s.outlineShown)
  {
    if !s.hasOutline then s.(isHighlighted := false)
    else s.(isHighlighted := false, outlineShown := false)
  }

  lemma HighlightCallsIdempotent(s: Ship)
    ensures Highlight(Highlight(s)) == Highlight(s)
    ensures RemoveHighlight(RemoveHighlight(s)) == RemoveHighlight(s)
  {
  }

  /** A run of calls on one ship, `true` for `Highlight`, `false` for
      `RemoveHighlight`. */
  function ApplyCalls(s: Ship, calls: seq<bool>): Ship
    decreases |calls|
  {
    if calls == [] then s
    else ApplyCalls(if calls[0] then Highlight(s) else RemoveHighlight(s), calls[1..])
  }

  /** `IsHighlighted` reflects the last call made, whatever came before;
      with an outline attached, so does the outline. */
  lemma {:induction false} LastCallDecides(s: Ship, calls: seq<bool>)
    requires calls != []
    ensures ApplyCalls(s, calls).isHighlighted == calls[|calls| - 1]
    ensures s.hasOutline ==> ApplyCalls(s, calls).outlineShown == calls[|calls| - 1]
    ensures ApplyCalls(s, calls).hasOutline == s.hasOutline
    decreases |calls|
  {
    var next := if calls[0] then Highlight(s) else RemoveHighlight(s);
    if |calls| > 1 {
      LastCallDecides(next, calls[1..]);
    }
  }

  /** What the centre-screen raycast found this frame. */
  datatype Raycast = Miss | HitOther | HitHighlightable(target: nat)

  /** `currentHighlight` and `GetCurrentHighlightedObject`, as indices of
      the ships in the scene. */
  datatype Tracker = Tracker(current: Option<nat>, highlightedObject: Option<nat>)

  const InitialTracker: Tracker := Tracker(None, None)

  /** The tracker only ever refers to ships of the scene, and so does the ray. */
  predicate InScene(t: Tracker, ships: seq<Ship>) {
    (t.current.Some? ==> t.current.value < |ships|)
  }

  predicate RayInScene(ray: Raycast, ships: seq<Ship>) {
    ray.HitHighlightable? ==> ray.target < |ships|
  }

  /** `RemoveCurrentHighlight`: acts only when there is a current object and
      it reports being highlighted. */
  function RemoveCurrentHighlight(t: Tracker, ships: seq<Ship>): (r: (Tracker, seq<Ship>))
    requires InScene(t, ships)
    ensures |r.1| == |ships|
    ensures t.current.None? || !ships[t.current.value].isHighlighted ==> r == (t, ships)
    ensures t.current.Some? && ships[t.current.value].isHighlighted ==>
      r.0 == Tracker(None, None) &&
      r.1 == ships[t.current.value := RemoveHighlight(ships[t.current.value])]
  {
    match t.current
    case Some(k) =>
      if ships[k].isHighlighted then (Tracker(None, None), ships[k := RemoveHighlight(ships[k])])
      else (t, ships)
    case None => (t, ships)
  }

  /** `Update` for one frame, given the current mode and the raycast. */
  function Update(t: Tracker, ships: seq<Ship>, mode: Option<Mode>, ray: Raycast): (r: (Tracker, seq<Ship>))
    requires InScene(t, ships) && RayInScene(ray, ships)
    ensures |r.1| == |ships| && InScene(r.0, r.1)
    ensures mode.None? ==> r == (t, ships)
    ensures mode.Some? && (mode.value != CannonControllerMode || !ray.HitHighlightable?) ==>
      r == RemoveCurrentHighlight(t, ships)
    ensures mode == Some(CannonControllerMode) && ray.HitHighlightable? && t.current == Some(ray.target) ==>
      r == (t, ships)
    ensures mode == Some(CannonControllerMode) && ray.HitHighlightable? && t.current != Some(ray.target) ==>
      var removed := RemoveCurrentHighlight(t, ships);
      r.0 == Tracker(Some(ray.target), Some(ray.target)) &&
      r.1 == removed.1[ray.target := Highlight(removed.1[ray.target])]
  {
    if mode.None? then (t, ships)
    else if mode.value != CannonControllerMode then RemoveCurrentHighlight(t, ships)
    else match ray
      case HitHighlightable(k) =>
        if t.current == Some(k) then (t, ships)
        else
          var (t', ships') := RemoveCurrentHighlight(t, ships);
          (Tracker(Some(k), Some(k)), ships'[k := Highlight(ships'[k])])
      case _ => RemoveCurrentHighlight(t, ships)
  }

  /** The tracker's invariant: the recorded object is the current one, and
      exactly the current ship is highlighted. */
  predicate Consistent(t: Tracker, ships: seq<Ship>) {
    InScene(t, ships) &&
    t.highlightedObject == t.current &&
    forall j :: 0 <= j < |ships| ==> (ships[j].isHighlighted <==> t.current == Some(j))
  }

  /** A scene of fresh ships with the initial tracker is consistent. */
  lemma FreshSceneConsistent(outlines: seq<bool>)
    ensures Consistent(InitialTracker, seq(|outlines|, i requires 0 <= i < |outlines| => NewShip(outlines[i])))
  {
  }

  /** Every frame keeps the tracker consistent, so at most one ship is ever
      highlighted and it is the one recorded. */
  lemma UpdatePreservesConsistent(t: Tracker, ships: seq<Ship>, mode: Option<Mode>, ray: Raycast)
    requires Consistent(t, ships) && RayInScene(ray, ships)
    ensures Consistent(Update(t, ships, mode, ray).0, Update(t, ships, mode, ray).1)
  {
    var r := Update(t, ships, mode, ray);
    if mode.Some? && mode.value == CannonControllerMode && ray.HitHighlightable? && t.current != Some(ray.target) {
      var k := ray.target;
      var removed := RemoveCurrentHighlight(t, ships);
      assert removed.0.current.None?;
      forall j | 0 <= j < |r.1|
        ensures r.1[j].isHighlighted <==> r.0.current == Some(j)
      {
        if j != k {
          assert r.1[j] == removed.1[j];
        }
      }
    }
  }
}

=== FILE: icon_utility.dfy ===
/** Icon choice by class name (`IconUtility`): an ordered chain of rules,
    each a substring or suffix test on the name; the first rule that matches
    decides the icon. Also the memoised texture lookup per icon. */
module IconUtility {
  import opened Strings
  import opened Icons
  import opened Caches

  /** A rule's test: the name contains, or ends with, one of the words. */
  datatype NameTest = AnyContains(words: seq<string>) | AnyEndsWith(words: seq<string>)

  datatype Rule = Rule(test: NameTest, icon: SuperBehaviourIcon)

  predicate Matches(test: NameTest, name: string) {
    match test
    case AnyContains(words) => exists i :: 0 <= i < |words| && Contains(name, words[i])
    case AnyEndsWith(words) => exists i :: 0 <= i < |words| && EndsWith(name, words[i])
  }

  /** The classification as a table, in the order the rules are tried. */
  const Rules: seq<Rule> := [
    Rule(AnyContains(["Test"]), Test),
    Rule(AnyContains(["GameManager"]), GameManager),
    Rule(AnyContains(["SceneManager"]), SceneManager),
    Rule(AnyContains(["PlayerController"]), PlayerController),
    Rule(AnyContains(["PlayerMove"]), PlayerMovement),
    Rule(AnyContains(["Sound", "Audio", "Music"]), Sound),
    Rule(AnyContains(["Manager"]), Manager),
    Rule(AnyContains(["Controller"]), Controller),
    Rule(AnyContains(["Generator"]), Generator),
    Rule(AnyContains(["GameState"]), GameState),
    Rule(AnyContains(["Spawn"]), Spawn),
    Rule(AnyContains(["Settings"]), Settings),
    Rule(AnyContains(["Animator", "Animation"]), Animation),
    Rule(AnyContains(["Trigger"]), Trigger),
    Rule(AnyContains(["Loader"]), Loader),
    Rule(AnyEndsWith(["Data", "Store"]), Data),
    Rule(AnyEndsWith(["State"]), State),
    Rule(AnyContains(["Menu"]), Menu),
    Rule(AnyEndsWith(["Control"]), Control),
    Rule(AnyContains(["Input"]), Input),
    Rule(AnyContains(["Debug"]), Debug),
    Rule(AnyContains(["Gizmo"]), Gizmo)
  ]

  /** First-match semantics of a rule table: the icon of the earliest rule
      that matches, or `Default` when none does. */
  function FirstMatch(rules: seq<Rule>, name: string): (r: SuperBehaviourIcon)
    ensures (forall i :: 0 <= i < |rules| ==> !Matches(rules[i].test, name)) ==> r == Default
    ensures forall i :: (0 <= i < |rules| && Matches(rules[i].test, name) &&
                         (forall j :: 0 <= j < i ==> !Matches(rules[j].test, name))) ==> r == rules[i].icon
    ensures r == Default || exists i :: 0 <= i < |rules| && r == rules[i].icon
    decreases |rules|
  {
    if rules == [] then Default
    else if Matches(rules[0].test, name) then rules[0].icon
    else
      var r := FirstMatch(rules[1..], name);
      assert forall i :: 1 <= i < |rules| ==> rules[1..][i - 1] == rules[i];
      r
  }

  lemma MatchesOne(name: string, w: string)
    ensures Matches(AnyContains([w]), name) == Contains(name, w)
    ensures Matches(AnyEndsWith([w]), name) == EndsWith(name, w)
  {
    if Contains(name, w) { assert [w][0] == w; }
    if EndsWith(name, w) { assert [w][0] == w; }
  }

  lemma MatchesTwo(name: string, w1: string, w2: string)
    ensures Matches(AnyContains([w1, w2]), name) == (Contains(name, w1) || Contains(name, w2))
    ensures Matches(AnyEndsWith([w1, w2]), name) == (EndsWith(name, w1) || EndsWith(name, w2))
  {
    var ws := [w1, w2];
    if Contains(name, w1) { assert ws[0] == w1; }
    if Contains(name, w2) { assert ws[1] == w2; }
    if EndsWith(name, w1) { assert ws[0] == w1; }
    if EndsWith(name, w2) { assert ws[1] == w2; }
  }

  lemma MatchesThree(name: string, w1: string, w2: string, w3: string)
    ensures Matches(AnyContains([w1, w2, w3]), name) == (Contains(name, w1) || Contains(name, w2) || Contains(name, w3))
  {
    var ws := [w1, w2, w3];
    if Contains(name, w1) { assert ws[0] == w1; }
    if Contains(name, w2) { assert ws[1] == w2; }
    if Contains(name, w3) { assert ws[2] == w3; }
  }

  /** `GetIconByClassName`: the rules of the table tried in order. */
  function GetIconByClassName(className: string): (r: SuperBehaviourIcon)
    ensures r == Default || exists i :: 0 <= i < |Rules| && r == Rules[i].icon
  {
    FirstMatch(Rules, className)
  }

  /** Index of the first rule from `from` on that matches, or |rules|. */
  function FirstMatchingFrom(rules: seq<Rule>, name: string, from: nat): (i: nat)
    requires from <= |rules|
    ensures from <= i <= |rules|
    ensures i < |rules| ==> Matches(rules[i].test, name)
    ensures forall j :: from <= j < i ==> !Matches(rules[j].test, name)
    decreases |rules| - from
  {
    if from == |rules| then from
    else if Matches(rules[from].test, name) then from
    else FirstMatchingFrom(rules, name, from + 1)
  }

  /** Whatever the name, the result is `Default` exactly when no rule
      matches, and never `None`, `Custom` or one of the file-kind icons. */
  lemma RuleIconsAreClassifications()
    ensures forall i :: 0 <= i < |Rules| ==> Rules[i].icon !in {Default, None, Custom, Enum, Interface, File, FileSmall}
  {
  }

  lemma DefaultIffNoRuleMatches(name: string)
    ensures GetIconByClassName(name) == Default <==> forall i :: 0 <= i < |Rules| ==> !Matches(Rules[i].test, name)
  {
    RuleIconsAreClassifications();
    FirstMatchDefaultIffNoMatch(Rules, name);
  }

  /** In a table without `Default` rules, first-match gives `Default`
      exactly when no rule matches. */
  lemma FirstMatchDefaultIffNoMatch(rules: seq<Rule>, name: string)
    requires forall i :: 0 <= i < |rules| ==> rules[i].icon != Default
    ensures FirstMatch(rules, name) == Default <==> forall i :: 0 <= i < |rules| ==> !Matches(rules[i].test, name)
  {
    var i := FirstMatchingFrom(rules, name, 0);
    if i < |rules| {
      assert FirstMatch(rules, name) == rules[i].icon;
    }
  }

  lemma NeverNoneOrCustom(name: string)
    ensures GetIconByClassName(name) !in {None, Custom, Enum, Interface, File, FileSmall}
  {
    RuleIconsAreClassifications();
  }

  /** Any name containing "Test" is a test, whatever else it contains. */
  lemma TestWinsOverEverything(name: string)
    requires Contains(name, "Test")
    ensures GetIconByClassName(name) == Test
  {
    MatchesOne(name, "Test");
  }

  /** "GameManager" and "SceneManager" are decided before the generic
      "Manager" rule. */
  lemma SpecificManagersBeforeManager(name: string)
    requires !Contains(name, "Test")
    ensures Contains(name, "GameManager") ==> GetIconByClassName(name) == GameManager
    ensures !Contains(name, "GameManager") && Contains(name, "SceneManager") ==>
      GetIconByClassName(name) == SceneManager
  {
    MatchesOne(name, "Test");
    MatchesOne(name, "GameManager");
    MatchesOne(name, "SceneManager");
  }

  /** "PlayerController" is decided before the generic "Controller" rule. */
  lemma PlayerControllerBeforeController(name: string)
    requires !Contains(name, "Test") && !Contains(name, "GameManager") && !Contains(name, "SceneManager")
    requires Contains(name, "PlayerController")
    ensures GetIconByClassName(name) == PlayerController
  {
    MatchesOne(name, "Test");
    MatchesOne(name, "GameManager");
    MatchesOne(name, "SceneManager");
    MatchesOne(name, "PlayerController");
  }

  /** "Sound", "Audio" or "Music" anywhere makes a sound icon once the
      earlier, more specific rules have not matched. */
  lemma SoundWords(name: string)
    requires !Contains(name, "Test") && !Contains(name, "GameManager") && !Contains(name, "SceneManager")
    requires !Contains(name, "PlayerController") && !Contains(name, "PlayerMove")
    requires Contains(name, "Sound") || Contains(name, "Audio") || Contains(name, "Music")
    ensures GetIconByClassName(name) == Sound
  {
    MatchesOne(name, "Test");
    MatchesOne(name, "GameManager");
    MatchesOne(name, "SceneManager");
    MatchesOne(name, "PlayerController");
    MatchesOne(name, "PlayerMove");
    MatchesThree(name, "Sound", "Audio", "Music");
  }

  /** The Data/Store, State and Control rules test the end of the name
      only; every other rule looks anywhere in it. */
  lemma SuffixRules()
    ensures forall i :: 0 <= i < |Rules| ==>
      (Rules[i].test.AnyEndsWith? <==> Rules[i].icon in {Data, State, Control})
  {
  }

  /** A word with a character the name lacks does not occur in it. */
  lemma MissingCharNotContained(s: string, w: string, c: char)
    requires c in w && c !in s
    ensures !Contains(s, w)
  {
  }

  /** The texture path `GetIconTexture` loads for an icon. */
  function TexturePath(icon: SuperBehaviourIcon): string {
    IconFile(IconName(icon))
  }

  /** `GetIconTexture`, with the asset database's load as a parameter. */
  function GetIconTexture<T>(cache: map<SuperBehaviourIcon, T>, icon: SuperBehaviourIcon, load: string -> T): (r: Lookup<SuperBehaviourIcon, T>)
    ensures icon in cache ==> r == Lookup(cache[icon], cache, false)
    ensures icon !in cache ==> r.fetched && r.value == load(TexturePath(icon)) && r.cache == cache[icon := r.value]
  {
    GetOrFetch(cache, icon, (i: SuperBehaviourIcon) => load(TexturePath(i)))
  }

  /** Icon textures in particular: each icon's texture is loaded at most
      once, and later lookups return the cached texture. */
  method GetIconTextures<T>(cache0: map<SuperBehaviourIcon, T>, icons: seq<SuperBehaviourIcon>, load: string -> T)
    returns (textures: seq<T>, cache: map<SuperBehaviourIcon, T>, loads: seq<SuperBehaviourIcon>)
    ensures |textures| == |icons|
    ensures forall i :: 0 <= i < |icons| ==>
      textures[i] == (if icons[i] in cache0 then cache0[icons[i]] else load(TexturePath(icons[i])))
    ensures forall i, j :: 0 <= i < j < |loads| ==> loads[i] != loads[j]
    ensures forall x :: x in loads <==> x !in cache0 && x in icons
  {
    textures, cache, loads := GetOrFetchAll(cache0, icons, (i: SuperBehaviourIcon) => load(TexturePath(i)));
  }
}

=== FILE: icons.dfy ===
/** The `SuperBehaviourIcon` enum and the icon file layout shared by the
    icon attribute, the icon utility, the project window and the editor.
    The enum's declaration is not part of this model: its members are the
    ones the modelled code names. */
module Icons {

  datatype SuperBehaviourIcon =
    | None | Custom | Default
    | Test | GameManager | SceneManager | PlayerController | PlayerMovement
    | Sound | Manager | Controller | Generator | GameState | Spawn | Settings
    | Animation | Trigger | Loader | Data | State | Menu | Control | Input
    | Debug | Gizmo
    | Enum | Interface | File | FileSmall

  /** `icon.ToString()`: the member's name. */
  function IconName(icon: SuperBehaviourIcon): string {
    match icon
    case None => "None"
    case Custom => "Custom"
    case Default => "Default"
    case Test => "Test"
    case GameManager => "GameManager"
    case SceneManager => "SceneManager"
    case PlayerController => "PlayerController"
    case PlayerMovement => "PlayerMovement"
    case Sound => "Sound"
    case Manager => "Manager"
    case Controller => "Controller"
    case Generator => "Generator"
    case GameState => "GameState"
    case Spawn => "Spawn"
    case Settings => "Settings"
    case Animation => "Animation"
    case Trigger => "Trigger"
    case Loader => "Loader"
    case Data => "Data"
    case State => "State"
    case Menu => "Menu"
    case Control => "Control"
    case Input => "Input"
    case Debug => "Debug"
    case Gizmo => "Gizmo"
    case Enum => "Enum"
    case Interface => "Interface"
    case File => "File"
    case FileSmall => "FileSmall"
  }

  /** `Enum.Parse` for this enum: the member with the given name. */
  function ParseIcon(name: string): Parsed<SuperBehaviourIcon> {
    if name == "None" then Member(None)
    else if name == "Custom" then Member(Custom)
    else if name == "Default" then Member(Default)
    else if name == "Test" then Member(Test)
    else if name == "GameManager" then Member(GameManager)
    else if name == "SceneManager" then Member(SceneManager)
    else if name == "PlayerController" then Member(PlayerController)
    else if name == "PlayerMovement" then Member(PlayerMovement)
    else if name == "Sound" then Member(Sound)
    else if name == "Manager" then Member(Manager)
    else if name == "Controller" then Member(Controller)
    else if name == "Generator" then Member(Generator)
    else if name == "GameState" then Member(GameState)
    else if name == "Spawn" then Member(Spawn)
    else if name == "Settings" then Member(Settings)
    else if name == "Animation" then Member(Animation)
    else if name == "Trigger" then Member(Trigger)
    else if name == "Loader" then Member(Loader)
    else if name == "Data" then Member(Data)
    else if name == "State" then Member(State)
    else if name == "Menu" then Member(Menu)
    else if name == "Control" then Member(Control)
    else if name == "Input" then Member(Input)
    else if name == "Debug" then Member(Debug)
    else if name == "Gizmo" then Member(Gizmo)
    else if name == "Enum" then Member(Enum)
    else if name == "Interface" then Member(Interface)
    else if name == "File" then Member(File)
    else if name == "FileSmall" then Member(FileSmall)
    else NoMember
  }

  /** The outcome of parsing a member name (named apart from the enum's
      own `None`). */
  datatype Parsed<T> = NoMember | Member(value: T)

  /** Parsing an icon's name gives the icon back, so the names are
      pairwise distinct. */
  lemma ParseIconName(icon: SuperBehaviourIcon)
    ensures ParseIcon(IconName(icon)) == Member(icon)
  {
    match icon
    case None => ParseIconsFromNone();
    case Custom => ParseIconsFromNone();
    case Default => ParseIconsFromNone();
    case Test => ParseIconsFromNone();
    case GameManager => ParseIconsFromNone();
    case SceneManager => ParseIconsFromNone();
    case PlayerController => ParseIconsFromNone();
    case PlayerMovement => ParseIconsFromNone();
    case Sound => ParseIconsFromNone();
    case Manager => ParseIconsFromNone();
    case Controller => ParseIconsFromController();
    case Generator => ParseIconsFromController();
    case GameState => ParseIconsFromController();
    case Spawn => ParseIconsFromController();
    case Settings => ParseIconsFromSettings();
    case Animation => ParseIconsFromSettings();
    case Trigger => ParseIconsFromSettings();
    case Loader => ParseIconsFromLoader();
    case Data => ParseIconsFromLoader();
    case State => ParseIconsFromLoader();
    case Menu => ParseIconsFromMenu();
    case Control => ParseIconsFromMenu();
    case Input => ParseIconsFromInput();
    case Debug => ParseIconsFromInput();
    case Gizmo => ParseIconsFromGizmo();
    case Enum => ParseIconsFromGizmo();
    case Interface => ParseIconsFromInterface();
    case File => ParseIconsFromInterface();
    case FileSmall => ParseIconsFromFileSmall();
  }

  // The parse of each name, in groups small enough to decide cheaply:
  // a name further down `ParseIcon`'s chain costs more comparisons.

  lemma ParseIconsFromNone()
    ensures ParseIcon("None") == Member(None)
    ensures ParseIcon("Custom") == Member(Custom)
    ensures ParseIcon("Default") == Member(Default)
    ensures ParseIcon("Test") == Member(Test)
    ensures ParseIcon("GameManager") == Member(GameManager)
    ensures ParseIcon("SceneManager") == Member(SceneManager)
    ensures ParseIcon("PlayerController") == Member(PlayerController)
    ensures ParseIcon("PlayerMovement") == Member(PlayerMovement)
    ensures ParseIcon("Sound") == Member(Sound)
    ensures ParseIcon("Manager") == Member(Manager)
  {
  }

  lemma ParseIconsFromController()
    ensures ParseIcon("Controller") == Member(Controller)
    ensures ParseIcon("Generator") == Member(Generator)
    ensures ParseIcon("GameState") == Member(GameState)
    ensures ParseIcon("Spawn") == Member(Spawn)
  {
  }

  lemma ParseIconsFromSettings()
    ensures ParseIcon("Settings") == Member(Settings)
    ensures ParseIcon("Animation") == Member(Animation)
    ensures ParseIcon("Trigger") == Member(Trigger)
  {
  }

  lemma ParseIconsFromLoader()
    ensures ParseIcon("Loader") == Member(Loader)
    ensures ParseIcon("Data") == Member(Data)
    ensures ParseIcon("State") == Member(State)
  {
  }

  lemma ParseIconsFromMenu()
    ensures ParseIcon("Menu") == Member(Menu)
    ensures ParseIcon("Control") == Member(Control)
  {
  }

  lemma ParseIconsFromInput()
    ensures ParseIcon("Input") == Member(Input)
    ensures ParseIcon("Debug") == Member(Debug)
  {
  }

  lemma ParseIconsFromGizmo()
    ensures ParseIcon("Gizmo") == Member(Gizmo)
    ensures ParseIcon("Enum") == Member(Enum)
  {
  }

  lemma ParseIconsFromInterface()
    ensures ParseIcon("Interface") == Member(Interface)
    ensures ParseIcon("File") == Member(File)
  {
  }

  lemma ParseIconsFromFileSmall()
    ensures ParseIcon("FileSmall") == Member(FileSmall)
  {
  }

  lemma IconNameInjective(a: SuperBehaviourIcon, b: SuperBehaviourIcon)
    ensures IconName(a) == IconName(b) <==> a == b
  {
    ParseIconName(a);
    ParseIconName(b);
  }

  /** The folder holding the icon textures. */
  const IconFolder: string := "Assets/Plugins/LoM/Super/Icons/"

  /** The texture path of an icon name, optionally with a variant suffix
      such as "_W". */
  function IconFile(name: string): string {
    IconFolder + name + ".png"
  }

  /** Icon files of different names are different files. */
  lemma IconFileInjective(a: string, b: string)
    ensures IconFile(a) == IconFile(b) <==> a == b
  {
    if IconFile(a) == IconFile(b) {
      assert |a| == |b|;
      assert a == IconFile(a)[|IconFolder|..|IconFolder| + |a|];
      assert b == IconFile(b)[|IconFolder|..|IconFolder| + |b|];
    }
  }
}

=== FILE: mode_manager.dfy ===
/** The mode registry and cycler of the game (`ModeManager`): modes sit in an
    integer-keyed registry and the switch action steps through ids
    0, 1, ..., count-1 and back to 0, exiting the old mode before entering
    the new one. Mode implementations are opaque: only the calls they
    receive are recorded. */
module Modes {
  import opened Wrappers

  /** The three `IMode` implementations of the game. */
  datatype Mode = CharacterControllerMode | CannonControllerMode | QuizMode

  /** Ids the implementations register themselves under in `Initialize`
      (the quiz mode is registered by the quest system instead). */
  const CharacterModeId: int := 0
  const CannonModeId: int := 1
  const QuizModeId: int := 2

  /** A call made on a mode, in the order the manager makes them. */
  datatype ModeCall = Enter(mode: Mode) | Exit(mode: Mode)

  /** `modes` maps each registered id to its mode reference (`None` is a
      registered null); `index` is `currentModeIndex`; `current` is
      `CurrentMode`. */
  datatype Manager = Manager(modes: map<int, Option<Mode>>, index: int, current: Option<Mode>)

  /** A fresh manager: empty registry, index 0, no current mode. */
  const Initial: Manager := Manager(map[], 0, None)

  /** Outcome of `SwitchToNextMode`: the new state, the calls made, and
      whether the trailing log line dereferenced a null `CurrentMode`
      (a NullReferenceException raised after all the state changes). */
  datatype Switched = Switched(manager: Manager, calls: seq<ModeCall>, threw: bool)

  /** C#'s `%`, which truncates toward zero, for a positive divisor. */
  function CsRemainder(a: int, b: int): (r: int)
    requires b > 0
    ensures a >= 0 ==> 0 <= r < b && r == a % b
    ensures a < 0 ==> -b < r <= 0
  {
    if a >= 0 then a % b else -((-a) % b)
  }

  /** `RegisterMode`: an id already present keeps its mode. */
  function RegisterMode(m: Manager, id: int, mode: Option<Mode>): (r: Manager)
    ensures id in m.modes ==> r == m
    ensures id !in m.modes ==> r.modes.Keys == m.modes.Keys + {id} && r.modes[id] == mode
    ensures forall k :: k in m.modes ==> k in r.modes && r.modes[k] == m.modes[k]
    ensures r.index == m.index && r.current == m.current
  {
    if id in m.modes then m else m.(modes := m.modes[id := mode])
  }

  /** The mode registered under `id`, if it is registered and not null. */
  function Lookup(m: Manager, id: int): Option<Mode> {
    if id in m.modes then m.modes[id] else None
  }

  /** `SetCurrentModeById`: enters a registered non-null mode and makes it
      current; never touches the cycle index. */
  function SetCurrentModeById(m: Manager, id: int): (r: (Manager, seq<ModeCall>))
    ensures r.0.modes == m.modes && r.0.index == m.index
    ensures Lookup(m, id).None? ==> r.0 == m && r.1 == []
    ensures Lookup(m, id).Some? ==> r.0.current == Lookup(m, id) && r.1 == [Enter(Lookup(m, id).value)]
  {
    match Lookup(m, id)
    case None => (m, [])
    case Some(mode) => (m.(current := Some(mode)), [Enter(mode)])
  }

  /** `ResetCurrentModeById`: exits a registered non-null mode; the manager
      itself, `CurrentMode` included, is left as it was. */
  function ResetCurrentModeById(m: Manager, id: int): (calls: seq<ModeCall>)
    ensures Lookup(m, id).None? ==> calls == []
    ensures Lookup(m, id).Some? ==> calls == [Exit(Lookup(m, id).value)]
  {
    match Lookup(m, id)
    case None => []
    case Some(mode) => [Exit(mode)]
  }

  /** `SwitchToNextMode`. */
  function SwitchToNextMode(m: Manager): (r: Switched)
    ensures |m.modes| == 0 ==> r == Switched(m, [], false)
    ensures |m.modes| > 0 && m.index >= 0 ==> 0 <= r.manager.index < |m.modes|
    ensures r.manager.modes == m.modes
  {
    if |m.modes| == 0 then Switched(m, [], false)
    else
      var exits := ResetCurrentModeById(m, m.index);
      var next := CsRemainder(m.index + 1, |m.modes|);
      var (m', enters) := SetCurrentModeById(m.(index := next), next);
      Switched(m', exits + enters, m'.current.None?)
  }

  /** The manager's own invariant: the index is never negative. */
  predicate Valid(m: Manager) {
    m.index >= 0
  }

  lemma InitialValid()
    ensures Valid(Initial) && Initial.current.None? && |Initial.modes| == 0
  {
  }

  /** Every operation keeps the index non-negative. */
  lemma OperationsPreserveValid(m: Manager, id: int, mode: Option<Mode>)
    requires Valid(m)
    ensures Valid(RegisterMode(m, id, mode))
    ensures Valid(SetCurrentModeById(m, id).0)
    ensures Valid(SwitchToNextMode(m).manager)
  {
  }

  /** A switch exits the mode at the old index, then enters the mode at
      (old + 1) mod count, each only when it is registered and not null. */
  lemma SwitchCallOrder(m: Manager)
    requires Valid(m) && |m.modes| > 0
    ensures var next := (m.index + 1) % |m.modes|;
      SwitchToNextMode(m).manager.index == next &&
      SwitchToNextMode(m).calls ==
        (if Lookup(m, m.index).Some? then [Exit(Lookup(m, m.index).value)] else []) +
        (if Lookup(m, next).Some? then [Enter(Lookup(m, next).value)] else [])
  {
  }

  /** Switching can only make current a mode registered under an id in
      [0, count): modes registered under any other id are unreachable by
      cycling. */
  lemma SwitchReachesOnlyLowIds(m: Manager)
    requires Valid(m) && |m.modes| > 0
    ensures var r := SwitchToNextMode(m).manager;
      r.current == m.current ||
      exists k :: 0 <= k < |m.modes| && Lookup(m, k).Some? && r.current == Lookup(m, k)
  {
    var next := (m.index + 1) % |m.modes|;
    if Lookup(m, next).Some? {
      assert 0 <= next < |m.modes|;
    }
  }

  /** Setting a mode by id does not move the cycle: the next switch exits
      whatever sits at the old index, not the mode just made current. */
  lemma SetThenSwitchExitsOldIndex(m: Manager, id: int)
    requires Valid(m) && |m.modes| > 0
    ensures var s := SetCurrentModeById(m, id).0;
      SwitchToNextMode(s).calls == SwitchToNextMode(m).calls
  {
  }

  /** The game's set-up: character mode under 0 and cannon mode under 1,
      starting in the character mode. */
  function GameSetup(): Manager {
    var m := RegisterMode(RegisterMode(Initial, CharacterModeId, Some(CharacterControllerMode)),
                          CannonModeId, Some(CannonControllerMode));
    SetCurrentModeById(m, CharacterModeId).0
  }

  /** After the quiz mode is set by id, switching exits the character mode
      (still at index 0) rather than the quiz mode, and the quiz mode is
      never told to exit. */
  lemma QuizModeNeverExitedBySwitch()
    ensures var m := RegisterMode(GameSetup(), QuizModeId, Some(QuizMode));
      var s := SetCurrentModeById(m, QuizModeId).0;
      s.current == Some(QuizMode) &&
      SwitchToNextMode(s).calls == [Exit(CharacterControllerMode), Enter(CannonControllerMode)]
  {
    var m := RegisterMode(GameSetup(), QuizModeId, Some(QuizMode));
    assert m.modes.Keys == {0, 1, 2};
    assert |m.modes| == 3 by {
      assert |m.modes.Keys| == |{0, 1, 2}|;
    }
  }
}

=== FILE: preference_provider.dfy ===
/** The editor preference store and the `SuperBehaviourPreferenceProvider`
    base class: key construction, the default order, and the "read stored
    or default, write only on a reported change" rule of every `Render*`
    field. */
module PreferenceProviders {
  import opened Wrappers
  import opened Strings
  import I = Icons

  /** A stored preference. Unity keeps one value per key; reading a key
      through an accessor of another kind yields the accessor's default. */
  datatype Value =
    | BoolValue(b: bool)
    | IntValue(i: int)
    | FloatValue(f: real)
    | StringValue(s: string)

  /** The editor preference store. */
  type Store = map<string, Value>

  /** `EditorPrefs.GetBool(key, default)`. */
  function GetBool(store: Store, key: string, default: bool): (r: bool)
    ensures key !in store ==> r == default
    ensures key in store && store[key].BoolValue? ==> r == store[key].b
  {
    if key in store && store[key].BoolValue? then store[key].b else default
  }

  /** `EditorPrefs.GetInt(key, default)`. */
  function GetInt(store: Store, key: string, default: int): (r: int)
    ensures key !in store ==> r == default
    ensures key in store && store[key].IntValue? ==> r == store[key].i
  {
    if key in store && store[key].IntValue? then store[key].i else default
  }

  /** `EditorPrefs.GetFloat(key, default)`. */
  function GetFloat(store: Store, key: string, default: real): (r: real)
    ensures key !in store ==> r == default
    ensures key in store && store[key].FloatValue? ==> r == store[key].f
  {
    if key in store && store[key].FloatValue? then store[key].f else default
  }

  /** `EditorPrefs.GetString(key, default)`. */
  function GetString(store: Store, key: string, default: string): (r: string)
    ensures key !in store ==> r == default
    ensures key in store && store[key].StringValue? ==> r == store[key].s
  {
    if key in store && store[key].StringValue? then store[key].s else default
  }

  /** A provider: its concrete type, its `Name`, and the `Order` it
      overrides, if any. */
  datatype Provider = Provider(typeName: string, name: string, orderOverride: Option<int>)

  /** `Order`: the override, or 0 for a provider that keeps the default. */
  function Order(p: Provider): (r: int)
    ensures p.orderOverride.None? ==> r == 0
    ensures p.orderOverride.Some? ==> r == p.orderOverride.value
  {
    p.orderOverride.GetOr(0)
  }

  /** The built-in providers. */
  const CoreProvider: Provider := Provider("SuperBehaviourPreferenceCoreProvider", "Default", Some(-999))
  const ConnectProvider: Provider := Provider("SuperBehaviourPreferenceConnectProvider", "ConnectServer", Some(-1))

  const KeyRoot: string := "SuperBehaviour."

  /** The store key of a provider's preference: the root, then the
      provider's name unless it is "Default", then the key. */
  function BuildKey(name: string, key: string): (r: string)
    ensures StartsWith(r, KeyRoot) && EndsWith(r, key)
    ensures name == "Default" ==> |r| == |KeyRoot| + |key|
    ensures name != "Default" ==> |r| == |KeyRoot| + |name| + 1 + |key|
    ensures name != "Default" ==> r[|KeyRoot|..|KeyRoot| + |name|] == name
  {
    var r := if name == "Default" then KeyRoot + key else KeyRoot + name + "." + key;
    assert r[|r| - |key|..] == key;
    r
  }

  /** One provider never maps two keys to one store key. */
  lemma BuildKeyInjective(name: string, a: string, b: string)
    ensures BuildKey(name, a) == BuildKey(name, b) <==> a == b
  {
    if BuildKey(name, a) == BuildKey(name, b) {
      var n := |BuildKey(name, a)|;
      assert a == BuildKey(name, a)[n - |a|..];
    }
  }

  /** The "Default" provider shares its key space with every named
      provider: its key `N.k` is provider `N`'s key `k`. */
  lemma DefaultKeysShadowNamedKeys(name: string, key: string)
    requires name != "Default"
    ensures BuildKey("Default", name + "." + key) == BuildKey(name, key)
  {
    assert KeyRoot + (name + "." + key) == KeyRoot + name + "." + key;
  }

  /** The keys other parts of the plugin read directly are the keys the
      built-in providers write. */
  lemma CoreKeysAreLiteralKeys()
    ensures BuildKey(CoreProvider.name, "PreCache.Enabled") == "SuperBehaviour.PreCache.Enabled"
    ensures BuildKey(CoreProvider.name, "PreCache.ScriptsPath") == "SuperBehaviour.PreCache.ScriptsPath"
    ensures BuildKey(CoreProvider.name, "PreCache.SuperPlugins") == "SuperBehaviour.PreCache.SuperPlugins"
    ensures BuildKey(CoreProvider.name, "CodeSmells.Enabled") == "SuperBehaviour.CodeSmells.Enabled"
    ensures BuildKey(CoreProvider.name, "CodeSmells.Highlight") == "SuperBehaviour.CodeSmells.Highlight"
  {
    PreCacheEnabledKey();
    PreCacheScriptsPathKey();
    PreCacheSuperPluginsKey();
    CodeSmellsEnabledKey();
    CodeSmellsHighlightKey();
  }

  lemma ConnectKeysAreLiteralKeys()
    ensures BuildKey(ConnectProvider.name, "Enabled") == "SuperBehaviour.ConnectServer.Enabled"
    ensures BuildKey(ConnectProvider.name, "Port") == "SuperBehaviour.ConnectServer.Port"
  {
    assert ConnectProvider.name != "Default" by { assert ConnectProvider.name[0] != "Default"[0]; }
    ConnectEnabledKey();
    ConnectPortKey();
  }

  // One literal per lemma: each equation is decided character by character.

  lemma PreCacheEnabledKey()
    ensures KeyRoot + "PreCache.Enabled" == "SuperBehaviour.PreCache.Enabled"
  {
  }

  lemma PreCacheScriptsPathKey()
    ensures KeyRoot + "PreCache.ScriptsPath" == "SuperBehaviour.PreCache.ScriptsPath"
  {
  }

  lemma PreCacheSuperPluginsKey()
    ensures KeyRoot + "PreCache.SuperPlugins" == "SuperBehaviour.PreCache.SuperPlugins"
  {
  }

  lemma CodeSmellsEnabledKey()
    ensures KeyRoot + "CodeSmells.Enabled" == "SuperBehaviour.CodeSmells.Enabled"
  {
  }

  lemma CodeSmellsHighlightKey()
    ensures KeyRoot + "CodeSmells.Highlight" == "SuperBehaviour.CodeSmells.Highlight"
  {
  }

  lemma ConnectEnabledKey()
    ensures KeyRoot + "ConnectServer" + "." + "Enabled" == "SuperBehaviour.ConnectServer.Enabled"
  {
  }

  lemma ConnectPortKey()
    ensures KeyRoot + "ConnectServer" + "." + "Port" == "SuperBehaviour.ConnectServer.Port"
  {
  }

  /** What a field shows and the store it leaves. */
  datatype Rendered<T> = Rendered(value: T, store: Store)

  /** `after` differs from `before` at most at `k`. */
  ghost predicate OnlyKeyChanged(before: Store, after: Store, k: string) {
    forall k' :: k' != k ==> (k' in after <==> k' in before) && (k' in before ==> after[k'] == before[k'])
  }

  /** A rendered field: the widget starts from the stored value, or the
      default when nothing of the field's kind is stored, and `edit` is the
      value it reports when the user changed it. An unedited field writes
      nothing; an edit is written under the field's key alone, and reading
      the key back gives the edited value whatever the default. */
  function RenderToggle(store: Store, name: string, key: string, default: bool, edit: Option<bool>): (r: Rendered<bool>)
    ensures edit.None? ==> r.store == store
    ensures edit.None? && (BuildKey(name, key) !in store || !store[BuildKey(name, key)].BoolValue?) ==> r.value == default
    ensures edit.None? && BuildKey(name, key) in store && store[BuildKey(name, key)].BoolValue? ==> r.value == store[BuildKey(name, key)].b
    ensures edit.Some? ==> r.value == edit.value && OnlyKeyChanged(store, r.store, BuildKey(name, key))
    ensures edit.Some? ==> forall d: bool :: GetBool(r.store, BuildKey(name, key), d) == edit.value
  {
    var k := BuildKey(name, key);
    match edit
    case None => Rendered(GetBool(store, k, default), store)
    case Some(v) => Rendered(v, store[k := BoolValue(v)])
  }

  /** `RenderBoolField` is `RenderToggle`. */
  function RenderBoolField(store: Store, name: string, key: string, default: bool, edit: Option<bool>): (r: Rendered<bool>)
    ensures r == RenderToggle(store, name, key, default, edit)
  {
    RenderToggle(store, name, key, default, edit)
  }

  /** `RenderTitleCollapse`: a toggle whose default is `true`. */
  function RenderTitleCollapse(store: Store, name: string, key: string, edit: Option<bool>): (r: Rendered<bool>)
    ensures BuildKey(name, key) !in store && edit.None? ==> r.value
    ensures r == RenderToggle(store, name, key, true, edit)
  {
    RenderToggle(store, name, key, true, edit)
  }

  function RenderIntField(store: Store, name: string, key: string, default: int, edit: Option<int>): (r: Rendered<int>)
    ensures edit.None? ==> r.store == store
    ensures edit.None? && (BuildKey(name, key) !in store || !store[BuildKey(name, key)].IntValue?) ==> r.value == default
    ensures edit.None? && BuildKey(name, key) in store && store[BuildKey(name, key)].IntValue? ==> r.value == store[BuildKey(name, key)].i
    ensures edit.Some? ==> r.value == edit.value && OnlyKeyChanged(store, r.store, BuildKey(name, key))
    ensures edit.Some? ==> forall d: int :: GetInt(r.store, BuildKey(name, key), d) == edit.value
  {
    var k := BuildKey(name, key);
    match edit
    case None => Rendered(GetInt(store, k, default), store)
    case Some(v) => Rendered(v, store[k := IntValue(v)])
  }

  /** `RenderFloatField` and `RenderRangeField` (the slider's range only
      bounds what the user can pick, which `edit` already is). */
  function RenderFloatField(store: Store, name: string, key: string, default: real, edit: Option<real>): (r: Rendered<real>)
    ensures edit.None? ==> r.store == store
    ensures edit.None? && (BuildKey(name, key) !in store || !store[BuildKey(name, key)].FloatValue?) ==> r.value == default
    ensures edit.None? && BuildKey(name, key) in store && store[BuildKey(name, key)].FloatValue? ==> r.value == store[BuildKey(name, key)].f
    ensures edit.Some? ==> r.value == edit.value && OnlyKeyChanged(store, r.store, BuildKey(name, key))
    ensures edit.Some? ==> forall d: real :: GetFloat(r.store, BuildKey(name, key), d) == edit.value
  {
    var k := BuildKey(name, key);
    match edit
    case None => Rendered(GetFloat(store, k, default), store)
    case Some(v) => Rendered(v, store[k := FloatValue(v)])
  }

  function RenderTextField(store: Store, name: string, key: string, default: string, edit: Option<string>): (r: Rendered<string>)
    ensures edit.None? ==> r.store == store
    ensures edit.None? && (BuildKey(name, key) !in store || !store[BuildKey(name, key)].StringValue?) ==> r.value == default
    ensures edit.None? && BuildKey(name, key) in store && store[BuildKey(name, key)].StringValue? ==> r.value == store[BuildKey(name, key)].s
    ensures edit.Some? ==> r.value == edit.value && OnlyKeyChanged(store, r.store, BuildKey(name, key))
    ensures edit.Some? ==> forall d: string :: GetString(r.store, BuildKey(name, key), d) == edit.value
  {
    var k := BuildKey(name, key);
    match edit
    case None => Rendered(GetString(store, k, default), store)
    case Some(v) => Rendered(v, store[k := StringValue(v)])
  }

  /** `RenderEnumField` for the icon enumeration: the value is stored by
      name and parsed back, and a stored string that names no icon makes
      `Enum.Parse` throw before the widget is drawn. */
  function RenderEnumField(store: Store, name: string, key: string, default: I.SuperBehaviourIcon, edit: Option<I.SuperBehaviourIcon>): (r: Result<Rendered<I.SuperBehaviourIcon>>)
    ensures r.Failure? <==> I.ParseIcon(GetString(store, BuildKey(name, key), I.IconName(default))).NoMember?
    ensures r.Failure? ==> r.error.ArgumentException?
    ensures r.Success? && edit.None? ==> r.value.store == store
    ensures r.Success? && edit.None? ==>
      I.ParseIcon(GetString(store, BuildKey(name, key), I.IconName(default))) == I.Member(r.value.value)
    ensures r.Success? && edit.Some? ==> r.value == Rendered(edit.value, store[BuildKey(name, key) := StringValue(I.IconName(edit.value))])
  {
    var k := BuildKey(name, key);
    var stored := GetString(store, k, I.IconName(default));
    match I.ParseIcon(stored)
    case NoMember => Failure(ArgumentException("Requested value '" + stored + "' was not found."))
    case Member(shown) =>
      match edit
      case None => Success(Rendered(shown, store))
      case Some(v) => Success(Rendered(v, store[k := StringValue(I.IconName(v))]))
  }

  /** A fresh store shows every field's default. */
  lemma FreshStoreShowsDefaults(name: string, key: string, b: bool, i: int, s: string, e: I.SuperBehaviourIcon)
    ensures RenderToggle(map[], name, key, b, None).value == b
    ensures RenderIntField(map[], name, key, i, None).value == i
    ensures RenderTextField(map[], name, key, s, None).value == s
    ensures RenderEnumField(map[], name, key, e, None) == Success(Rendered(e, map[]))
  {
    I.ParseIconName(e);
  }

  /** Showing a field without an edit never writes, so it can be repeated. */
  lemma UneditedRenderWritesNothing(store: Store, name: string, key: string, b: bool, s: string)
    ensures RenderToggle(store, name, key, b, None).store == store
    ensures RenderTextField(store, name, key, s, None).store == store
  {
  }

  /** An edit is remembered: the next unedited showing of the field, with
      any default, shows the edited value, and other keys are untouched. */
  lemma EditIsRemembered(store: Store, name: string, key: string, d1: bool, d2: bool, v: bool, other: string)
    requires other != BuildKey(name, key)
    ensures var s1 := RenderToggle(store, name, key, d1, Some(v)).store;
      RenderToggle(s1, name, key, d2, None).value == v
      && (other in s1 <==> other in store)
      && (other in store ==> s1[other] == store[other])
  {
  }

  /** The enumeration round trip: an edited icon is read back as itself. */
  lemma EnumEditIsRemembered(store: Store, name: string, key: string, d: I.SuperBehaviourIcon, v: I.SuperBehaviourIcon)
    ensures var r := RenderEnumField(store, name, key, d, Some(v));
      r.Success? ==> RenderEnumField(r.value.store, name, key, d, None) == Success(Rendered(v, r.value.store))
  {
    I.ParseIconName(v);
  }
}

=== FILE: preferences.dfy ===
/** `SuperBehaviourPreferences`: the provider registry and the preferences
    page that renders every provider in (Order, Name) order. */
module Preferences {
  import opened PreferenceProviders

  /** Ordinal string order: a prefix comes first, otherwise the first
      differing character decides. */
  predicate NameLe(a: string, b: string)
    decreases |a|
  {
    |a| == 0 || (|b| > 0 && (a[0] < b[0] || (a[0] == b[0] && NameLe(a[1..], b[1..]))))
  }

  lemma {:induction false} NameLeTotal(a: string, b: string)
    ensures NameLe(a, b) || NameLe(b, a)
    decreases |a|
  {
    if |a| > 0 && |b| > 0 && a[0] == b[0] {
      NameLeTotal(a[1..], b[1..]);
    }
  }

  lemma {:induction false} NameLeTransitive(a: string, b: string, c: string)
    requires NameLe(a, b) && NameLe(b, c)
    ensures NameLe(a, c)
    decreases |a|
  {
    if |a| > 0 && a[0] == b[0] && b[0] == c[0] {
      NameLeTransitive(a[1..], b[1..], c[1..]);
    }
  }

  /** `OrderBy(p => p.Order).ThenBy(p => p.Name)`: the ascending key order. */
  predicate SortsBefore(p: Provider, q: Provider) {
    Order(p) < Order(q) || (Order(p) == Order(q) && NameLe(p.name, q.name))
  }

  lemma SortsBeforeTotal(p: Provider, q: Provider)
    ensures SortsBefore(p, q) || SortsBefore(q, p)
  {
    NameLeTotal(p.name, q.name);
  }

  lemma SortsBeforeTransitive(p: Provider, q: Provider, r: Provider)
    requires SortsBefore(p, q) && SortsBefore(q, r)
    ensures SortsBefore(p, r)
  {
    if Order(p) == Order(q) == Order(r) {
      NameLeTransitive(p.name, q.name, r.name);
    }
  }

  predicate Sorted(s: seq<Provider>) {
    forall i, j :: 0 <= i < j < |s| ==> SortsBefore(s[i], s[j])
  }

  /** Inserts `p` before the first provider it sorts before, so that it
      precedes providers with an equal key (the sort is stable). */
  function Insert(p: Provider, s: seq<Provider>): (r: seq<Provider>)
    ensures multiset(r) == multiset(s) + multiset{p}
  {
    if s == [] then [p]
    else if SortsBefore(p, s[0]) then [p] + s
    else
      assert s == [s[0]] + s[1..];
      [s[0]] + Insert(p, s[1..])
  }

  lemma {:induction false} InsertSorted(p: Provider, s: seq<Provider>)
    requires Sorted(s)
    ensures Sorted(Insert(p, s))
  {
    if s == [] {
    } else if SortsBefore(p, s[0]) {
      forall j | 0 < j < |s| ensures SortsBefore(p, s[j]) {
        SortsBeforeTransitive(p, s[0], s[j]);
      }
      assert Sorted([p] + s) by {
        forall i, j | 0 <= i < j < |s| + 1 ensures SortsBefore(([p] + s)[i], ([p] + s)[j]) {
          if i > 0 {
            assert ([p] + s)[i] == s[i - 1];
          }
        }
      }
    } else {
      SortsBeforeTotal(p, s[0]);
      InsertSorted(p, s[1..]);
      var rest := Insert(p, s[1..]);
      forall x | x in rest ensures SortsBefore(s[0], x) {
        assert x in multiset(rest);
        if x != p {
          assert x in multiset(s[1..]);
          var k :| 0 <= k < |s[1..]| && s[1..][k] == x;
          assert s[k + 1] == x;
        }
      }
      assert Sorted([s[0]] + rest) by {
        forall i, j | 0 <= i < j < |rest| + 1 ensures SortsBefore(([s[0]] + rest)[i], ([s[0]] + rest)[j]) {
          assert ([s[0]] + rest)[j] == rest[j - 1];
          if i > 0 {
            assert ([s[0]] + rest)[i] == rest[i - 1];
          } else {
            assert rest[j - 1] in rest;
          }
        }
      }
    }
  }

  /** The list the preferences page renders: the registered providers in
      ascending (Order, Name) order. */
  function Sort(s: seq<Provider>): (r: seq<Provider>)
    ensures Sorted(r)
    ensures multiset(r) == multiset(s)
    ensures |r| == |s|
  {
    if s == [] then []
    else
      assert s == [s[0]] + s[1..];
      InsertSorted(s[0], Sort(s[1..]));
      var r := Insert(s[0], Sort(s[1..]));
      assert |r| == |multiset(r)|;
      r
  }

  /** The lowest Order is rendered first, although the `Order` property's
      documentation says higher orders are displayed first. */
  lemma LowerOrderRendersFirst(s: seq<Provider>, i: nat, j: nat)
    requires i < |Sort(s)| && j < |Sort(s)|
    requires Order(Sort(s)[i]) < Order(Sort(s)[j])
    ensures i < j
  {
    var r := Sort(s);
    if j < i {
      assert false;
    }
  }

  /** The built-in core provider (-999) renders before the connect-server
      provider (-1), whatever order they were registered in. */
  lemma CoreRendersBeforeConnect(s: seq<Provider>)
    requires CoreProvider in s && ConnectProvider in s
    ensures exists i, j :: 0 <= i < j < |Sort(s)| && Sort(s)[i] == CoreProvider && Sort(s)[j] == ConnectProvider
  {
    var r := Sort(s);
    assert CoreProvider in multiset(r) && ConnectProvider in multiset(r);
    var i :| 0 <= i < |r| && r[i] == CoreProvider;
    var j :| 0 <= j < |r| && r[j] == ConnectProvider;
    LowerOrderRendersFirst(s, i, j);
  }

  /** No two registered providers have the same type. */
  predicate UniqueTypes(s: seq<Provider>) {
    forall i, j :: 0 <= i < j < |s| ==> s[i].typeName != s[j].typeName
  }

  /** `RegisterPreferenceProvider<T>()`, with `p` the new `T()`: nothing
      happens when a provider of that type is registered already. */
  function Register(s: seq<Provider>, p: Provider): (r: seq<Provider>)
    ensures (exists q :: q in s && q.typeName == p.typeName) ==> r == s
    ensures (forall q :: q in s ==> q.typeName != p.typeName) ==> r == s + [p]
  {
    if exists q :: q in s && q.typeName == p.typeName then s else s + [p]
  }

  lemma RegisterPreservesUniqueTypes(s: seq<Provider>, p: Provider)
    requires UniqueTypes(s)
    ensures UniqueTypes(Register(s, p))
  {
  }

  /** Registering the same type twice is the same as registering it once. */
  lemma RegisterIdempotent(s: seq<Provider>, p: Provider, p': Provider)
    requires p'.typeName == p.typeName
    ensures Register(Register(s, p), p') == Register(s, p)
  {
    assert p in Register(s, p) || exists q :: q in s && q.typeName == p.typeName;
  }

  lemma {:induction false} InsertPreservesUniqueTypes(p: Provider, s: seq<Provider>)
    requires UniqueTypes(s)
    requires forall q :: q in s ==> q.typeName != p.typeName
    ensures UniqueTypes(Insert(p, s))
  {
    if s != [] && !SortsBefore(p, s[0]) {
      assert s == [s[0]] + s[1..];
      InsertPreservesUniqueTypes(p, s[1..]);
      var rest := Insert(p, s[1..]);
      forall x | x in rest ensures x.typeName != s[0].typeName {
        assert x in multiset(rest);
      }
      ConsPreservesUniqueTypes(s[0], rest);
    } else if s != [] {
      ConsPreservesUniqueTypes(p, s);
    }
  }

  /** Putting a provider of a new type in front keeps the types unique. */
  lemma ConsPreservesUniqueTypes(p: Provider, s: seq<Provider>)
    requires UniqueTypes(s)
    requires forall q :: q in s ==> q.typeName != p.typeName
    ensures UniqueTypes([p] + s)
  {
    forall i, j | 0 <= i < j < |s| + 1 ensures ([p] + s)[i].typeName != ([p] + s)[j].typeName {
      assert ([p] + s)[j] == s[j - 1];
      if i > 0 {
        assert ([p] + s)[i] == s[i - 1];
      } else {
        assert s[j - 1] in s;
      }
    }
  }

  /** Sorting keeps the registry free of duplicate types. */
  lemma {:induction false} SortPreservesUniqueTypes(s: seq<Provider>)
    requires UniqueTypes(s)
    ensures UniqueTypes(Sort(s))
  {
    if s != [] {
      SortPreservesUniqueTypes(s[1..]);
      forall q | q in Sort(s[1..]) ensures q.typeName != s[0].typeName {
        assert q in multiset(Sort(s[1..]));
        var k :| 0 <= k < |s[1..]| && s[1..][k] == q;
        assert s[k + 1] == q;
      }
      InsertPreservesUniqueTypes(s[0], Sort(s[1..]));
    }
  }

  /** What the page draws. */
  datatype Item =
    | Space
    | Drawn(text: string)
    | ProviderError(providerName: string)

  /** The outcome of one provider's `OnGUI`: what it drew, and whether it
      then threw. */
  datatype GuiRun = Completed(drawn: seq<string>) | Threw(drawnBefore: seq<string>)

  function DrawnItems(labels: seq<string>): (r: seq<Item>)
    ensures |r| == |labels|
    ensures forall i :: 0 <= i < |r| ==> r[i] == Drawn(labels[i])
  {
    if labels == [] then [] else [Drawn(labels[0])] + DrawnItems(labels[1..])
  }

  /** One provider inside `try`/`catch`: a throw is replaced by an error
      box naming the provider. */
  function RunProvider(p: Provider, run: GuiRun): (r: seq<Item>)
    ensures run.Completed? ==> r == DrawnItems(run.drawn)
    ensures run.Threw? ==> r == DrawnItems(run.drawnBefore) + [ProviderError(p.name)]
  {
    match run
    case Completed(d) => DrawnItems(d)
    case Threw(d) => DrawnItems(d) + [ProviderError(p.name)]
  }

  /** The providers one after another. An error box only ever names a
      provider of the list that threw. */
  function RunAll(s: seq<Provider>, run: Provider -> GuiRun): (r: seq<Item>)
    ensures forall x :: x in r && x.ProviderError? ==> exists p :: p in s && run(p).Threw? && x.providerName == p.name
  {
    if s == [] then []
    else
      var here := RunProvider(s[0], run(s[0]));
      assert forall x :: x in here && x.ProviderError? ==> run(s[0]).Threw? && x.providerName == s[0].name by {
        if run(s[0]).Threw? {
          assert forall x :: x in DrawnItems(run(s[0]).drawnBefore) ==> x.Drawn?;
        } else {
          assert forall x :: x in DrawnItems(run(s[0]).drawn) ==> x.Drawn?;
        }
      }
      assert forall p :: p in s[1..] ==> p in s;
      assert s[0] in s;
      here + RunAll(s[1..], run)
  }

  /** The `guiHandler`: a space, then every provider in sorted order. The
      registry is left sorted. */
  function GuiHandler(s: seq<Provider>, run: Provider -> GuiRun): (r: (seq<Provider>, seq<Item>))
    ensures Sorted(r.0) && multiset(r.0) == multiset(s) && |r.0| == |s|
    ensures |r.1| > 0 && r.1[0] == Space
  {
    var sorted := Sort(s);
    (sorted, [Space] + RunAll(sorted, run))
  }

  /** Providers are isolated: what each one draws does not depend on what
      the others did. */
  lemma {:induction false} RunAllAppend(a: seq<Provider>, b: seq<Provider>, run: Provider -> GuiRun)
    ensures RunAll(a + b, run) == RunAll(a, run) + RunAll(b, run)
  {
    if a != [] {
      assert (a + b)[0] == a[0] && (a + b)[1..] == a[1..] + b;
      RunAllAppend(a[1..], b, run);
    } else {
      assert a + b == b;
    }
  }

  /** Every provider draws in its own slot: after the space and what the
      providers sorted before it drew, exactly what it draws on its own,
      whether or not the others threw. */
  lemma ProviderDrawsInItsSlot(s: seq<Provider>, run: Provider -> GuiRun, i: nat)
    requires i < |s|
    ensures var sorted := GuiHandler(s, run).0;
      var items := GuiHandler(s, run).1;
      var start := 1 + |RunAll(sorted[..i], run)|;
      var mine := RunProvider(sorted[i], run(sorted[i]));
      start + |mine| <= |items| && items[start..start + |mine|] == mine
  {
    var sorted := Sort(s);
    RunAllSlot(sorted, run, i);
    var pre := RunAll(sorted[..i], run);
    var mine := RunProvider(sorted[i], run(sorted[i]));
    SliceAfterHead(Space, RunAll(sorted, run), |pre|, |pre| + |mine|);
  }

  lemma SliceAfterHead<T>(h: T, s: seq<T>, a: nat, b: nat)
    requires a <= b <= |s|
    ensures ([h] + s)[a + 1..b + 1] == s[a..b]
  {
    forall k | 0 <= k < b - a ensures ([h] + s)[a + 1..b + 1][k] == s[a..b][k] {
    }
  }

  lemma RunAllSlot(l: seq<Provider>, run: Provider -> GuiRun, i: nat)
    requires i < |l|
    ensures var pre := RunAll(l[..i], run);
      var mine := RunProvider(l[i], run(l[i]));
      |pre| + |mine| <= |RunAll(l, run)| && RunAll(l, run)[|pre|..|pre| + |mine|] == mine
  {
    var pre := RunAll(l[..i], run);
    var mine := RunProvider(l[i], run(l[i]));
    RunAllSplitAt(l, run, i);
    RunAllFrom(l, run, i);
    MiddleSlice(pre, mine, RunAll(l[i + 1..], run));
  }

  lemma RunAllSplitAt(l: seq<Provider>, run: Provider -> GuiRun, i: nat)
    requires i <= |l|
    ensures RunAll(l, run) == RunAll(l[..i], run) + RunAll(l[i..], run)
  {
    assert l == l[..i] + l[i..];
    RunAllAppend(l[..i], l[i..], run);
  }

  lemma RunAllFrom(l: seq<Provider>, run: Provider -> GuiRun, i: nat)
    requires i < |l|
    ensures RunAll(l[i..], run) == RunProvider(l[i], run(l[i])) + RunAll(l[i + 1..], run)
  {
    assert l[i..][0] == l[i] && l[i..][1..] == l[i + 1..];
  }

  lemma MiddleSlice<T>(a: seq<T>, b: seq<T>, c: seq<T>)
    ensures (a + (b + c))[|a|..|a| + |b|] == b
  {
    forall k | 0 <= k < |b| ensures (a + (b + c))[|a|..|a| + |b|][k] == b[k] {
    }
  }

  function ErrorBoxes(items: seq<Item>): nat {
    if items == [] then 0 else (if items[0].ProviderError? then 1 else 0) + ErrorBoxes(items[1..])
  }

  function Throwing(s: seq<Provider>, run: Provider -> GuiRun): nat {
    if s == [] then 0 else (if run(s[0]).Threw? then 1 else 0) + Throwing(s[1..], run)
  }

  lemma {:induction false} ErrorBoxesAppend(a: seq<Item>, b: seq<Item>)
    ensures ErrorBoxes(a + b) == ErrorBoxes(a) + ErrorBoxes(b)
  {
    if a != [] {
      assert (a + b)[0] == a[0] && (a + b)[1..] == a[1..] + b;
      ErrorBoxesAppend(a[1..], b);
    } else {
      assert a + b == b;
    }
  }

  lemma {:induction false} NoErrorBoxesDrawn(labels: seq<string>)
    ensures ErrorBoxes(DrawnItems(labels)) == 0
  {
    if labels != [] {
      assert DrawnItems(labels)[1..] == DrawnItems(labels[1..]);
      NoErrorBoxesDrawn(labels[1..]);
    }
  }

  lemma {:induction false} ErrorBoxPerThrowingProvider(s: seq<Provider>, run: Provider -> GuiRun)
    ensures ErrorBoxes(RunAll(s, run)) == Throwing(s, run)
  {
    if s != [] {
      ErrorBoxPerThrowingProvider(s[1..], run);
      ErrorBoxesAppend(RunProvider(s[0], run(s[0])), RunAll(s[1..], run));
      match run(s[0])
      case Completed(d) => NoErrorBoxesDrawn(d);
      case Threw(d) =>
        NoErrorBoxesDrawn(d);
        ErrorBoxesAppend(DrawnItems(d), [ProviderError(s[0].name)]);
        assert ErrorBoxes([ProviderError(s[0].name)]) == 1;
    }
  }

  lemma {:induction false} ThrowingInsert(p: Provider, s: seq<Provider>, run: Provider -> GuiRun)
    requires Sorted(s)
    ensures Throwing(Insert(p, s), run) == Throwing(s, run) + (if run(p).Threw? then 1 else 0)
  {
    if s != [] && !SortsBefore(p, s[0]) {
      ThrowingInsert(p, s[1..], run);
      assert Insert(p, s)[1..] == Insert(p, s[1..]);
    } else if s != [] {
      assert ([p] + s)[1..] == s;
    }
  }

  lemma {:induction false} ThrowingSort(s: seq<Provider>, run: Provider -> GuiRun)
    ensures Throwing(Sort(s), run) == Throwing(s, run)
  {
    if s != [] {
      ThrowingSort(s[1..], run);
      ThrowingInsert(s[0], Sort(s[1..]), run);
    }
  }

  /** The page shows exactly one error box per throwing provider: a throw
      neither hides other providers nor is reported twice. */
  lemma ErrorBoxesCountThrowingProviders(s: seq<Provider>, run: Provider -> GuiRun)
    ensures ErrorBoxes(GuiHandler(s, run).1) == Throwing(s, run)
  {
    var sorted := Sort(s);
    ErrorBoxesAppend([Space], RunAll(sorted, run));
    assert ErrorBoxes([Space]) == 0;
    ErrorBoxPerThrowingProvider(sorted, run);
    ThrowingSort(s, run);
  }
}

=== FILE: project_window.dfy ===
/** `ProjectWindowItemCustomizer`: the icon drawn over a C# script in the
    project window. Loading the script is a parameter (`None` when the
    asset database has no script at the path); the textures are the
    paths handed to the asset loader. */
module ProjectWindow {
  import opened Wrappers
  import opened Strings
  import I = Icons
  import IconUtility

  /** A loaded `MonoScript`: its text and whether its class derives from
      `SuperBehaviour` (false when it declares no class). */
  datatype Script = Script(text: string, isSuperBehaviour: bool)

  /** `OverridesIcon`: the script sets its own icon. */
  predicate OverridesIcon(script: Option<Script>) {
    script.Some? && (Contains(script.value.text, "[SuperIcon(") || Contains(script.value.text, "[Icon("))
  }

  /** The shared test of `IsEnum` and `IsInterface`: the first occurrence
      of `keyword` comes before the first "class" and the first
      "struct", where those occur. */
  predicate DeclaredFirst(text: string, keyword: string) {
    var k := IndexOf(text, keyword);
    var c := IndexOf(text, "class");
    var s := IndexOf(text, "struct");
    k != -1 && (c == -1 || k < c) && (s == -1 || k < s)
  }

  /** `DeclaredFirst` in terms of occurrences: the keyword occurs, and
      its first occurrence precedes every occurrence of "class" and of
      "struct". */
  lemma DeclaredFirstIffBeforeAll(text: string, keyword: string)
    ensures DeclaredFirst(text, keyword) <==>
      IndexOf(text, keyword) != -1
      && (forall j :: OccursAt(text, "class", j) ==> IndexOf(text, keyword) < j)
      && (forall j :: OccursAt(text, "struct", j) ==> IndexOf(text, keyword) < j)
  {
    var k := IndexOf(text, keyword);
    var c := IndexOf(text, "class");
    var s := IndexOf(text, "struct");
    if c != -1 && k >= c { assert OccursAt(text, "class", c); }
    if s != -1 && k >= s { assert OccursAt(text, "struct", s); }
  }

  predicate IsEnum(script: Option<Script>) {
    script.Some? && DeclaredFirst(script.value.text, "public enum")
  }

  predicate IsInterface(script: Option<Script>, fileName: string) {
    script.Some? && DeclaredFirst(script.value.text, "public interface") && StartsWith(fileName, "I")
  }

  predicate IsSuperBehaviour(script: Option<Script>) {
    script.Some? && script.value.isSuperBehaviour
  }

  /** Index of the last `c` in `s`, or -1. */
  function LastIndexOfChar(s: string, c: char): (r: int)
    ensures -1 <= r < |s|
    ensures r != -1 ==> s[r] == c
    ensures forall j :: r < j < |s| ==> s[j] != c
  {
    if s == [] then -1
    else if s[|s| - 1] == c then |s| - 1
    else LastIndexOfChar(s[..|s| - 1], c)
  }

  /** `Path.GetFileNameWithoutExtension` for '/'-separated asset paths:
      the last segment, up to its last '.'. */
  function FileNameWithoutExtension(path: string): string {
    var name := path[LastIndexOfChar(path, '/') + 1..];
    var dot := LastIndexOfChar(name, '.');
    if dot == -1 then name else name[..dot]
  }

  /** The name of a script file in any folder is its class name. */
  lemma FileNameOfScript(folder: string, name: string)
    requires '/' !in name && '.' !in name
    ensures FileNameWithoutExtension(folder + "/" + name + ".cs") == name
  {
    var path := folder + "/" + name + ".cs";
    assert path[|folder|] == '/';
    assert forall j :: |folder| < j < |path| ==> path[j] == (name + ".cs")[j - |folder| - 1];
    var slash := LastIndexOfChar(path, '/');
    assert slash == |folder|;
    var file := path[slash + 1..];
    assert file == name + ".cs";
    assert file[|name|] == '.';
    assert LastIndexOfChar(file, '.') == |name|;
  }

  /** The item rectangle. */
  datatype Rect = Rect(x: real, y: real, width: real, height: real)

  /** The icon rectangle: a wider rect becomes one unit wider than tall
      and moves right by one; a taller one becomes as tall as wide. */
  function SquareRect(r: Rect): (s: Rect)
    ensures s.y == r.y
    ensures s.height <= r.height
    ensures s.width == s.height || s.width == s.height + 1.0
    ensures r.width == r.height ==> s == r
    ensures r.width > r.height ==> s.width == r.height + 1.0 && s.x == r.x + 1.0 && s.height == r.height
    ensures r.height > r.width ==> s.height == r.width && s.width == r.width && s.x == r.x
  {
    if r.width > r.height then Rect(r.x + 1.0, r.y, r.height + 1.0, r.height)
    else if r.height > r.width then Rect(r.x, r.y, r.width, r.width)
    else r
  }

  /** The textures drawn: the file background, then the icon on top. */
  datatype Overlay = NoOverlay | Overlay(background: string, icon: string)

  /** Selected items use the white "_W" variant, but only when small. */
  function Variant(isSmall: bool, isSelected: bool): (v: string)
    ensures v != "" <==> isSmall && isSelected
  {
    if isSmall && isSelected then "_W" else ""
  }

  /** `ProjectWindowItemOnGUI` for one item. */
  function ItemOverlay(assetPath: string, script: Option<Script>, selectionRect: Rect, selected: bool): (r: Overlay)
    ensures !EndsWith(assetPath, ".cs") ==> r == NoOverlay
    ensures OverridesIcon(script) ==> r == NoOverlay
    ensures !IsSuperBehaviour(script) && !IsEnum(script) && !IsInterface(script, FileNameWithoutExtension(assetPath)) ==> r == NoOverlay
  {
    var assetName := FileNameWithoutExtension(assetPath);
    if !EndsWith(assetPath, ".cs") || OverridesIcon(script) then NoOverlay
    else
      var overrideIcon :=
        if IsSuperBehaviour(script) then Some(I.Default)
        else if IsEnum(script) then Some(I.Enum)
        else if IsInterface(script, assetName) then Some(I.Interface)
        else None;
      if overrideIcon.None? then NoOverlay
      else
        var rect := SquareRect(selectionRect);
        var isSmall := rect.width < 20.0;
        var variant := Variant(isSmall, selected);
        var background := I.IconFile(I.IconName(if isSmall then I.FileSmall else I.File) + variant);
        var icon := if overrideIcon.value != I.Default then overrideIcon.value else IconUtility.GetIconByClassName(assetName);
        Overlay(background, I.IconFile(I.IconName(icon) + variant))
  }

  /** The icon a drawn script gets: Enum before Interface for plain
      scripts, the class-name classification for `SuperBehaviour`s. */
  function ExpectedIcon(assetName: string, script: Option<Script>): (r: I.SuperBehaviourIcon)
    ensures r == I.Enum ==> !IsSuperBehaviour(script) && IsEnum(script)
    ensures r == I.Interface ==> !IsSuperBehaviour(script) && !IsEnum(script)
    ensures IsSuperBehaviour(script) ==> r !in {I.None, I.Custom, I.File, I.FileSmall}
  {
    IconUtility.RuleIconsAreClassifications();
    if IsSuperBehaviour(script) then IconUtility.GetIconByClassName(assetName)
    else if IsEnum(script) then I.Enum
    else I.Interface
  }

  /** A drawn overlay uses the expected icon and the file background, both
      in the white variant exactly when the item is small and selected. */
  lemma OverlayIcon(assetPath: string, script: Option<Script>, selectionRect: Rect, selected: bool)
    requires ItemOverlay(assetPath, script, selectionRect, selected).Overlay?
    ensures var isSmall := SquareRect(selectionRect).width < 20.0;
      var variant := Variant(isSmall, selected);
      ItemOverlay(assetPath, script, selectionRect, selected)
        == Overlay(I.IconFile(I.IconName(if isSmall then I.FileSmall else I.File) + variant),
                   I.IconFile(I.IconName(ExpectedIcon(FileNameWithoutExtension(assetPath), script)) + variant))
  {
  }

  /** An item is decorated exactly when it is a script that does not set
      its own icon and is a `SuperBehaviour`, an enum or an interface. */
  lemma OverlayIffDecorated(assetPath: string, script: Option<Script>, selectionRect: Rect, selected: bool)
    ensures ItemOverlay(assetPath, script, selectionRect, selected).Overlay? <==>
      EndsWith(assetPath, ".cs") && !OverridesIcon(script)
      && (IsSuperBehaviour(script) || IsEnum(script) || IsInterface(script, FileNameWithoutExtension(assetPath)))
  {
  }

  /** A large item never uses the white variant, selected or not. */
  lemma LargeItemsNeverWhite(assetPath: string, script: Option<Script>, selectionRect: Rect, selected: bool)
    requires SquareRect(selectionRect).width >= 20.0
    ensures ItemOverlay(assetPath, script, selectionRect, selected)
      == ItemOverlay(assetPath, script, selectionRect, false)
  {
  }
}

=== FILE: quest_system.dfy ===
/** The quest progress counter (`QuestSystem`): one active quest, a progress
    count that matching reports increase, and completion once the count
    reaches the quest's required amount. Message texts, their shaping and
    the random choice among praise messages are abstracted to message kinds. */
module Quests {
  import opened Wrappers
  import opened Modes

  datatype QuestType = Collect | Find | Kill

  /** The `Quest` asset. */
  datatype Quest = Quest(
    title: string,
    description: string,
    questID: string,
    questType: QuestType,
    targetID: string,
    requiredAmount: int)

  /** The kind of each message shown on the quest UI. */
  datatype Message = QuestStarted(title: string) | Praise | QuestCompleted

  /** `current` is `currentQuest` (`None` is null); `progress` is
      `currentProgress`; `modes` is the mode manager singleton. */
  datatype QuestSystem = QuestSystem(current: Option<Quest>, progress: int, modes: Manager)

  /** The new state, the messages shown and the calls made on modes. */
  datatype Step = Step(system: QuestSystem, messages: seq<Message>, calls: seq<ModeCall>)

  /** `StartQuest`: the quest becomes active with progress 0, whatever was
      active before. */
  function StartQuest(q: QuestSystem, quest: Quest): (r: Step)
    ensures r.system.current == Some(quest) && r.system.progress == 0
    ensures r.system.modes == q.modes && r.calls == []
    ensures r.messages == [QuestStarted(quest.title)]
  {
    Step(q.(current := Some(quest), progress := 0), [QuestStarted(quest.title)], [])
  }

  /** `CompleteQuest`; `quizModeExists` is whether a `QuizMode` object is in
      the scene. A Kill quest registers the quiz mode under id 2 and enters
      it; without a quiz mode it returns before clearing the quest. */
  function CompleteQuest(q: QuestSystem, quizModeExists: bool): (r: Step)
    requires q.current.Some?
    ensures r.messages == [QuestCompleted] && r.system.progress == q.progress
    ensures q.current.value.questType != Kill ==> r.system == q.(current := None) && r.calls == []
    ensures q.current.value.questType == Kill && !quizModeExists ==> r.system == q && r.calls == []
    ensures q.current.value.questType == Kill && quizModeExists ==>
      r.system.current.None? && QuizModeId in r.system.modes.modes
    ensures q.current.value.questType == Kill && quizModeExists && QuizModeId !in q.modes.modes ==>
      r.system.modes.current == Some(QuizMode) && r.calls == [Enter(QuizMode)]
  {
    if q.current.value.questType == Kill then
      if !quizModeExists then Step(q, [QuestCompleted], [])
      else
        var registered := RegisterMode(q.modes, QuizModeId, Some(QuizMode));
        var (entered, calls) := SetCurrentModeById(registered, QuizModeId);
        Step(q.(modes := entered, current := None), [QuestCompleted], calls)
    else Step(q.(current := None), [QuestCompleted], [])
  }

  /** `ReportProgress(targetID)`. */
  function ReportProgress(q: QuestSystem, targetID: string, quizModeExists: bool): (r: Step)
    ensures q.current.None? ==> r == Step(q, [], [])
    ensures q.current.Some? && targetID != q.current.value.targetID ==> r == Step(q, [], [])
    ensures q.current.Some? && targetID == q.current.value.targetID ==>
      r.system.progress == q.progress + 1 && |r.messages| >= 1 && r.messages[0] == Praise
    ensures (q.current.Some? && targetID == q.current.value.targetID &&
             q.progress + 1 < q.current.value.requiredAmount) ==>
      r.system == q.(progress := q.progress + 1) && r.messages == [Praise]
    ensures (q.current.Some? && targetID == q.current.value.targetID &&
             q.progress + 1 >= q.current.value.requiredAmount) ==>
      r.messages == [Praise, QuestCompleted] &&
      (r.system.current.None? <==> (q.current.value.questType != Kill || quizModeExists))
  {
    if q.current.None? then Step(q, [], [])
    else if targetID != q.current.value.targetID then Step(q, [], [])
    else
      var counted := q.(progress := q.progress + 1);
      if counted.progress >= counted.current.value.requiredAmount then
        var done := CompleteQuest(counted, quizModeExists);
        Step(done.system, [Praise] + done.messages, done.calls)
      else Step(counted, [Praise], [])
  }

  /** The state after a run of reports, in order. */
  function Reports(q: QuestSystem, targets: seq<string>, quizModeExists: bool): QuestSystem
    decreases |targets|
  {
    if targets == [] then q
    else Reports(ReportProgress(q, targets[0], quizModeExists).system, targets[1..], quizModeExists)
  }

  /** Once the active quest is cleared every report is ignored, until the
      next `StartQuest`. */
  lemma {:induction false} ClearedQuestIgnoresReports(q: QuestSystem, targets: seq<string>, quizModeExists: bool)
    requires q.current.None?
    ensures Reports(q, targets, quizModeExists) == q
    decreases |targets|
  {
    if targets != [] {
      ClearedQuestIgnoresReports(q, targets[1..], quizModeExists);
    }
  }

  function Repeat(s: string, n: nat): (r: seq<string>)
    ensures |r| == n && forall i :: 0 <= i < n ==> r[i] == s
  {
    if n == 0 then [] else [s] + Repeat(s, n - 1)
  }

  /** Matching reports that stay below the required amount each add exactly
      one, and leave the quest active. */
  lemma {:induction false} ReportsBelowRequiredCount(q: QuestSystem, n: nat, quizModeExists: bool)
    requires q.current.Some? && q.progress + n < q.current.value.requiredAmount
    ensures Reports(q, Repeat(q.current.value.targetID, n), quizModeExists) == q.(progress := q.progress + n)
    decreases n
  {
    if n > 0 {
      var t := q.current.value.targetID;
      var next := ReportProgress(q, t, quizModeExists).system;
      assert next == q.(progress := q.progress + 1);
      assert Repeat(t, n)[1..] == Repeat(t, n - 1);
      ReportsBelowRequiredCount(next, n - 1, quizModeExists);
    }
  }

  /** A freshly started quest that is not a Kill quest needs exactly
      `requiredAmount` matching reports: one fewer leaves it active, and
      the next one clears it. */
  lemma StartedQuestCompletesAfterRequiredReports(q: QuestSystem, quest: Quest, quizModeExists: bool)
    requires quest.requiredAmount >= 1 && quest.questType != Kill
    ensures var started := StartQuest(q, quest).system;
      var before := Reports(started, Repeat(quest.targetID, quest.requiredAmount - 1), quizModeExists);
      before.current == Some(quest) && before.progress == quest.requiredAmount - 1 &&
      ReportProgress(before, quest.targetID, quizModeExists).system.current.None?
  {
    var started := StartQuest(q, quest).system;
    ReportsBelowRequiredCount(started, quest.requiredAmount - 1, quizModeExists);
  }

  /** A Kill quest with no quiz mode in the scene is never cleared: every
      further matching report counts again and shows the completion
      message again. */
  lemma KillQuestWithoutQuizNeverClears(q: QuestSystem)
    requires q.current.Some? && q.current.value.questType == Kill
    requires q.progress + 1 >= q.current.value.requiredAmount
    ensures var r := ReportProgress(q, q.current.value.targetID, false);
      r.system.current == q.current && r.system.progress == q.progress + 1 &&
      r.messages == [Praise, QuestCompleted] && r.calls == []
  {
  }
}

=== FILE: quiz.dfy ===
/** The quiz (`Quiz`): a question index and a score over the questions of a
    `QuizData`. Each answer counts toward the score when it is the correct
    one and always moves to the next question; past the last question the
    result screen shows the score out of the question count. */
module Quizzes {
  import opened Wrappers

  /** `QuizQuestion` and `QuizData` as loaded from the quiz JSON. */
  datatype QuizQuestion = QuizQuestion(question: string, answers: seq<string>, correctAnswerIndex: int)
  datatype QuizData = QuizData(questions: seq<QuizQuestion>)

  /** What the quiz panel shows: a question, or the result text reporting
      the score and the number of questions. */
  datatype Screen = Asking(question: QuizQuestion) | Finished(score: int, total: int)

  /** Which of `onAnswerCorrect` / `onAnswerIncorrect` fired. */
  datatype Feedback = Correct | Incorrect

  datatype Quiz = Quiz(index: nat, score: nat, screen: Screen)

  /** `ShowQuestion` (with `EndQuiz` when the questions are used up). */
  function ShowQuestion(data: QuizData, index: nat, score: nat): (s: Screen)
    ensures index < |data.questions| <==> s.Asking?
    ensures s.Asking? ==> s.question == data.questions[index]
    ensures s.Finished? ==> s.score == score && s.total == |data.questions|
  {
    if index < |data.questions| then Asking(data.questions[index])
    else Finished(score, |data.questions|)
  }

  /** `Start`: question 0, score 0. */
  function Start(data: QuizData): (q: Quiz)
    ensures q.index == 0 && q.score == 0
    ensures |data.questions| > 0 ==> q.screen == Asking(data.questions[0])
    ensures |data.questions| == 0 ==> q.screen == Finished(0, 0)
  {
    Quiz(0, 0, ShowQuestion(data, 0, 0))
  }

  /** `OnAnswerSelected(selectedIndex)`; it reads the current question, so it
      fails with an index error once every question has been answered. */
  function OnAnswerSelected(data: QuizData, q: Quiz, selected: int): (r: Result<(Quiz, Feedback)>)
    ensures q.index >= |data.questions| <==> r.Failure?
    ensures r.Failure? ==> r.error == IndexOutOfRange
    ensures r.Success? ==> r.value.0.index == q.index + 1
    ensures r.Success? ==>
      (selected == data.questions[q.index].correctAnswerIndex <==> r.value.0.score == q.score + 1)
    ensures r.Success? ==> r.value.0.score == q.score || r.value.0.score == q.score + 1
    ensures r.Success? ==> (r.value.1 == Correct <==> r.value.0.score == q.score + 1)
  {
    if q.index >= |data.questions| then Failure(IndexOutOfRange)
    else
      var correct := data.questions[q.index].correctAnswerIndex == selected;
      var score := if correct then q.score + 1 else q.score;
      Success((Quiz(q.index + 1, score, ShowQuestion(data, q.index + 1, score)),
               if correct then Correct else Incorrect))
  }

  /** The quiz's invariant: the score never exceeds the number of questions
      answered, the index never passes the end, and the screen matches. */
  predicate Valid(data: QuizData, q: Quiz) {
    q.score <= q.index <= |data.questions| && q.screen == ShowQuestion(data, q.index, q.score)
  }

  lemma StartValid(data: QuizData)
    ensures Valid(data, Start(data))
  {
  }

  lemma AnswerPreservesValid(data: QuizData, q: Quiz, selected: int)
    requires Valid(data, q)
    ensures OnAnswerSelected(data, q, selected).Success? ==> Valid(data, OnAnswerSelected(data, q, selected).value.0)
  {
  }

  /** Answers given in order, from a state; fails at the first answer
      given after the last question. */
  function Play(data: QuizData, q: Quiz, selections: seq<int>): Result<Quiz>
    decreases |selections|
  {
    if selections == [] then Success(q)
    else match OnAnswerSelected(data, q, selections[0])
      case Failure(e) => Failure(e)
      case Success((next, _)) => Play(data, next, selections[1..])
  }

  /** Reference score: how many of the answers, taken from question `from`
      on, pick that question's correct index. */
  function CorrectCount(data: QuizData, from: nat, selections: seq<int>): (r: nat)
    requires from + |selections| <= |data.questions|
    ensures r <= |selections|
    ensures r == |selections| <==>
      forall i :: 0 <= i < |selections| ==> selections[i] == data.questions[from + i].correctAnswerIndex
    ensures r == 0 <==>
      forall i :: 0 <= i < |selections| ==> selections[i] != data.questions[from + i].correctAnswerIndex
    decreases |selections|
  {
    if selections == [] then 0
    else (if selections[0] == data.questions[from].correctAnswerIndex then 1 else 0)
         + CorrectCount(data, from + 1, selections[1..])
  }

  /** Playing answers through adds exactly the reference count to the score
      and one to the index per answer. */
  lemma {:induction false} PlayScoresCorrectAnswers(data: QuizData, q: Quiz, selections: seq<int>)
    requires q.index + |selections| <= |data.questions|
    requires q.screen == ShowQuestion(data, q.index, q.score)
    ensures Play(data, q, selections).Success?
    ensures Play(data, q, selections).value.index == q.index + |selections|
    ensures Play(data, q, selections).value.score == q.score + CorrectCount(data, q.index, selections)
    ensures Play(data, q, selections).value.screen ==
      ShowQuestion(data, q.index + |selections|, q.score + CorrectCount(data, q.index, selections))
    decreases |selections|
  {
    if selections == [] {
    } else {
      var next := OnAnswerSelected(data, q, selections[0]).value.0;
      PlayScoresCorrectAnswers(data, next, selections[1..]);
    }
  }

  /** Answering every question of a fresh quiz ends on the result screen
      with the number of correct answers out of the number of questions;
      one answer more fails. */
  lemma FullQuizReportsScore(data: QuizData, selections: seq<int>, extra: int)
    requires |selections| == |data.questions|
    ensures Play(data, Start(data), selections).Success?
    ensures Play(data, Start(data), selections).value.screen ==
      Finished(CorrectCount(data, 0, selections), |data.questions|)
    ensures Play(data, Start(data), selections + [extra]).Failure?
  {
    PlayScoresCorrectAnswers(data, Start(data), selections);
    PlayAppend(data, Start(data), selections, extra);
  }

  lemma {:induction false} PlayAppend(data: QuizData, q: Quiz, selections: seq<int>, extra: int)
    ensures Play(data, q, selections).Success? ==>
      Play(data, q, selections + [extra]) == (
        match OnAnswerSelected(data, Play(data, q, selections).value, extra)
        case Failure(e) => Failure(e)
        case Success((next, _)) => Success(next))
    ensures Play(data, q, selections).Failure? ==> Play(data, q, selections + [extra]).Failure?
    decreases |selections|
  {
    if selections == [] {
      assert [] + [extra] == [extra];
    } else {
      assert (selections + [extra])[1..] == selections[1..] + [extra];
      match OnAnswerSelected(data, q, selections[0])
      case Failure(e) =>
      case Success((next, _)) => PlayAppend(data, next, selections[1..], extra);
    }
  }
}

=== FILE: reflection.dfy ===
/** The reflection data the inspector plugin reads: the attributes on a
    member and the fields, properties and methods of a type, as abstract
    records in declaration order. */
module Reflection {
  import opened Wrappers
  import opened Buttons
  import opened Conditions
  import SuperIcons

  /** The attributes the plugin looks for. Unity's own attributes are used
      on fields; the plugin's `Property*` counterparts on properties. */
  datatype Attribute =
    | SerializeField | SerializeReference | Serializable | NonSerialized
    | HideInInspector | Obsolete
    | UnityRange | UnityTextArea | UnityTooltip(tooltip: string)
    | UnityHeader(header: string) | UnitySpace(spaceHeight: real)
    | ContextMenu(menuItem: string) | FixedBuffer(length: int)
    | SerializeProperty | ReadOnly | PropertyRange | PropertyTextArea
    | Layer | PropertyLayer | Tag | PropertyTag | Tabs | HDRColor | PropertyHDRColor
    | Label(text: Option<string>)
    | PropertyTooltip(propertyTooltip: string) | PropertyHeader(propertyHeader: string)
    | PropertySpace(propertySpaceHeight: real)
    | Button(button: ButtonAttribute)
    | ConditionAttribute(condition: Condition)

  datatype FieldInfo = FieldInfo(name: string, isPublic: bool, isStatic: bool, attributes: seq<Attribute>)

  /** A property; `isUnityObject` says its type is `UnityEngine.Object` or
      a subclass of it. */
  datatype PropertyInfo = PropertyInfo(name: string, isStatic: bool, hasSetter: bool, isUnityObject: bool, attributes: seq<Attribute>)

  datatype MethodInfo = MethodInfo(name: string, isStatic: bool, attributes: seq<Attribute>)

  /** A type: its name, whether it derives from `SuperBehaviour`, what
      reflection lists for it, and its `SuperIcon` attribute if any. */
  datatype TypeInfo = TypeInfo(
    name: string,
    isSuperBehaviour: bool,
    fields: seq<FieldInfo>,
    properties: seq<PropertyInfo>,
    methods: seq<MethodInfo>,
    superIcon: Option<SuperIcons.SuperIcon>)

  /** `GetCustomAttributes<T>()`: the attributes `select` recognises, in
      declaration order, as the values it extracts. */
  function Collect<T(!new)>(attrs: seq<Attribute>, select: Attribute -> Option<T>): (r: seq<T>)
    ensures |r| <= |attrs|
    ensures forall x :: x in r <==> exists a :: a in attrs && select(a) == Some(x)
    ensures (forall a :: a in attrs ==> select(a).None?) <==> r == []
  {
    if attrs == [] then []
    else
      var rest := Collect(attrs[1..], select);
      assert forall a :: a in attrs <==> a == attrs[0] || a in attrs[1..];
      match select(attrs[0])
      case Some(x) => [x] + rest
      case None => rest
  }

  /** LINQ's `Where`: the elements satisfying `keep`, in order. */
  function Where<T(!new)>(s: seq<T>, keep: T -> bool): (r: seq<T>)
    ensures |r| <= |s|
    ensures forall x :: x in r <==> x in s && keep(x)
    ensures r == [] <==> forall x :: x in s ==> !keep(x)
  {
    if s == [] then []
    else
      assert forall x :: x in s <==> x == s[0] || x in s[1..];
      (if keep(s[0]) then [s[0]] else []) + Where(s[1..], keep)
  }

  /** The filter keeps order: a one-element list keeps its element when
      `keep` accepts it, and filtering a concatenation concatenates the
      filtered parts. Together these fix `Where` on every list. */
  lemma WhereSingleton<T(!new)>(x: T, keep: T -> bool)
    ensures Where([x], keep) == if keep(x) then [x] else []
  {
    assert [x][1..] == [];
  }

  lemma {:induction false} WhereAppend<T(!new)>(a: seq<T>, b: seq<T>, keep: T -> bool)
    ensures Where(a + b, keep) == Where(a, keep) + Where(b, keep)
  {
    if a == [] {
      assert a + b == b;
    } else {
      var h := if keep(a[0]) then [a[0]] else [];
      calc {
        Where(a + b, keep);
        { assert a + b == [a[0]] + (a[1..] + b); WhereCons(a[0], a[1..] + b, keep); }
        h + Where(a[1..] + b, keep);
        { WhereAppend(a[1..], b, keep); }
        h + (Where(a[1..], keep) + Where(b, keep));
        (h + Where(a[1..], keep)) + Where(b, keep);
        { assert a == [a[0]] + a[1..]; WhereCons(a[0], a[1..], keep); }
        Where(a, keep) + Where(b, keep);
      }
    }
  }

  lemma WhereCons<T(!new)>(x: T, s: seq<T>, keep: T -> bool)
    ensures Where([x] + s, keep) == (if keep(x) then [x] else []) + Where(s, keep)
  {
    assert ([x] + s)[0] == x && ([x] + s)[1..] == s;
  }

  /** LINQ's `SelectMany`: the lists `f` gives for each element, one after
      the other. */
  function SelectMany<T, U>(s: seq<T>, f: T -> seq<U>): seq<U> {
    if s == [] then [] else f(s[0]) + SelectMany(s[1..], f)
  }

  lemma {:induction false} SelectManyMembers<T, U>(s: seq<T>, f: T -> seq<U>)
    ensures forall u :: u in SelectMany(s, f) <==> exists t :: t in s && u in f(t)
  {
    if s != [] {
      SelectManyMembers(s[1..], f);
      assert forall t :: t in s <==> t == s[0] || t in s[1..];
    }
  }

  /** `SelectMany` works element by element: on one element it is `f` of
      it, and on a concatenation it concatenates the parts' results. */
  lemma SelectManySingleton<T, U>(x: T, f: T -> seq<U>)
    ensures SelectMany([x], f) == f(x)
  {
    assert [x][1..] == [];
  }

  lemma {:induction false} SelectManyAppend<T, U>(a: seq<T>, b: seq<T>, f: T -> seq<U>)
    ensures SelectMany(a + b, f) == SelectMany(a, f) + SelectMany(b, f)
  {
    if a == [] {
      assert a + b == b;
    } else {
      calc {
        SelectMany(a + b, f);
        { assert (a + b)[0] == a[0] && (a + b)[1..] == a[1..] + b; }
        f(a[0]) + SelectMany(a[1..] + b, f);
        { SelectManyAppend(a[1..], b, f); }
        f(a[0]) + (SelectMany(a[1..], f) + SelectMany(b, f));
        (f(a[0]) + SelectMany(a[1..], f)) + SelectMany(b, f);
      }
    }
  }

  /** Elements for which `f` gives nothing may be filtered out first. */
  lemma {:induction false} SelectManyOfWhere<T(!new), U>(s: seq<T>, keep: T -> bool, f: T -> seq<U>)
    requires forall x :: x in s && !keep(x) ==> f(x) == []
    ensures SelectMany(s, f) == SelectMany(Where(s, keep), f)
  {
    if s != [] {
      var x, w := s[0], Where(s[1..], keep);
      assert forall y :: y in s[1..] ==> y in s;
      if keep(x) {
        calc {
          SelectMany(Where(s, keep), f);
          { assert s == [x] + s[1..]; WhereCons(x, s[1..], keep); }
          SelectMany([x] + w, f);
          { SelectManyCons(x, w, f); }
          f(x) + SelectMany(w, f);
          { SelectManyOfWhere(s[1..], keep, f); }
          f(x) + SelectMany(s[1..], f);
        }
      } else {
        calc {
          SelectMany(Where(s, keep), f);
          { assert s == [x] + s[1..]; WhereCons(x, s[1..], keep); assert Where(s, keep) == [] + w == w; }
          SelectMany(w, f);
          { SelectManyOfWhere(s[1..], keep, f); }
          SelectMany(s[1..], f);
          { assert x in s; }
          f(x) + SelectMany(s[1..], f);
        }
      }
    }
  }

  lemma SelectManyCons<T, U>(x: T, s: seq<T>, f: T -> seq<U>)
    ensures SelectMany([x] + s, f) == f(x) + SelectMany(s, f)
  {
    assert ([x] + s)[0] == x && ([x] + s)[1..] == s;
  }

  /** When `f` gives nothing for any element, neither does `SelectMany`. */
  lemma {:induction false} SelectManyOfEmpty<T, U>(s: seq<T>, f: T -> seq<U>)
    requires forall x :: x in s ==> f(x) == []
    ensures SelectMany(s, f) == []
  {
    if s != [] {
      assert s[0] in s;
      assert forall x :: x in s[1..] ==> x in s;
      SelectManyOfEmpty(s[1..], f);
    }
  }

  /** When `f` gives at most one element each, there are at most as many
      results as elements. */
  lemma {:induction false} SelectManyOfAtMostOne<T, U>(s: seq<T>, f: T -> seq<U>)
    requires forall x :: x in s ==> |f(x)| <= 1
    ensures |SelectMany(s, f)| <= |s|
  {
    if s != [] {
      assert forall x :: x in s[1..] ==> x in s;
      assert s[0] in s;
      SelectManyOfAtMostOne(s[1..], f);
    }
  }

  /** When `f` gives exactly one element each, `SelectMany` is the map of
      those elements. */
  lemma {:induction false} SelectManyOfSingles<T, U>(s: seq<T>, f: T -> seq<U>)
    requires forall x :: x in s ==> |f(x)| == 1
    ensures |SelectMany(s, f)| == |s|
    ensures forall i :: 0 <= i < |s| ==> SelectMany(s, f)[i] == f(s[i])[0]
  {
    if s != [] {
      assert forall x :: x in s[1..] ==> x in s;
      assert s[0] in s;
      SelectManyOfSingles(s[1..], f);
      var r := SelectMany(s, f);
      assert r == f(s[0]) + SelectMany(s[1..], f);
      forall i | 0 <= i < |s| ensures r[i] == f(s[i])[0] {
        if i > 0 {
          assert r[i] == SelectMany(s[1..], f)[i - 1];
          assert s[1..][i - 1] == s[i];
        }
      }
    }
  }

  /** The first value collected comes from the first attribute `select`
      recognises. */
  lemma {:induction false} CollectFirst<T(!new)>(attrs: seq<Attribute>, select: Attribute -> Option<T>, i: int)
    requires 0 <= i < |attrs| && select(attrs[i]).Some?
    requires forall j :: 0 <= j < i ==> select(attrs[j]).None?
    ensures Collect(attrs, select) != [] && Collect(attrs, select)[0] == select(attrs[i]).value
  {
    if i > 0 {
      CollectFirst(attrs[1..], select, i - 1);
    }
  }

  /** `GetCustomAttribute<T>()`: the first recognised attribute, or null. */
  function First<T(!new)>(attrs: seq<Attribute>, select: Attribute -> Option<T>): (r: Option<T>)
    ensures r.None? <==> Collect(attrs, select) == []
    ensures r.Some? ==> r.value == Collect(attrs, select)[0]
  {
    var all := Collect(attrs, select);
    if all == [] then None else Some(all[0])
  }

  function SelectButton(a: Attribute): Option<ButtonAttribute> {
    if a.Button? then Some(a.button) else None
  }

  function SelectCondition(a: Attribute): Option<Condition> {
    if a.ConditionAttribute? then Some(a.condition) else None
  }

  function SelectContextMenu(a: Attribute): Option<string> {
    if a.ContextMenu? then Some(a.menuItem) else None
  }

  /** The `ButtonAttribute`s on a member, in order. */
  function ButtonsOf(attrs: seq<Attribute>): (r: seq<ButtonAttribute>)
    ensures forall b :: b in r <==> Button(b) in attrs
  {
    Collect(attrs, SelectButton)
  }

  /** The `ContextMenu` items on a method, in order. */
  function ContextMenusOf(attrs: seq<Attribute>): (r: seq<string>)
    ensures forall m :: m in r <==> ContextMenu(m) in attrs
  {
    Collect(attrs, SelectContextMenu)
  }
}

=== FILE: serialization_utility.dfy ===
/** `SuperSerializationUtility`: which fields, properties and methods of a
    type the inspector serialises, the per-type cache of that
    information, and the pre-caching run at every domain reload. */
module SerializationUtility {
  import opened Wrappers
  import opened Strings
  import opened Reflection
  import opened Caches
  import opened PreferenceProviders

  /** `UnityObjectInfo`: a type and its inspected members. */
  datatype ObjectInfo = ObjectInfo(typeInfo: TypeInfo, fields: seq<FieldInfo>, properties: seq<PropertyInfo>, methods: seq<MethodInfo>)

  /** A field is serialised when it is marked for serialisation, or is
      public while code smells are allowed, and carries none of the
      excluding attributes. */
  predicate IncludeField(f: FieldInfo, codeSmellsAllowed: bool) {
    (SerializeField in f.attributes || SerializeReference in f.attributes || Serializable in f.attributes
      || (f.isPublic && codeSmellsAllowed))
    && SerializeProperty !in f.attributes
    && NonSerialized !in f.attributes
    && HideInInspector !in f.attributes
    && Obsolete !in f.attributes
  }

  /** `PopulateFields()`: the instance fields the filter keeps, in
      reflection order. */
  function PopulateFields(t: TypeInfo, codeSmellsAllowed: bool): (r: seq<FieldInfo>)
    ensures forall f :: f in r <==> f in t.fields && !f.isStatic && IncludeField(f, codeSmellsAllowed)
  {
    Where(t.fields, (f: FieldInfo) => !f.isStatic && IncludeField(f, codeSmellsAllowed))
  }

  /** Public fields are serialised exactly when code smells are allowed,
      unless an attribute decides otherwise; excluding attributes always
      win. */
  lemma FieldFilterRules(f: FieldInfo, allowed: bool)
    ensures (SerializeField !in f.attributes && SerializeReference !in f.attributes && Serializable !in f.attributes)
      ==> (IncludeField(f, allowed) ==> f.isPublic && allowed)
    ensures (HideInInspector in f.attributes || Obsolete in f.attributes || NonSerialized in f.attributes
      || SerializeProperty in f.attributes) ==> !IncludeField(f, allowed)
    ensures IncludeField(f, false) ==> IncludeField(f, true)
  {
  }

  /** `PopulateProperties()`: the instance properties marked
      `SerializeProperty`. */
  function PopulateProperties(t: TypeInfo): (r: seq<PropertyInfo>)
    ensures forall p :: p in r <==> p in t.properties && !p.isStatic && SerializeProperty in p.attributes
  {
    Where(t.properties, (p: PropertyInfo) => !p.isStatic && SerializeProperty in p.attributes)
  }

  /** `Type.GetField(name, Instance | Public | NonPublic)`. */
  function FieldNamed(t: TypeInfo, name: string): (r: Option<FieldInfo>)
    ensures r.Some? ==> r.value in t.fields && !r.value.isStatic && r.value.name == name
    ensures r.None? ==> forall f :: f in t.fields && !f.isStatic ==> f.name != name
  {
    var named := Where(t.fields, (f: FieldInfo) => !f.isStatic && f.name == name);
    if named == [] then None
    else
      assert named[0] in named;
      Some(named[0])
  }

  /** The names the scan maps to a field: not the script, and naming an
      instance field of the type. */
  function Scannable(t: TypeInfo): string -> bool {
    (n: string) => n != "m_Script" && FieldNamed(t, n).Some?
  }

  /** What the scan takes from one visible name: the field it names, or
      nothing for the script and for names without a field. */
  function FieldFor(t: TypeInfo): string -> seq<FieldInfo> {
    (n: string) => if n != "m_Script" && FieldNamed(t, n).Some? then [FieldNamed(t, n).value] else []
  }

  /** `PopulateFields(serializedObject)`: the visible serialised properties
      in iterator order, mapped to fields, skipping "m_Script" and names
      without a field. */
  function ScanFields(t: TypeInfo, visible: seq<string>): (r: seq<FieldInfo>)
    ensures |r| <= |visible|
    ensures forall f :: f in r ==> f in t.fields && !f.isStatic && f.name in visible && f.name != "m_Script"
  {
    SelectManyMembers(visible, FieldFor(t));
    SelectManyOfAtMostOne(visible, FieldFor(t));
    SelectMany(visible, FieldFor(t))
  }

  /** When every visible name other than the script names a field, the scan
      yields those fields in iterator order. */
  lemma ScanFieldsKeepsOrder(t: TypeInfo, visible: seq<string>)
    requires forall n :: n in visible ==> n != "m_Script" && FieldNamed(t, n).Some?
    ensures |ScanFields(t, visible)| == |visible|
    ensures forall i :: 0 <= i < |visible| ==> ScanFields(t, visible)[i].name == visible[i]
    ensures forall i :: 0 <= i < |visible| ==> Some(ScanFields(t, visible)[i]) == FieldNamed(t, visible[i])
  {
    SelectManyOfSingles(visible, FieldFor(t));
    forall i | 0 <= i < |visible| ensures Some(ScanFields(t, visible)[i]) == FieldNamed(t, visible[i]) {
      assert visible[i] in visible;
    }
  }

  /** Names without a field, and the script, are skipped: the scan is the
      scan of the scannable names alone. */
  lemma ScanFieldsSkipsUnscannable(t: TypeInfo, visible: seq<string>)
    ensures ScanFields(t, visible) == ScanFields(t, Where(visible, Scannable(t)))
  {
    SelectManyOfWhere(visible, Scannable(t), FieldFor(t));
  }

  /** The scan for every input: one field per scannable name, in iterator
      order, each the field that name looks up. */
  lemma ScanFieldsIsLookupOfScannable(t: TypeInfo, visible: seq<string>)
    ensures var kept := Where(visible, Scannable(t));
      |ScanFields(t, visible)| == |kept| &&
      forall i :: 0 <= i < |kept| ==> Some(ScanFields(t, visible)[i]) == FieldNamed(t, kept[i])
  {
    var kept := Where(visible, Scannable(t));
    ScanFieldsSkipsUnscannable(t, visible);
    assert forall n :: n in kept ==> Scannable(t)(n);
    ScanFieldsKeepsOrder(t, kept);
  }

  /** `UnityObjectInfo(type)`. */
  function InfoFromReflection(t: TypeInfo, codeSmellsAllowed: bool): ObjectInfo {
    ObjectInfo(t, PopulateFields(t, codeSmellsAllowed), PopulateProperties(t), t.methods)
  }

  /** `UnityObjectInfo(type, serializedObject)`, with the names the
      serialized object's iterator visits. */
  function InfoFromSerializedObject(t: TypeInfo, visible: seq<string>): ObjectInfo {
    ObjectInfo(t, ScanFields(t, visible), PopulateProperties(t), t.methods)
  }

  type InfoCache = map<TypeInfo, ObjectInfo>

  /** `GetUnityObjectInfo(type)`. */
  function GetUnityObjectInfo(cache: InfoCache, t: TypeInfo, codeSmellsAllowed: bool): (r: Lookup<TypeInfo, ObjectInfo>)
    ensures t in cache ==> r == Lookup(cache[t], cache, false)
    ensures t !in cache ==> r.value == InfoFromReflection(t, codeSmellsAllowed) && r.cache == cache[t := r.value]
  {
    GetOrFetch(cache, t, (t': TypeInfo) => InfoFromReflection(t', codeSmellsAllowed))
  }

  /** `GetUnityObjectInfo(type, serializedObject)`. */
  function GetUnityObjectInfoFor(cache: InfoCache, t: TypeInfo, visible: seq<string>): (r: Lookup<TypeInfo, ObjectInfo>)
    ensures t in cache ==> r == Lookup(cache[t], cache, false)
    ensures t !in cache ==> r.value == InfoFromSerializedObject(t, visible) && r.cache == cache[t := r.value]
  {
    GetOrFetch(cache, t, (t': TypeInfo) => InfoFromSerializedObject(t', visible))
  }

  /** Both overloads share one cache: whichever runs first for a type
      decides what both return afterwards. A pre-cached type therefore
      keeps its reflection-filtered fields even when an inspector asks
      with a serialized object. */
  lemma OverloadsShareEntries(cache: InfoCache, t: TypeInfo, visible: seq<string>, allowed: bool)
    ensures var first := GetUnityObjectInfo(cache, t, allowed);
      GetUnityObjectInfoFor(first.cache, t, visible).value == first.value
    ensures var first := GetUnityObjectInfoFor(cache, t, visible);
      GetUnityObjectInfo(first.cache, t, allowed).value == first.value
  {
  }

  const EnabledKey: string := "SuperBehaviour.PreCache.Enabled"
  const ScriptsPathKey: string := "SuperBehaviour.PreCache.ScriptsPath"
  const SuperPluginsKey: string := "SuperBehaviour.PreCache.SuperPlugins"
  const CodeSmellsKey: string := "SuperBehaviour.CodeSmells.Enabled"

  /** `!string.IsNullOrEmpty`, the filter on the folder list. */
  function NonEmpty(p: string): bool {
    p != ""
  }

  /** The folders to pre-cache: the scripts folder (default "Scripts") and,
      when enabled, "Plugins", without empty entries. `None` when
      pre-caching is off or no folder remains. */
  function PreCacheRoots(store: Store): (r: Option<seq<string>>)
    ensures !GetBool(store, EnabledKey, true) ==> r.None?
    ensures r.None? <==> (!GetBool(store, EnabledKey, true)
      || (GetString(store, ScriptsPathKey, "Scripts") == "" && !GetBool(store, SuperPluginsKey, true)))
    ensures r.Some? ==> (r.value ==
      (if GetString(store, ScriptsPathKey, "Scripts") == "" then [] else [GetString(store, ScriptsPathKey, "Scripts")])
      + (if GetBool(store, SuperPluginsKey, true) then ["Plugins"] else []))
    ensures r.Some? ==> 0 < |r.value| <= 2 && forall p :: p in r.value ==> p != ""
    ensures r.Some? && GetBool(store, SuperPluginsKey, true) ==> "Plugins" in r.value
    ensures r.Some? ==> GetString(store, ScriptsPathKey, "Scripts") != "" ==> GetString(store, ScriptsPathKey, "Scripts") in r.value
  {
    if !GetBool(store, EnabledKey, true) then None
    else
      var scripts := GetString(store, ScriptsPathKey, "Scripts");
      var plugins := if GetBool(store, SuperPluginsKey, true) then ["Plugins"] else [];
      var kept := Where([scripts] + plugins, NonEmpty);
      WhereCons(scripts, plugins, NonEmpty);
      assert Where(plugins, NonEmpty) == plugins by {
        if plugins != [] {
          WhereSingleton("Plugins", NonEmpty);
        }
      }
      if kept == [] then None else Some(kept)
  }

  /** A fresh store pre-caches "Scripts" and "Plugins". */
  lemma DefaultRoots()
    ensures PreCacheRoots(map[]) == Some(["Scripts", "Plugins"])
  {
    var empty: Store := map[];
    assert GetString(empty, ScriptsPathKey, "Scripts") == "Scripts";
    assert GetBool(empty, SuperPluginsKey, true) && GetBool(empty, EnabledKey, true);
    assert ["Scripts"] + ["Plugins"] == ["Scripts", "Plugins"];
  }

  /** The path sanitiser: forward slashes, lower case, an "assets/" prefix
      unless the original path already had one, then "//" collapsed. */
  function Sanitize(path: string): string {
    var lowered := ToLower(ReplaceChar(path, '\\', '/'));
    var prefixed := if StartsWith(path, "assets/") then lowered else "assets/" + lowered;
    CollapseDoubleSlash(prefixed)
  }

  lemma LowerHasNoBackslashOrCapital(path: string)
    ensures var l := ToLower(ReplaceChar(path, '\\', '/'));
      forall i :: 0 <= i < |l| ==> l[i] != '\\' && !('A' <= l[i] <= 'Z')
  {
  }

  /** `CollapseDoubleSlash` keeps a leading '/'. */
  lemma CollapseKeepsLeadingSlash(s: string)
    requires |s| > 0 && s[0] == '/'
    ensures |CollapseDoubleSlash(s)| > 0 && CollapseDoubleSlash(s)[0] == '/'
  {
  }

  /** "assets/" followed by anything collapses to "assets/" followed by
      something. */
  lemma CollapseKeepsAssetsPrefix(s: string)
    ensures StartsWith(CollapseDoubleSlash("assets/" + s), "assets/")
  {
    assert "assets/" + s == "assets" + ("/" + s);
    CollapseDoubleSlashPrefix("assets", "/" + s);
    CollapseKeepsLeadingSlash("/" + s);
  }

  /** A sanitised path is lower case, has no backslash and starts with
      "assets/". */
  lemma SanitizedShape(path: string)
    ensures IsLower(Sanitize(path))
    ensures '\\' !in Sanitize(path)
    ensures StartsWith(Sanitize(path), "assets/")
  {
    var lowered := ToLower(ReplaceChar(path, '\\', '/'));
    LowerHasNoBackslashOrCapital(path);
    var prefixed := if StartsWith(path, "assets/") then lowered else "assets/" + lowered;
    assert forall i :: 0 <= i < |prefixed| ==> prefixed[i] != '\\' && !('A' <= prefixed[i] <= 'Z');
    CollapseDoubleSlashChars(prefixed);
    var r := Sanitize(path);
    forall i | 0 <= i < |r| ensures r[i] != '\\' && !('A' <= r[i] <= 'Z') {
      assert r[i] in r;
      assert r[i] in prefixed;
    }
    if StartsWith(path, "assets/") {
      assert lowered[..7] == "assets/";
      assert lowered == "assets/" + lowered[7..];
    }
    CollapseKeepsAssetsPrefix(if StartsWith(path, "assets/") then lowered[7..] else lowered);
  }

  predicate SlashFree(w: string) {
    forall i :: 0 <= i < |w| ==> w[i] != '/'
  }

  /** A single '/' before a piece that does not start with '/' is copied. */
  lemma CollapseSingleSlash(s: string)
    requires |s| > 0 && s[0] != '/'
    ensures CollapseDoubleSlash("/" + s) == "/" + CollapseDoubleSlash(s)
  {
    assert ("/" + s)[1..] == s;
  }

  /** After a slash-free word and one '/', a piece that does not start
      with '/' is collapsed on its own. */
  lemma CollapseAfterWord(w: string, s: string)
    requires SlashFree(w)
    requires |s| > 0 && s[0] != '/'
    ensures CollapseDoubleSlash(w + ("/" + s)) == w + ("/" + CollapseDoubleSlash(s))
  {
    CollapseDoubleSlashPrefix(w, "/" + s);
    CollapseSingleSlash(s);
  }

  /** Lower-casing "Assets/..." gives "assets/...". */
  lemma LoweredCapitalisedAssets(path: string)
    requires StartsWith(path, "Assets/")
    ensures var lowered := ToLower(ReplaceChar(path, '\\', '/'));
      |lowered| >= 7 && lowered[..7] == "assets/"
  {
    var lowered := ToLower(ReplaceChar(path, '\\', '/'));
    assert path[..7] == "Assets/";
    forall i | 0 <= i < 7 ensures lowered[i] == "assets/"[i] {
      assert path[i] == "Assets/"[i];
    }
  }

  /** The prefix test reads the path before lower-casing, so a path
      spelled "Assets/..." gets a second prefix: "Assets/Scripts" becomes
      "assets/assets/scripts". */
  lemma CapitalisedAssetsPathIsPrefixedTwice(path: string)
    requires StartsWith(path, "Assets/")
    ensures StartsWith(Sanitize(path), "assets/assets/")
  {
    assert !StartsWith(path, "assets/") by { assert path[0] == "Assets/"[0]; }
    LoweredCapitalisedAssets(path);
    PrefixingAssetsText(ToLower(ReplaceChar(path, '\\', '/')));
  }

  /** Prefixing "assets/" to text that already starts with "assets/" and
      collapsing keeps both copies. */
  lemma PrefixingAssetsText(lowered: string)
    requires |lowered| >= 7 && lowered[..7] == "assets/"
    ensures StartsWith(CollapseDoubleSlash("assets/" + lowered), "assets/assets/")
  {
    AssetsWord();
    AssetsTextSplits(lowered);
    CollapseDoubledWord("assets", lowered[7..]);
  }

  lemma AssetsWord()
    ensures SlashFree("assets")
    ensures "assets" + "/" + "assets" + "/" == "assets/assets/"
  {
  }

  lemma AssetsTextSplits(lowered: string)
    requires |lowered| >= 7 && lowered[..7] == "assets/"
    ensures "assets/" + lowered == "assets" + ("/" + ("assets" + ("/" + lowered[7..])))
  {
    assert lowered == lowered[..7] + lowered[7..];
  }

  /** "w/w/..." with a slash-free word w keeps its "w/w/" head. */
  lemma CollapseDoubledWord(w: string, rest: string)
    requires SlashFree(w) && |w| > 0
    ensures StartsWith(CollapseDoubleSlash(w + ("/" + (w + ("/" + rest)))), w + "/" + w + "/")
  {
    CollapseAfterWord(w, w + ("/" + rest));
    CollapseDoubleSlashPrefix(w, "/" + rest);
    CollapseKeepsLeadingSlash("/" + rest);
    var c := CollapseDoubleSlash("/" + rest);
    var r := w + ("/" + (w + c));
    assert CollapseDoubleSlash(w + ("/" + (w + ("/" + rest)))) == r;
    assert r[..2 * |w| + 2] == w + "/" + w + "/";
  }

  /** A compiled assembly with its source files and the types it loads. */
  datatype Assembly = Assembly(name: string, sourceFiles: seq<string>, types: seq<TypeInfo>)

  /** `GetFilteredAssemblies`: assemblies with a source file under one of
      the sanitised folders. */
  predicate SelectedAssembly(a: Assembly, folders: seq<string>) {
    exists s, p :: s in a.sourceFiles && p in folders && Contains(ToLower(ReplaceChar(s, '\\', '/')), p)
  }

  /** Adds every `SuperBehaviour` type of the list that is not cached yet. */
  function AddTypes(cache: InfoCache, types: seq<TypeInfo>, allowed: bool): (r: InfoCache)
    ensures forall t :: t in cache ==> t in r && r[t] == cache[t]
    ensures forall t :: t in r <==> t in cache || (t in types && t.isSuperBehaviour)
    ensures forall t :: t in r && t !in cache ==> r[t] == InfoFromReflection(t, allowed)
    decreases |types|
  {
    if types == [] then cache
    else
      var t := types[0];
      var next := if t.isSuperBehaviour && t !in cache then cache[t := InfoFromReflection(t, allowed)] else cache;
      assert forall x :: x in types <==> x == t || x in types[1..];
      AddTypes(next, types[1..], allowed)
  }

  function AddAssemblies(cache: InfoCache, assemblies: seq<Assembly>, allowed: bool): (r: InfoCache)
    ensures forall t :: t in cache ==> t in r && r[t] == cache[t]
    ensures forall t :: t in r <==> t in cache || exists a :: a in assemblies && t in a.types && t.isSuperBehaviour
    ensures forall t :: t in r && t !in cache ==> r[t] == InfoFromReflection(t, allowed)
    decreases |assemblies|
  {
    if assemblies == [] then cache
    else
      assert forall a :: a in assemblies <==> a == assemblies[0] || a in assemblies[1..];
      AddAssemblies(AddTypes(cache, assemblies[0].types, allowed), assemblies[1..], allowed)
  }

  /** The sanitised search roots, in order. */
  function SanitizedFolders(roots: seq<string>): (r: seq<string>)
    ensures |r| == |roots|
    ensures forall i :: 0 <= i < |roots| ==> r[i] == Sanitize(roots[i])
  {
    seq(|roots|, i requires 0 <= i < |roots| => Sanitize(roots[i]))
  }

  function SelectedBy(folders: seq<string>): Assembly -> bool {
    (a: Assembly) => SelectedAssembly(a, folders)
  }

  /** `PreCache()`: every `SuperBehaviour` type of a selected assembly gets
      a reflection-filtered entry; entries already cached are kept, and
      nothing else is added. */
  function PreCache(store: Store, cache: InfoCache, assemblies: seq<Assembly>, allowed: bool): (r: InfoCache)
    ensures PreCacheRoots(store).None? ==> r == cache
    ensures forall t :: t in cache ==> t in r && r[t] == cache[t]
    ensures forall t :: t in r && t !in cache ==> t.isSuperBehaviour && r[t] == InfoFromReflection(t, allowed)
    ensures PreCacheRoots(store).Some? ==> var folders := SanitizedFolders(PreCacheRoots(store).value);
      forall t :: t in r <==> (t in cache || exists a :: a in assemblies && SelectedAssembly(a, folders) && t in a.types && t.isSuperBehaviour)
  {
    match PreCacheRoots(store)
    case None => cache
    case Some(roots) =>
      var folders := SanitizedFolders(roots);
      var chosen := Where(assemblies, SelectedBy(folders));
      assert forall a :: a in chosen <==> a in assemblies && SelectedAssembly(a, folders);
      AddAssemblies(cache, chosen, allowed)
  }

  /** `ClearCache()` on domain reload: the cache is emptied, the code-smell
      preference is read, and pre-caching refills the cache with exactly the
      `SuperBehaviour` types of the selected assemblies. */
  function ClearCache(store: Store, assemblies: seq<Assembly>): (r: (InfoCache, bool))
    ensures r.1 == GetBool(store, CodeSmellsKey, true)
    ensures !GetBool(store, EnabledKey, true) ==> r.0 == map[]
    ensures forall t :: t in r.0 ==> t.isSuperBehaviour && r.0[t] == InfoFromReflection(t, r.1)
    ensures PreCacheRoots(store).Some? ==> var folders := SanitizedFolders(PreCacheRoots(store).value);
      forall t :: t in r.0 <==> exists a :: a in assemblies && SelectedAssembly(a, folders) && t in a.types && t.isSuperBehaviour
  {
    var allowed := GetBool(store, CodeSmellsKey, true);
    (PreCache(store, map[], assemblies, allowed), allowed)
  }
}

=== FILE: serialized_attributes.dfy ===
/** `SerializedAttributes`: what the inspector reads from a field's or
    property's attributes, and the condition evaluation that decides
    whether the member is shown and editable. */
module SerializedAttributesModel {
  import opened Wrappers
  import opened Buttons
  import opened Conditions
  import opened Reflection

  datatype SerializedAttributes = SerializedAttributes(
    isHidden: bool,
    isReadOnly: bool,
    isActive: bool,
    isRange: bool,
    isTextArea: bool,
    isLayer: bool,
    isTag: bool,
    isTab: bool,
    isHDRColor: bool,
    conditions: seq<Condition>,
    fixedBuffer: Option<int>,
    labelText: string,
    tooltip: Option<string>,
    headers: seq<string>,
    buttons: seq<ButtonAttribute>,
    spaces: seq<real>)
  {
    /** `FixedBufferSize`: the buffer's length, or 0 without a buffer. */
    function FixedBufferSize(): (n: int)
      ensures fixedBuffer.None? ==> n == 0
      ensures fixedBuffer.Some? ==> n == fixedBuffer.value
    {
      fixedBuffer.GetOr(0)
    }

    predicate IsFixedBuffer() {
      fixedBuffer.Some?
    }

    predicate HasTooltip() {
      tooltip.Some?
    }

    predicate HasHeaders() {
      |headers| > 0
    }

    predicate HasButtons() {
      |buttons| > 0
    }

    predicate HasSpaces() {
      |spaces| > 0
    }
  }

  /** The loop of `EvaluateConditions`: every condition overwrites both
      flags, so only the last one counts. */
  function ApplyConditions(conditions: seq<Condition>, active: bool, readOnly: bool, base: ShowIfEvaluation): (r: (bool, bool))
    ensures conditions == [] ==> r == (active, readOnly)
    ensures conditions != [] ==>
      r == (EvaluateActive(conditions[|conditions| - 1], base), EvaluateReadOnly(conditions[|conditions| - 1], base))
  {
    if conditions == [] then (active, readOnly)
    else ApplyConditions(conditions[1..], EvaluateActive(conditions[0], base), EvaluateReadOnly(conditions[0], base), base)
  }

  /** `EvaluateConditions(target)`, with the target's `ShowIf` evaluation. */
  function EvaluateConditions(a: SerializedAttributes, base: ShowIfEvaluation): (r: SerializedAttributes)
    ensures a.conditions == [] ==> r == a
    ensures a.conditions != [] ==> r.isActive == EvaluateActive(a.conditions[|a.conditions| - 1], base)
    ensures a.conditions != [] ==> r.isReadOnly == EvaluateReadOnly(a.conditions[|a.conditions| - 1], base)
    ensures r == a.(isActive := r.isActive, isReadOnly := r.isReadOnly)
  {
    var (active, readOnly) := ApplyConditions(a.conditions, a.isActive, a.isReadOnly, base);
    a.(isActive := active, isReadOnly := readOnly)
  }

  /** Re-evaluating against the same target changes nothing. */
  lemma EvaluateConditionsIdempotent(a: SerializedAttributes, base: ShowIfEvaluation)
    ensures EvaluateConditions(EvaluateConditions(a, base), base) == EvaluateConditions(a, base)
  {
  }

  function SelectLabel(x: Attribute): Option<Option<string>> {
    if x.Label? then Some(x.text) else None
  }

  function SelectFixedBuffer(x: Attribute): Option<int> {
    if x.FixedBuffer? then Some(x.length) else None
  }

  function SelectUnityTooltip(x: Attribute): Option<string> {
    if x.UnityTooltip? then Some(x.tooltip) else None
  }

  function SelectPropertyTooltip(x: Attribute): Option<string> {
    if x.PropertyTooltip? then Some(x.propertyTooltip) else None
  }

  function SelectUnityHeader(x: Attribute): Option<string> {
    if x.UnityHeader? then Some(x.header) else None
  }

  function SelectPropertyHeader(x: Attribute): Option<string> {
    if x.PropertyHeader? then Some(x.propertyHeader) else None
  }

  function SelectUnitySpace(x: Attribute): Option<real> {
    if x.UnitySpace? then Some(x.spaceHeight) else None
  }

  function SelectPropertySpace(x: Attribute): Option<real> {
    if x.PropertySpace? then Some(x.propertySpaceHeight) else None
  }

  /** The label: a `Label` attribute's text, or the nicified member name
      when there is no such attribute or its text is null. */
  function LabelOf(attrs: seq<Attribute>, name: string, nicify: string -> string): (r: string)
    ensures (forall x :: x in attrs ==> !x.Label?) ==> r == nicify(name)
    ensures forall i :: 0 <= i < |attrs| && attrs[i].Label? && (forall j :: 0 <= j < i ==> !attrs[j].Label?) ==>
      r == attrs[i].text.GetOr(nicify(name))
  {
    forall i | 0 <= i < |attrs| && attrs[i].Label? && (forall j :: 0 <= j < i ==> !attrs[j].Label?)
      ensures Collect(attrs, SelectLabel) != [] && Collect(attrs, SelectLabel)[0] == attrs[i].text
    {
      CollectFirst(attrs, SelectLabel, i);
    }
    var found := First(attrs, SelectLabel);
    if found.Some? && found.value.Some? then found.value.value else nicify(name)
  }

  /** What the field constructor reads from Unity's attributes, before
      the conditions are evaluated. */
  function ReadField(f: FieldInfo, nicify: string -> string): (r: SerializedAttributes)
    ensures r.isHidden <==> HideInInspector in f.attributes
    ensures r.isReadOnly <==> ReadOnly in f.attributes
    ensures r.isActive
    ensures r.isLayer <==> Layer in f.attributes
    ensures r.isTag <==> Tag in f.attributes
    ensures r.isTab <==> Tabs in f.attributes
    ensures r.isHDRColor <==> HDRColor in f.attributes
    ensures r.isRange <==> UnityRange in f.attributes
    ensures r.isTextArea <==> UnityTextArea in f.attributes
    ensures r.IsFixedBuffer() <==> exists x :: x in f.attributes && x.FixedBuffer?
    ensures r.HasTooltip() <==> exists x :: x in f.attributes && x.UnityTooltip?
    ensures r.HasHeaders() <==> exists x :: x in f.attributes && x.UnityHeader?
    ensures r.HasSpaces() <==> exists x :: x in f.attributes && x.UnitySpace?
    ensures r.HasButtons() <==> exists x :: x in f.attributes && x.Button?
    ensures r.conditions == Collect(f.attributes, SelectCondition)
  {
    var attrs := f.attributes;
    SerializedAttributes(
      HideInInspector in attrs,
      ReadOnly in attrs,
      true,
      UnityRange in attrs,
      UnityTextArea in attrs,
      Layer in attrs,
      Tag in attrs,
      Tabs in attrs,
      HDRColor in attrs,
      Collect(attrs, SelectCondition),
      First(attrs, SelectFixedBuffer),
      LabelOf(attrs, f.name, nicify),
      First(attrs, SelectUnityTooltip),
      Collect(attrs, SelectUnityHeader),
      ButtonsOf(attrs),
      Collect(attrs, SelectUnitySpace))
  }

  /** What the property constructor reads from the plugin's `Property*`
      attributes; a property without a setter starts read-only. */
  function ReadProperty(p: PropertyInfo, nicify: string -> string): (r: SerializedAttributes)
    ensures r.isHidden <==> HideInInspector in p.attributes
    ensures r.isReadOnly <==> !p.hasSetter
    ensures r.isActive
    ensures r.isLayer <==> PropertyLayer in p.attributes
    ensures r.isTag <==> PropertyTag in p.attributes
    ensures r.isTab <==> Tabs in p.attributes
    ensures r.isHDRColor <==> PropertyHDRColor in p.attributes
    ensures r.isRange <==> PropertyRange in p.attributes
    ensures r.isTextArea <==> PropertyTextArea in p.attributes
    ensures r.IsFixedBuffer() <==> exists x :: x in p.attributes && x.FixedBuffer?
    ensures r.HasTooltip() <==> exists x :: x in p.attributes && x.PropertyTooltip?
    ensures r.HasHeaders() <==> exists x :: x in p.attributes && x.PropertyHeader?
    ensures r.HasSpaces() <==> exists x :: x in p.attributes && x.PropertySpace?
    ensures r.HasButtons() <==> exists x :: x in p.attributes && x.Button?
    ensures r.conditions == Collect(p.attributes, SelectCondition)
  {
    var attrs := p.attributes;
    SerializedAttributes(
      HideInInspector in attrs,
      !p.hasSetter,
      true,
      PropertyRange in attrs,
      PropertyTextArea in attrs,
      PropertyLayer in attrs,
      PropertyTag in attrs,
      Tabs in attrs,
      PropertyHDRColor in attrs,
      Collect(attrs, SelectCondition),
      First(attrs, SelectFixedBuffer),
      LabelOf(attrs, p.name, nicify),
      First(attrs, SelectPropertyTooltip),
      Collect(attrs, SelectPropertyHeader),
      ButtonsOf(attrs),
      Collect(attrs, SelectPropertySpace))
  }

  /** `SerializedAttributes(FieldInfo, target)`. */
  function FromField(f: FieldInfo, base: ShowIfEvaluation, nicify: string -> string): SerializedAttributes {
    EvaluateConditions(ReadField(f, nicify), base)
  }

  /** `SerializedAttributes(PropertyInfo, target)`. */
  function FromProperty(p: PropertyInfo, base: ShowIfEvaluation, nicify: string -> string): SerializedAttributes {
    EvaluateConditions(ReadProperty(p, nicify), base)
  }

  /** A freshly read member with no conditions is shown. */
  lemma FreshMemberIsActive(f: FieldInfo, p: PropertyInfo, base: ShowIfEvaluation, nicify: string -> string)
    requires forall x :: x in f.attributes ==> !x.ConditionAttribute?
    requires forall x :: x in p.attributes ==> !x.ConditionAttribute?
    ensures FromField(f, base, nicify).isActive
    ensures FromProperty(p, base, nicify).isActive
  {
  }

  /** Conditions overrule the setter: a property without a setter whose
      last condition is an `EditableIf` that holds ends up editable. */
  lemma ConditionsOverrideMissingSetter(p: PropertyInfo, base: ShowIfEvaluation, nicify: string -> string, args: ConditionArgs)
    requires !p.hasSetter
    requires |p.attributes| > 0 && p.attributes[|p.attributes| - 1] == ConditionAttribute(EditableIf(args))
    requires base.active(args)
    ensures var r := FromProperty(p, base, nicify); r.isActive && !r.isReadOnly
  {
    LastCollected(p.attributes, SelectCondition, EditableIf(args));
  }

  /** The last attribute, when selected, is the last value collected. */
  lemma {:induction false} LastCollected<T(!new)>(attrs: seq<Attribute>, select: Attribute -> Option<T>, x: T)
    requires |attrs| > 0 && select(attrs[|attrs| - 1]) == Some(x)
    ensures var c := Collect(attrs, select); |c| > 0 && c[|c| - 1] == x
  {
    if |attrs| > 1 {
      LastCollected(attrs[1..], select, x);
    }
  }
}

=== FILE: serialized_object.dfy ===
/** `SuperSerializedObject`: the per-target tables of inspected members of
    one or more edited objects, lookup by property path, and method
    invocation on the targets. */
module SerializedObjects {
  import opened Wrappers
  import opened Reflection
  import opened Caches
  import opened SerializationUtility

  /** An inspected Unity object. */
  datatype Target = Target(id: nat, typeInfo: TypeInfo)

  /** What a `SuperSerializedProperty` wraps: a field or a property. */
  datatype Member = FieldMember(field: FieldInfo) | PropertyMember(property: PropertyInfo)

  datatype SuperProperty = SuperProperty(target: Target, member: Member) {
    /** The property path is the member's name. */
    function Path(): string {
      match member
      case FieldMember(f) => f.name
      case PropertyMember(p) => p.name
    }
  }

  /** The row of the four dictionaries `m_all`, `m_fields`, `m_properties`
      and `m_methods` for one target; they are always written together,
      so they share their key order. */
  datatype Entry = Entry(target: Target, all: seq<SuperProperty>, fields: seq<SuperProperty>,
                         properties: seq<SuperProperty>, methods: seq<MethodInfo>)

  datatype SerializedObject = SerializedObject(typeInfo: Option<TypeInfo>, entries: seq<Entry>) {
    function TypeName(): Option<string> {
      if typeInfo.Some? then Some(typeInfo.value.name) else None
    }
  }

  predicate HasEntry(entries: seq<Entry>, t: Target) {
    exists i :: 0 <= i < |entries| && entries[i].target == t
  }

  predicate DistinctTargets(entries: seq<Entry>) {
    forall i, j :: 0 <= i < j < |entries| ==> entries[i].target != entries[j].target
  }

  /** Dictionary assignment `d[key] = value`: an existing key keeps its
      place in the iteration order, a new key goes last. */
  function Upsert(entries: seq<Entry>, e: Entry): (r: seq<Entry>)
    requires DistinctTargets(entries)
    ensures DistinctTargets(r)
    ensures forall t :: HasEntry(r, t) <==> HasEntry(entries, t) || t == e.target
    ensures e in r
    ensures forall x :: x in entries && x.target != e.target ==> x in r
    ensures forall x :: x in r ==> x == e || x in entries
    ensures HasEntry(entries, e.target) ==> |r| == |entries|
    ensures !HasEntry(entries, e.target) ==> r == entries + [e]
    ensures forall i :: 0 <= i < |entries| ==> r[i] == if entries[i].target == e.target then e else entries[i]
  {
    if HasEntry(entries, e.target) then
      var i :| 0 <= i < |entries| && entries[i].target == e.target;
      var r := entries[i := e];
      assert forall t :: HasEntry(r, t) <==> HasEntry(entries, t) || t == e.target by {
        forall t ensures HasEntry(r, t) <==> HasEntry(entries, t) || t == e.target {
          if HasEntry(r, t) {
            var j :| 0 <= j < |r| && r[j].target == t;
            if j != i { assert entries[j].target == t; }
          }
          if HasEntry(entries, t) {
            var j :| 0 <= j < |entries| && entries[j].target == t;
            assert r[if j == i then i else j].target == t;
          }
          if t == e.target { assert r[i].target == t; }
        }
      }
      assert forall x :: x in entries && x.target != e.target ==> x in r by {
        forall x | x in entries && x.target != e.target ensures x in r {
          var j :| 0 <= j < |entries| && entries[j] == x;
          assert r[j] == x;
        }
      }
      r
    else
      var r := entries + [e];
      assert forall t :: HasEntry(r, t) <==> HasEntry(entries, t) || t == e.target by {
        forall t ensures HasEntry(r, t) <==> HasEntry(entries, t) || t == e.target {
          if t == e.target { assert r[|entries|].target == t; }
          if HasEntry(entries, t) {
            var j :| 0 <= j < |entries| && entries[j].target == t;
            assert r[j].target == t;
          }
        }
      }
      r
  }

  /** The entry `InitProperties` builds for one target from its object
      info: one property per field, then one per property. */
  function BuildEntry(t: Target, info: ObjectInfo): (e: Entry)
    ensures e.target == t && e.methods == info.methods
    ensures |e.fields| == |info.fields| && |e.properties| == |info.properties|
    ensures e.all == e.fields + e.properties
    ensures forall i :: 0 <= i < |info.fields| ==> e.fields[i] == SuperProperty(t, FieldMember(info.fields[i]))
    ensures forall i :: 0 <= i < |info.properties| ==> e.properties[i] == SuperProperty(t, PropertyMember(info.properties[i]))
  {
    var fields := seq(|info.fields|, i requires 0 <= i < |info.fields| => SuperProperty(t, FieldMember(info.fields[i])));
    var properties := seq(|info.properties|, i requires 0 <= i < |info.properties| => SuperProperty(t, PropertyMember(info.properties[i])));
    Entry(t, fields + properties, fields, properties, info.methods)
  }

  /** `InitProperties(obj)`: the object info comes from the shared cache
      through the serialized-object overload, whose iterator visits the
      names `visible`; the type becomes the target's type. */
  function InitProperties(so: SerializedObject, cache: InfoCache, t: Target, visible: seq<string>): (r: (SerializedObject, InfoCache))
    requires DistinctTargets(so.entries)
    ensures r.0.typeInfo == Some(t.typeInfo)
    ensures DistinctTargets(r.0.entries)
    ensures BuildEntry(t, GetUnityObjectInfoFor(cache, t.typeInfo, visible).value) in r.0.entries
    ensures r.1 == GetUnityObjectInfoFor(cache, t.typeInfo, visible).cache
    ensures forall u :: HasEntry(r.0.entries, u) <==> HasEntry(so.entries, u) || u == t
    ensures forall k :: k in cache ==> k in r.1 && r.1[k] == cache[k]
    ensures t.typeInfo in r.1
    ensures forall x :: x in r.0.entries ==> x == BuildEntry(t, r.1[t.typeInfo]) || (x in so.entries && x.target != t)
    ensures so.entries != [] ==> r.0.entries[0].target == so.entries[0].target
    ensures so.entries == [] ==> r.0.entries == [BuildEntry(t, r.1[t.typeInfo])]
  {
    var lookup := GetUnityObjectInfoFor(cache, t.typeInfo, visible);
    var e := BuildEntry(t, lookup.value);
    var entries := Upsert(so.entries, e);
    assert forall x :: x in entries ==> x == e || (x in so.entries && x.target != t) by {
      forall x | x in entries ensures x == e || (x in so.entries && x.target != t) {
        var k :| 0 <= k < |entries| && entries[k] == x;
        if k < |so.entries| {
          assert x == if so.entries[k].target == t then e else so.entries[k];
        } else {
          assert entries == so.entries + [e];
        }
      }
    }
    (SerializedObject(Some(t.typeInfo), entries), lookup.cache)
  }

  /** The constructors: `InitProperties` for each target in turn. The
      first target's entry is the first dictionary entry, and every entry
      is built from the info the shared cache holds for its target's type;
      entries the cache held already are left as they were. */
  function Create(cache: InfoCache, targets: seq<Target>, visible: seq<string>): (r: (SerializedObject, InfoCache))
    ensures DistinctTargets(r.0.entries)
    ensures forall u :: HasEntry(r.0.entries, u) <==> u in targets
    ensures targets != [] ==> r.0.typeInfo == Some(targets[|targets| - 1].typeInfo)
    ensures targets == [] ==> r.0.typeInfo.None?
    ensures targets != [] ==> r.0.entries != [] && r.0.entries[0].target == targets[0]
    decreases |targets|
  {
    if targets == [] then (SerializedObject(None, []), cache)
    else
      var prev := Create(cache, targets[..|targets| - 1], visible);
      assert forall u :: u in targets <==> u in targets[..|targets| - 1] || u == targets[|targets| - 1] by {
        assert targets == targets[..|targets| - 1] + [targets[|targets| - 1]];
      }
      var r := InitProperties(prev.0, prev.1, targets[|targets| - 1], visible);
      assert |targets| > 1 ==> targets[..|targets| - 1][0] == targets[0];
      r
  }

  /** The getters `All`, `Fields`, `Properties` and `Methods` read the first
      dictionary entry, and are null when there is none. */
  function FirstEntry(so: SerializedObject): (r: Option<Entry>)
    ensures r.Some? <==> so.entries != []
    ensures r.Some? ==> r.value == so.entries[0]
  {
    if so.entries == [] then None else Some(so.entries[0])
  }

  /** Entries the cache held already are left as they were, and every
      entry is built from the info the cache holds for its target's type. */
  lemma {:induction false} CreateBuildsFromCache(cache: InfoCache, targets: seq<Target>, visible: seq<string>)
    ensures var r := Create(cache, targets, visible);
      (forall k :: k in cache ==> k in r.1 && r.1[k] == cache[k]) &&
      (forall x :: x in r.0.entries ==> x.target.typeInfo in r.1 && x == BuildEntry(x.target, r.1[x.target.typeInfo]))
    decreases |targets|
  {
    if targets != [] {
      var init := targets[..|targets| - 1];
      var t := targets[|targets| - 1];
      CreateBuildsFromCache(cache, init, visible);
      var prev := Create(cache, init, visible);
      var r := InitProperties(prev.0, prev.1, t, visible);
      assert r == Create(cache, targets, visible);
      forall x | x in r.0.entries
        ensures x.target.typeInfo in r.1 && x == BuildEntry(x.target, r.1[x.target.typeInfo])
      {
        if x != BuildEntry(t, r.1[t.typeInfo]) {
          assert x in prev.0.entries;
          assert x.target.typeInfo in prev.1;
        }
      }
    }
  }

  /** The getters of a constructed object read the first target's arrays,
      built from the cached info of its type. */
  lemma GettersReadFirstTarget(cache: InfoCache, targets: seq<Target>, visible: seq<string>)
    requires targets != []
    ensures var r := Create(cache, targets, visible);
      FirstEntry(r.0).Some? && FirstEntry(r.0).value.target == targets[0] &&
      targets[0].typeInfo in r.1 &&
      FirstEntry(r.0).value == BuildEntry(targets[0], r.1[targets[0].typeInfo])
  {
    var r := Create(cache, targets, visible);
    CreateBuildsFromCache(cache, targets, visible);
    assert r.0.entries[0] in r.0.entries;
  }

  /** The properties of every target, in dictionary order. */
  function AllProperties(entries: seq<Entry>): (r: seq<SuperProperty>)
    ensures forall p :: p in r <==> exists e :: e in entries && p in e.all
  {
    if entries == [] then []
    else
      assert forall e :: e in entries <==> e == entries[0] || e in entries[1..];
      entries[0].all + AllProperties(entries[1..])
  }

  /** The path test of the lookups. */
  function HasPath(path: string): SuperProperty -> bool {
    (p: SuperProperty) => p.Path() == path
  }

  /** The matches of each target's own array, target after target: the
      order the nested loops of the lookups visit them in. */
  function MatchesPerTarget(entries: seq<Entry>, path: string): seq<SuperProperty> {
    SelectMany(entries, MatchesIn(path))
  }

  /** The matches in one target's own array, in array order. */
  function MatchesIn(path: string): Entry -> seq<SuperProperty> {
    (e: Entry) => Where(e.all, HasPath(path))
  }

  /** A target added later contributes its matches after all earlier ones. */
  lemma MatchesPerTargetAppend(a: seq<Entry>, b: seq<Entry>, path: string)
    ensures MatchesPerTarget(a + b, path) == MatchesPerTarget(a, path) + MatchesPerTarget(b, path)
  {
    SelectManyAppend(a, b, MatchesIn(path));
  }

  lemma {:induction false} FilterAllIsMatchesPerTarget(entries: seq<Entry>, path: string)
    ensures Where(AllProperties(entries), HasPath(path)) == MatchesPerTarget(entries, path)
  {
    if entries != [] {
      FilterAllIsMatchesPerTarget(entries[1..], path);
      WhereAppend(entries[0].all, AllProperties(entries[1..]), HasPath(path));
    }
  }

  /** `FindAllPropertiesByPath`: every property with the path, target by
      target in dictionary order and, within a target, in array order. */
  function FindAllPropertiesByPath(so: SerializedObject, path: string): (r: seq<SuperProperty>)
    ensures forall p :: p in r <==> p.Path() == path && exists e :: e in so.entries && p in e.all
    ensures r == MatchesPerTarget(so.entries, path)
  {
    FilterAllIsMatchesPerTarget(so.entries, path);
    Where(AllProperties(so.entries), HasPath(path))
  }

  function FindIn(ps: seq<SuperProperty>, path: string): (r: Option<SuperProperty>)
    ensures r.Some? ==> r.value in ps && r.value.Path() == path
    ensures r.None? <==> forall p :: p in ps ==> p.Path() != path
  {
    if ps == [] then None
    else if ps[0].Path() == path then Some(ps[0])
    else
      assert forall p :: p in ps <==> p == ps[0] || p in ps[1..];
      FindIn(ps[1..], path)
  }

  /** `FindPropertyByPath`: the first property with the path, or null. */
  function FindPropertyByPath(so: SerializedObject, path: string): (r: Option<SuperProperty>)
    ensures r.Some? ==> r.value.Path() == path && exists e :: e in so.entries && r.value in e.all
    ensures r.None? <==> FindAllPropertiesByPath(so, path) == []
  {
    FindInIsHeadOfWhere(AllProperties(so.entries), path);
    FindIn(AllProperties(so.entries), path)
  }

  lemma {:induction false} FindInIsHeadOfWhere(ps: seq<SuperProperty>, path: string)
    ensures var all := Where(ps, HasPath(path));
      FindIn(ps, path) == if all == [] then None else Some(all[0])
  {
    if ps != [] {
      FindInIsHeadOfWhere(ps[1..], path);
    }
  }

  /** The single-result search agrees with the first result of the
      search for all. */
  lemma FindIsFirstOfFindAll(so: SerializedObject, path: string)
    ensures var all := FindAllPropertiesByPath(so, path);
      FindPropertyByPath(so, path) == if all == [] then None else Some(all[0])
  {
    FindInIsHeadOfWhere(AllProperties(so.entries), path);
  }

  /** The (target, method) pairs in iteration order. */
  function MethodPairs(entries: seq<Entry>): (r: seq<(Target, MethodInfo)>)
    ensures forall p :: p in r <==> exists e :: e in entries && p.0 == e.target && p.1 in e.methods
  {
    if entries == [] then []
    else
      assert forall e :: e in entries <==> e == entries[0] || e in entries[1..];
      OwnPairs(entries[0]) + MethodPairs(entries[1..])
  }

  /** The pairs of one target: its methods, in order, each with it. */
  function OwnPairs(e: Entry): (r: seq<(Target, MethodInfo)>)
    ensures |r| == |e.methods|
    ensures forall i :: 0 <= i < |r| ==> r[i] == (e.target, e.methods[i])
    ensures forall p :: p in r <==> p.0 == e.target && p.1 in e.methods
  {
    var r := seq(|e.methods|, i requires 0 <= i < |e.methods| => (e.target, e.methods[i]));
    assert forall p: (Target, MethodInfo) :: p.0 == e.target && p.1 in e.methods ==> p in r by {
      forall p: (Target, MethodInfo) | p.0 == e.target && p.1 in e.methods ensures p in r {
        var i :| 0 <= i < |e.methods| && e.methods[i] == p.1;
        assert r[i] == p;
      }
    }
    r
  }

  /** The dictionary lookup `m_methods[obj]`: the entry of a target, or
      `None` when the target was never initialised. */
  function EntryOf(entries: seq<Entry>, t: Target): (r: Option<Entry>)
    ensures r.None? <==> !HasEntry(entries, t)
    ensures r.Some? ==> r.value in entries && r.value.target == t
    ensures r.Some? && DistinctTargets(entries) ==> forall i :: 0 <= i < |entries| && entries[i].target == t ==> entries[i] == r.value
  {
    if entries == [] then None
    else if entries[0].target == t then Some(entries[0])
    else
      var r := EntryOf(entries[1..], t);
      assert HasEntry(entries, t) <==> HasEntry(entries[1..], t) by {
        if HasEntry(entries, t) {
          var i :| 0 <= i < |entries| && entries[i].target == t;
          assert entries[1..][i - 1].target == t;
        }
        if HasEntry(entries[1..], t) {
          var i :| 0 <= i < |entries[1..]| && entries[1..][i].target == t;
          assert entries[i + 1].target == t;
        }
      }
      assert r.Some? && DistinctTargets(entries) ==> forall i :: 0 <= i < |entries| && entries[i].target == t ==> entries[i] == r.value by {
        if r.Some? && DistinctTargets(entries) {
          forall i | 0 <= i < |entries| && entries[i].target == t ensures entries[i] == r.value {
            assert entries[i] == entries[1..][i - 1];
          }
        }
      }
      r
  }

  /** One `method.Invoke`; `threw` records whether it raised, in which
      case a warning was logged and the loop went on. */
  datatype Call = Call(target: Target, callee: MethodInfo, threw: bool)

  predicate IsStaticCall(c: Call) { c.callee.isStatic }

  /** The `InvokeMethod(name)` loop. Every method with the name is invoked
      on its target, except that a static method is invoked only for the
      first time its name is met; `names` only ever holds `name`, so it is
      modelled by `staticDone`. */
  function InvokeAll(pairs: seq<(Target, MethodInfo)>, name: string, staticDone: bool,
                     throws: (Target, MethodInfo) -> bool): (r: seq<Call>)
    ensures forall c :: c in r ==> c.callee.name == name && (c.target, c.callee) in pairs
    ensures forall c :: c in r ==> c.threw == throws(c.target, c.callee)
  {
    if pairs == [] then []
    else
      var t := pairs[0].0;
      var m := pairs[0].1;
      assert forall p :: p in pairs[1..] ==> p in pairs;
      if m.name != name || (m.isStatic && staticDone) then InvokeAll(pairs[1..], name, staticDone, throws)
      else [Call(t, m, throws(t, m))] + InvokeAll(pairs[1..], name, staticDone || m.isStatic, throws)
  }

  predicate AtMostOneStatic(calls: seq<Call>) {
    forall i, j :: 0 <= i < |calls| && 0 <= j < |calls| && IsStaticCall(calls[i]) && IsStaticCall(calls[j]) ==> i == j
  }

  predicate NoStatic(calls: seq<Call>) {
    forall i :: 0 <= i < |calls| ==> !IsStaticCall(calls[i])
  }

  /** Static methods with the name are invoked once in all: never again
      after the first, and not at all once one was. */
  lemma {:induction false} StaticInvokedAtMostOnce(pairs: seq<(Target, MethodInfo)>, name: string, staticDone: bool,
                                                   throws: (Target, MethodInfo) -> bool)
    ensures staticDone ==> NoStatic(InvokeAll(pairs, name, staticDone, throws))
    ensures AtMostOneStatic(InvokeAll(pairs, name, staticDone, throws))
  {
    if pairs != [] {
      var m := pairs[0].1;
      if m.name != name || (m.isStatic && staticDone) {
        StaticInvokedAtMostOnce(pairs[1..], name, staticDone, throws);
      } else {
        var rest := InvokeAll(pairs[1..], name, staticDone || m.isStatic, throws);
        StaticInvokedAtMostOnce(pairs[1..], name, staticDone || m.isStatic, throws);
        var r := [Call(pairs[0].0, m, throws(pairs[0].0, m))] + rest;
        assert InvokeAll(pairs, name, staticDone, throws) == r;
        assert forall i :: 0 < i < |r| ==> r[i] == rest[i - 1];
        if m.isStatic {
          assert NoStatic(rest);
        } else {
          assert AtMostOneStatic(rest);
        }
      }
    }
  }

  /** Every instance method with the name is invoked on its target, and a
      static one is invoked unless one already was. */
  lemma {:induction false} MatchingMethodsInvoked(pairs: seq<(Target, MethodInfo)>, name: string, staticDone: bool,
                                                  throws: (Target, MethodInfo) -> bool)
    ensures var r := InvokeAll(pairs, name, staticDone, throws);
      forall p :: p in pairs && p.1.name == name && !p.1.isStatic ==> exists c :: c in r && c.target == p.0 && c.callee == p.1
    ensures var r := InvokeAll(pairs, name, staticDone, throws);
      !staticDone && (exists p :: p in pairs && p.1.name == name && p.1.isStatic) ==> exists c :: c in r && IsStaticCall(c)
  {
    if pairs != [] {
      var m := pairs[0].1;
      assert forall p :: p in pairs <==> p == pairs[0] || p in pairs[1..];
      if m.name != name || (m.isStatic && staticDone) {
        MatchingMethodsInvoked(pairs[1..], name, staticDone, throws);
      } else {
        var rest := InvokeAll(pairs[1..], name, staticDone || m.isStatic, throws);
        MatchingMethodsInvoked(pairs[1..], name, staticDone || m.isStatic, throws);
        var r := [Call(pairs[0].0, m, throws(pairs[0].0, m))] + rest;
        assert forall c :: c in rest ==> c in r;
        assert r[0] in r;
      }
    }
  }

  /** `InvokeMethod(name)` on every target: the calls go only to methods
      with the name, each exception is recorded, at most one static method
      is invoked, and every instance method with the name is invoked on its
      target. */
  function InvokeMethod(so: SerializedObject, name: string, throws: (Target, MethodInfo) -> bool): (r: seq<Call>)
    ensures forall c :: c in r ==> c.callee.name == name && c.threw == throws(c.target, c.callee)
    ensures forall c :: c in r ==> exists e :: e in so.entries && e.target == c.target && c.callee in e.methods
    ensures AtMostOneStatic(r)
    ensures forall e, m :: e in so.entries && m in e.methods && m.name == name && !m.isStatic ==>
      exists c :: c in r && c.target == e.target && c.callee == m
    ensures (exists e, m :: e in so.entries && m in e.methods && m.name == name && m.isStatic) ==> exists c :: c in r && IsStaticCall(c)
  {
    var pairs := MethodPairs(so.entries);
    StaticInvokedAtMostOnce(pairs, name, false, throws);
    MatchingMethodsInvoked(pairs, name, false, throws);
    var r := InvokeAll(pairs, name, false, throws);
    assert forall e, m :: e in so.entries && m in e.methods ==> (e.target, m) in pairs;
    r
  }

  /** `InvokeMethod(name, obj)`: only the target's own methods, with a
      fresh name list; an unknown target invokes nothing. On a known
      target every instance method with the name is invoked and at most
      one static one. */
  function InvokeMethodOn(so: SerializedObject, name: string, t: Target, throws: (Target, MethodInfo) -> bool): (r: seq<Call>)
    ensures !HasEntry(so.entries, t) ==> r == []
    ensures forall c :: c in r ==> c.target == t && c.callee.name == name && c.threw == throws(t, c.callee)
    ensures AtMostOneStatic(r)
    ensures EntryOf(so.entries, t).Some? ==> var e := EntryOf(so.entries, t).value;
      (forall c :: c in r ==> c.callee in e.methods) &&
      (forall m :: m in e.methods && m.name == name && !m.isStatic ==> exists c :: c in r && c.callee == m) &&
      ((exists m :: m in e.methods && m.name == name && m.isStatic) ==> exists c :: c in r && IsStaticCall(c))
  {
    match EntryOf(so.entries, t)
    case None => []
    case Some(e) =>
      StaticInvokedAtMostOnce(OwnPairs(e), name, false, throws);
      MatchingMethodsInvoked(OwnPairs(e), name, false, throws);
      assert forall m :: m in e.methods ==> (t, m) in OwnPairs(e);
      InvokeAll(OwnPairs(e), name, false, throws)
  }

  function Invoked(calls: seq<Call>): (r: seq<(Target, MethodInfo)>)
    ensures |r| == |calls|
    ensures forall i :: 0 <= i < |calls| ==> r[i] == (calls[i].target, calls[i].callee)
  {
    seq(|calls|, i requires 0 <= i < |calls| => (calls[i].target, calls[i].callee))
  }

  /** An exception in one invocation is caught and logged: which methods
      get invoked does not depend on which of them throw. */
  lemma {:induction false} ThrowsDoNotChangeInvocations(pairs: seq<(Target, MethodInfo)>, name: string, staticDone: bool,
                                                        throws: (Target, MethodInfo) -> bool, throws': (Target, MethodInfo) -> bool)
    ensures Invoked(InvokeAll(pairs, name, staticDone, throws)) == Invoked(InvokeAll(pairs, name, staticDone, throws'))
  {
    if pairs != [] {
      var m := pairs[0].1;
      if m.name != name || (m.isStatic && staticDone) {
        ThrowsDoNotChangeInvocations(pairs[1..], name, staticDone, throws, throws');
      } else {
        ThrowsDoNotChangeInvocations(pairs[1..], name, staticDone || m.isStatic, throws, throws');
      }
    }
  }

  /** Index `i` holds the first pair with the name whose invocation does
      not throw: every earlier pair with the name throws. */
  predicate IsFirstSuccess(pairs: seq<(Target, MethodInfo)>, name: string, throws: (Target, MethodInfo) -> bool, i: int) {
    0 <= i < |pairs| && pairs[i].1.name == name && !throws(pairs[i].0, pairs[i].1) &&
    forall j :: 0 <= j < i && pairs[j].1.name == name ==> throws(pairs[j].0, pairs[j].1)
  }

  /** At most one index is the first success. */
  lemma FirstSuccessUnique(pairs: seq<(Target, MethodInfo)>, name: string, throws: (Target, MethodInfo) -> bool, i: int, j: int)
    requires IsFirstSuccess(pairs, name, throws, i) && IsFirstSuccess(pairs, name, throws, j)
    ensures i == j
  {
  }

  lemma IsFirstSuccessShift(pairs: seq<(Target, MethodInfo)>, name: string, throws: (Target, MethodInfo) -> bool, k: int)
    requires pairs != [] && !(pairs[0].1.name == name && !throws(pairs[0].0, pairs[0].1))
    requires IsFirstSuccess(pairs[1..], name, throws, k)
    ensures IsFirstSuccess(pairs, name, throws, k + 1)
  {
    forall j | 0 <= j < k + 1 && pairs[j].1.name == name ensures throws(pairs[j].0, pairs[j].1) {
      if j > 0 {
        assert pairs[j] == pairs[1..][j - 1];
      }
    }
  }

  /** `InvokeMethod<T>(name, parameters)`: the value of the first
      invocation with the name that does not throw; invocations that
      throw are logged and skipped, and `default` is returned when all
      do. Static methods are not deduplicated here. */
  function FirstSuccess(pairs: seq<(Target, MethodInfo)>, name: string, throws: (Target, MethodInfo) -> bool): (r: Option<(Target, MethodInfo)>)
    ensures r.Some? ==> r.value in pairs && r.value.1.name == name && !throws(r.value.0, r.value.1)
    ensures r.Some? ==> exists i :: IsFirstSuccess(pairs, name, throws, i) && pairs[i] == r.value
    ensures r.None? <==> forall p :: p in pairs && p.1.name == name ==> throws(p.0, p.1)
  {
    if pairs == [] then None
    else
      assert forall p :: p in pairs <==> p == pairs[0] || p in pairs[1..];
      if pairs[0].1.name == name && !throws(pairs[0].0, pairs[0].1) then
        assert IsFirstSuccess(pairs, name, throws, 0);
        Some(pairs[0])
      else
        var r := FirstSuccess(pairs[1..], name, throws);
        assert r.Some? ==> exists i :: IsFirstSuccess(pairs, name, throws, i) && pairs[i] == r.value by {
          if r.Some? {
            var k :| IsFirstSuccess(pairs[1..], name, throws, k) && pairs[1..][k] == r.value;
            IsFirstSuccessShift(pairs, name, throws, k);
          }
        }
        r
  }

  /** The value of the first success, or `default` when there is none. */
  function ValueOfFirstSuccess<T>(pairs: seq<(Target, MethodInfo)>, name: string, throws: (Target, MethodInfo) -> bool,
                                  result: (Target, MethodInfo) -> T, default: T): (r: T)
    ensures (forall p :: p in pairs && p.1.name == name ==> throws(p.0, p.1)) ==> r == default
    ensures forall i :: IsFirstSuccess(pairs, name, throws, i) ==> r == result(pairs[i].0, pairs[i].1)
  {
    var found := FirstSuccess(pairs, name, throws);
    assert forall i :: IsFirstSuccess(pairs, name, throws, i) ==> found == Some(pairs[i]) by {
      forall i | IsFirstSuccess(pairs, name, throws, i) ensures found == Some(pairs[i]) {
        assert pairs[i] in pairs;
        var k :| IsFirstSuccess(pairs, name, throws, k) && pairs[k] == found.value;
        FirstSuccessUnique(pairs, name, throws, i, k);
      }
    }
    if found.Some? then result(found.value.0, found.value.1) else default
  }

  /** `InvokeMethod<T>(name, parameters)` over every target. */
  function InvokeMethodValue<T>(so: SerializedObject, name: string, throws: (Target, MethodInfo) -> bool,
                                result: (Target, MethodInfo) -> T, default: T): (r: T)
    ensures (forall p :: p in MethodPairs(so.entries) && p.1.name == name ==> throws(p.0, p.1)) ==> r == default
    ensures forall i :: IsFirstSuccess(MethodPairs(so.entries), name, throws, i) ==>
      r == result(MethodPairs(so.entries)[i].0, MethodPairs(so.entries)[i].1)
  {
    ValueOfFirstSuccess(MethodPairs(so.entries), name, throws, result, default)
  }

  /** `InvokeMethod<T>(name, obj, parameters)`: the same search over the
      target's own methods; an unknown target yields `default`. */
  function InvokeMethodValueOn<T>(so: SerializedObject, name: string, t: Target, throws: (Target, MethodInfo) -> bool,
                                  result: (Target, MethodInfo) -> T, default: T): (r: T)
    ensures !HasEntry(so.entries, t) ==> r == default
    ensures EntryOf(so.entries, t).Some? ==> var e := EntryOf(so.entries, t).value;
      ((forall m :: m in e.methods && m.name == name ==> throws(t, m)) ==> r == default) &&
      (forall i :: IsFirstSuccess(OwnPairs(e), name, throws, i) ==> r == result(t, e.methods[i]))
  {
    match EntryOf(so.entries, t)
    case None => default
    case Some(e) =>
      assert forall p :: p in OwnPairs(e) ==> p.0 == t;
      ValueOfFirstSuccess(OwnPairs(e), name, throws, result, default)
  }

  /** Without exceptions, the value comes from the first method with the
      name, the same pair `InvokeMethod(name)` invokes first. */
  lemma {:induction false} NoThrowsPicksFirstInvoked(pairs: seq<(Target, MethodInfo)>, name: string, throws: (Target, MethodInfo) -> bool)
    requires forall p :: p in pairs ==> !throws(p.0, p.1)
    ensures var calls := InvokeAll(pairs, name, false, throws);
      FirstSuccess(pairs, name, throws) == if calls == [] then None else Some((calls[0].target, calls[0].callee))
  {
    if pairs != [] {
      assert forall p :: p in pairs[1..] ==> p in pairs;
      if pairs[0].1.name != name {
        NoThrowsPicksFirstInvoked(pairs[1..], name, throws);
      }
    }
  }
}

=== FILE: strings.dfy ===
/** The .NET string operations the core relies on (`Contains`, `StartsWith`,
    `EndsWith`, `IndexOf`, `ToLowerInvariant`, `Replace`), on `seq<char>`,
    with ordinal comparison. */
module Strings {

  /** `sub` occurs in `s` starting at position `i`. */
  predicate OccursAt(s: string, sub: string, i: int) {
    0 <= i && i + |sub| <= |s| && s[i..i + |sub|] == sub
  }

  predicate StartsWith(s: string, prefix: string) {
    prefix <= s
  }

  predicate EndsWith(s: string, suffix: string) {
    |suffix| <= |s| && s[|s| - |suffix|..] == suffix
  }

  /** Index of the first occurrence of `sub` at or after `from`, or -1. */
  function IndexFrom(s: string, sub: string, from: nat): (r: int)
    ensures r == -1 || (from <= r && OccursAt(s, sub, r))
    ensures forall j :: from <= j && (r == -1 || j < r) ==> !OccursAt(s, sub, j)
    decreases |s| - from
  {
    if from + |sub| > |s| then -1
    else if s[from..from + |sub|] == sub then from
    else IndexFrom(s, sub, from + 1)
  }

  /** `s.IndexOf(sub)`: the first position where `sub` occurs, or -1. */
  function IndexOf(s: string, sub: string): (r: int)
    ensures r == -1 <==> forall j :: !OccursAt(s, sub, j)
    ensures r != -1 ==> OccursAt(s, sub, r) && forall j :: 0 <= j < r ==> !OccursAt(s, sub, j)
  {
    IndexFrom(s, sub, 0)
  }

  /** `s.Contains(sub)`. */
  predicate Contains(s: string, sub: string) {
    IndexOf(s, sub) != -1
  }

  lemma ContainsIffOccurs(s: string, sub: string)
    ensures Contains(s, sub) <==> exists i :: OccursAt(s, sub, i)
  {
    if Contains(s, sub) {
      assert OccursAt(s, sub, IndexOf(s, sub));
    }
  }

  /** A string containing `sub` somewhere inside a longer piece contains it. */
  lemma ContainsWithin(s: string, sub: string, i: int, j: int)
    requires 0 <= i <= j <= |s|
    requires Contains(s[i..j], sub)
    ensures Contains(s, sub)
  {
    var k := IndexOf(s[i..j], sub);
    var inner := s[i..j][k..k + |sub|];
    var outer := s[i + k..i + k + |sub|];
    forall t | 0 <= t < |sub|
      ensures outer[t] == inner[t]
    {
      assert outer[t] == s[i + k + t];
      assert inner[t] == s[i..j][k + t];
    }
    assert outer == inner;
    assert OccursAt(s, sub, i + k);
  }

  /** Every string that ends with `suffix` contains it. */
  lemma EndsWithContains(s: string, suffix: string)
    requires EndsWith(s, suffix)
    ensures Contains(s, suffix)
  {
    assert OccursAt(s, suffix, |s| - |suffix|);
  }

  function ToLowerChar(c: char): char {
    if 'A' <= c <= 'Z' then (c as int + 32) as char else c
  }

  /** `s.ToLowerInvariant()` on the ASCII letters. */
  function ToLower(s: string): (r: string)
    ensures |r| == |s|
    ensures forall i :: 0 <= i < |s| ==> r[i] == ToLowerChar(s[i])
  {
    if s == [] then [] else [ToLowerChar(s[0])] + ToLower(s[1..])
  }

  predicate IsLower(s: string) {
    forall i :: 0 <= i < |s| ==> !('A' <= s[i] <= 'Z')
  }

  /** `s.Replace(from, to)` for single characters. */
  function ReplaceChar(s: string, from: char, to: char): (r: string)
    ensures |r| == |s|
    ensures forall i :: 0 <= i < |s| ==> r[i] == (if s[i] == from then to else s[i])
  {
    if s == [] then [] else [if s[0] == from then to else s[0]] + ReplaceChar(s[1..], from, to)
  }

  /** `s.Replace("//", "/")`: one left-to-right pass over non-overlapping
      occurrences, so "///" becomes "//". */
  function CollapseDoubleSlash(s: string): (r: string)
    decreases |s|
  {
    if |s| >= 2 && s[0] == '/' && s[1] == '/' then "/" + CollapseDoubleSlash(s[2..])
    else if s == [] then []
    else [s[0]] + CollapseDoubleSlash(s[1..])
  }

  /** Replacing "//" never introduces a character that was not there, and
      never makes the string longer. */
  lemma {:induction false} CollapseDoubleSlashChars(s: string)
    ensures |CollapseDoubleSlash(s)| <= |s|
    ensures forall c :: c in CollapseDoubleSlash(s) ==> c in s
    decreases |s|
  {
    if |s| >= 2 && s[0] == '/' && s[1] == '/' {
      CollapseDoubleSlashChars(s[2..]);
    } else if s != [] {
      CollapseDoubleSlashChars(s[1..]);
    }
  }

  /** A string without "//" is left alone. */
  lemma {:induction false} CollapseDoubleSlashIdentity(s: string)
    requires !Contains(s, "//")
    ensures CollapseDoubleSlash(s) == s
    decreases |s|
  {
    if s != [] && !(|s| >= 2 && s[0] == '/' && s[1] == '/') {
      if Contains(s[1..], "//") {
        assert s[1..|s|] == s[1..];
        ContainsWithin(s, "//", 1, |s|);
      }
      CollapseDoubleSlashIdentity(s[1..]);
    }
  }

  /** The replacement keeps a leading "x/" piece without a slash in x: the
      text before the first slash is copied. */
  lemma {:induction false} CollapseDoubleSlashPrefix(p: string, s: string)
    requires forall i :: 0 <= i < |p| ==> p[i] != '/'
    ensures CollapseDoubleSlash(p + s) == p + CollapseDoubleSlash(s)
    decreases |p|
  {
    if p != [] {
      assert (p + s)[1..] == p[1..] + s;
      CollapseDoubleSlashPrefix(p[1..], s);
    } else {
      assert p + s == s;
    }
  }
}

=== FILE: style_cache.dfy ===
/** `SuperGUIStyleUtility`: a string-keyed cache of GUI styles, filled by
    creator functions or as mutated copies of a base style. */
module StyleCache {
  import opened Wrappers
  import opened Caches

  /** The cache, over an abstract style type `S`. */
  type StyleCache<S> = map<string, S>

  /** The cache key of a prefixed style name. */
  function PrefixedName(prefix: string, styleName: string): (r: string)
    ensures |r| == |prefix| + 1 + |styleName|
    ensures r[..|prefix|] == prefix && r[|prefix|] == '_' && r[|prefix| + 1..] == styleName
  {
    prefix + "_" + styleName
  }

  /** Prefixed names of one prefix never collide. */
  lemma PrefixedNameInjective(prefix: string, a: string, b: string)
    ensures PrefixedName(prefix, a) == PrefixedName(prefix, b) <==> a == b
  {
  }

  /** `GetStyle(styleName)`: the cached style, or null. Only a lookup, so
      the cache is never changed. */
  function GetStyle<S>(cache: StyleCache<S>, styleName: string): (r: Option<S>)
    ensures r.Some? <==> styleName in cache
    ensures r.Some? ==> r.value == cache[styleName]
  {
    if styleName in cache then Some(cache[styleName]) else None
  }

  /** `GetStyle(prefix, styleName)`. */
  function GetPrefixedStyle<S>(cache: StyleCache<S>, prefix: string, styleName: string): (r: Option<S>)
    ensures r.Some? <==> PrefixedName(prefix, styleName) in cache
  {
    GetStyle(cache, PrefixedName(prefix, styleName))
  }

  /** `GetStyle(styleName, createStyle)`: `created` is what `createStyle()`
      would return; `fetched` tells whether it was called. */
  function GetOrCreateStyle<S>(cache: StyleCache<S>, styleName: string, created: S): (r: Lookup<string, S>)
    ensures styleName in cache ==> r == Lookup(cache[styleName], cache, false)
    ensures styleName !in cache ==> r == Lookup(created, cache[styleName := created], true)
  {
    GetOrFetch(cache, styleName, _ => created)
  }

  /** `GetStyle(prefix, styleName, createStyle)`, written out as the source
      writes it rather than by delegation. */
  function GetOrCreatePrefixedStyle<S>(cache: StyleCache<S>, prefix: string, styleName: string, created: S): (r: Lookup<string, S>)
    ensures r == GetOrCreateStyle(cache, PrefixedName(prefix, styleName), created)
  {
    var key := prefix + "_" + styleName;
    if key in cache then Lookup(cache[key], cache, false)
    else Lookup(created, cache[key := created], true)
  }

  /** `style.Variant(styleName, createStyle)`: on a hit the cached style is
      returned, whatever `base` is; on a miss a copy of `base` is mutated,
      cached and returned. */
  function Variant<S>(cache: StyleCache<S>, base: S, styleName: string, mutate: S -> S): (r: Lookup<string, S>)
    ensures styleName in cache ==> r == Lookup(cache[styleName], cache, false)
    ensures styleName !in cache ==> r == Lookup(mutate(base), cache[styleName := mutate(base)], true)
  {
    GetOrFetch(cache, styleName, _ => mutate(base))
  }

  /** `style.Variant(prefix, styleName, createStyle)`. */
  function PrefixedVariant<S>(cache: StyleCache<S>, base: S, prefix: string, styleName: string, mutate: S -> S): (r: Lookup<string, S>)
    ensures r == Variant(cache, base, PrefixedName(prefix, styleName), mutate)
  {
    var key := prefix + "_" + styleName;
    if key in cache then Lookup(cache[key], cache, false)
    else
      var copy := mutate(base);
      Lookup(copy, cache[key := copy], true)
  }

  /** `ClearCache`, run on every domain reload. */
  function ClearCache<S>(cache: StyleCache<S>): (r: StyleCache<S>)
    ensures forall name :: GetStyle(r, name).None?
  {
    map[]
  }

  /** A created style is what later plain lookups see, and an immediate
      second call neither creates again nor changes the cache. */
  lemma CreatedStyleIsCached<S>(cache: StyleCache<S>, styleName: string, created: S, created': S)
    ensures var first := GetOrCreateStyle(cache, styleName, created);
      GetStyle(first.cache, styleName) == Some(first.value)
      && GetOrCreateStyle(first.cache, styleName, created') == Lookup(first.value, first.cache, false)
  {
  }

  /** The first variant requested under a name fixes that name's style:
      later requests from other base styles or with other mutators get the
      same style. */
  lemma FirstVariantWins<S>(cache: StyleCache<S>, base: S, base': S, styleName: string, mutate: S -> S, mutate': S -> S)
    ensures var first := Variant(cache, base, styleName, mutate);
      Variant(first.cache, base', styleName, mutate').value == first.value
  {
  }

  /** Styles created by `GetStyle` and by `Variant` share one name space. */
  lemma VariantAndGetStyleShareNames<S>(cache: StyleCache<S>, base: S, styleName: string, mutate: S -> S, created: S)
    ensures var v := Variant(cache, base, styleName, mutate);
      GetOrCreateStyle(v.cache, styleName, created).value == v.value
  {
  }
}

=== FILE: super_editor.dfy ===
/** `SuperEditor<T>`: the inspector of a `SuperBehaviour`. The default
    inspector's field loop, the properties section, the improved fields
    with their write-back guards, the mixed-value test, the toolboxes,
    the code-smell list and the icon update. */
module SuperEditors {
  import opened Wrappers
  import opened Strings
  import opened Buttons
  import opened Reflection
  import opened SerializedAttributesModel
  import opened GuiLayout
  import opened SerializedObjects
  import opened PreferenceProviders
  import I = Icons
  import IconUtility
  import SuperIcons

  /** How the default inspector treats one field. */
  datatype ImprovedKind = LayerField | TagField | HDRColorField | TabField
  datatype FieldAction = SkipField | ImprovedField(kind: ImprovedKind) | StandardField

  /** Inactive and hidden fields are skipped; Layer, Tag, Tabs and
      HDR-colour fields get an improved field, checked in the order layer,
      tag, HDR colour, tabs; everything else goes to `PropertyField`. */
  function ActionFor(a: SerializedAttributes): (r: FieldAction)
    ensures r == SkipField <==> !a.isActive || a.isHidden
    ensures r.ImprovedField? <==> a.isActive && !a.isHidden && (a.isLayer || a.isTag || a.isTab || a.isHDRColor)
    ensures r == ImprovedField(TabField) ==> a.isTab && !a.isLayer && !a.isTag && !a.isHDRColor
  {
    if !a.isActive || a.isHidden then SkipField
    else if a.isLayer then ImprovedField(LayerField)
    else if a.isTag then ImprovedField(TagField)
    else if a.isHDRColor then ImprovedField(HDRColorField)
    else if a.isTab then ImprovedField(TabField)
    else StandardField
  }

  /** A colour; its four components are modelled as reals. */
  datatype Color = Color(r: real, g: real, b: real, a: real)

  /** Unity compares colours through `Vector4`: two colours are equal when
      the squared distance between them is below 9.99999944e-11, the square
      of `Vector4.kEpsilon`. The comparison is not transitive. */
  const ColorEpsilon: real := 0.0000000000999999944

  predicate ColorsEqual(x: Color, y: Color) {
    (x.r - y.r) * (x.r - y.r) + (x.g - y.g) * (x.g - y.g) + (x.b - y.b) * (x.b - y.b) + (x.a - y.a) * (x.a - y.a) < ColorEpsilon
  }

  /** The comparison of layers (`int`) and tags (`string`). */
  predicate ExactlyEqual<V(==)>(x: V, y: V) { x == y }

  /** The stored value of a field and what the user entered this frame. */
  datatype FieldValue = FieldValue(intValue: int, stringValue: string, colorValue: Color)
  datatype FieldInput = FieldInput(layer: int, tag: string, color: Color, tabClicked: Option<int>)

  datatype Edit = NoEdit | SetInt(i: int) | SetString(s: string) | SetColor(c: Color)

  /** The write-back guard of the layer, tag and colour fields: only an
      editable field whose value changed, as the type's `!=` sees it, is
      written. */
  function WriteBack<V>(readOnly: bool, stored: V, entered: V, same: (V, V) -> bool): (r: Option<V>)
    ensures r.Some? <==> !readOnly && !same(stored, entered)
    ensures r.Some? ==> r.value == entered
  {
    if !readOnly && !same(stored, entered) then Some(entered) else None
  }

  /** The value a Unity control returns: what the user entered while the
      GUI is enabled, the value it was given while it is not. */
  function Shown<V>(enabled: bool, stored: V, entered: V): V {
    if enabled then entered else stored
  }

  /** What an improved field writes. A disabled Unity control hands back
      the stored value, so nothing is written while the GUI is off; a
      read-only field turns it off as well. */
  function ImprovedEdit(kind: ImprovedKind, a: SerializedAttributes, v: FieldValue, input: FieldInput, enabledBefore: bool): (e: Edit)
    ensures a.isReadOnly ==> e == NoEdit
    ensures !enabledBefore ==> e == NoEdit
    ensures kind != TabField && enabledBefore && !a.isReadOnly ==> (e == NoEdit <==>
      match kind
      case LayerField => input.layer == v.intValue
      case TagField => input.tag == v.stringValue
      case HDRColorField => ColorsEqual(v.colorValue, input.color)
      case TabField => true)
    ensures e.SetInt? && kind == LayerField ==> e.i == input.layer && e.i != v.intValue
    ensures e.SetString? ==> kind == TagField && e.s == input.tag && e.s != v.stringValue
    ensures e.SetColor? ==> kind == HDRColorField && e.c == input.color && !ColorsEqual(v.colorValue, e.c) && e.c != v.colorValue
    ensures kind == HDRColorField && ColorsEqual(v.colorValue, input.color) ==> e == NoEdit
    ensures kind == TabField && e.SetInt? ==> input.tabClicked == Some(e.i) && enabledBefore
  {
    var enabled := enabledBefore && !a.isReadOnly;
    match kind
    case LayerField =>
      var w := WriteBack(a.isReadOnly, v.intValue, Shown(enabled, v.intValue, input.layer), ExactlyEqual);
      if w.Some? then SetInt(w.value) else NoEdit
    case TagField =>
      var w := WriteBack(a.isReadOnly, v.stringValue, Shown(enabled, v.stringValue, input.tag), ExactlyEqual);
      if w.Some? then SetString(w.value) else NoEdit
    case HDRColorField =>
      var w := WriteBack(a.isReadOnly, v.colorValue, Shown(enabled, v.colorValue, input.color), ColorsEqual);
      if w.Some? then SetColor(w.value) else NoEdit
    case TabField =>
      if enabled && input.tabClicked.Some? then SetInt(input.tabClicked.value) else NoEdit
  }

  /** An improved field that is edited changes the field's value: the
      written value differs from the stored one, except that clicking the
      active tab rewrites the same number. */
  lemma ImprovedEditChangesValue(kind: ImprovedKind, a: SerializedAttributes, v: FieldValue, input: FieldInput, enabledBefore: bool)
    requires kind != TabField
    requires ImprovedEdit(kind, a, v, input, enabledBefore) != NoEdit
    ensures !a.isReadOnly
    ensures match ImprovedEdit(kind, a, v, input, enabledBefore)
      case SetInt(i) => i != v.intValue
      case SetString(s) => s != v.stringValue
      case SetColor(c) => c != v.colorValue && !ColorsEqual(v.colorValue, c)
      case NoEdit => false
  {
  }

  /** A colour entered within Unity's tolerance of the stored one is not
      written back, though it is a different colour. */
  lemma NearColorNotWritten(a: SerializedAttributes, v: FieldValue, input: FieldInput, enabledBefore: bool)
    requires v.colorValue == Color(0.0, 0.0, 0.0, 1.0) && input.color == Color(0.000001, 0.0, 0.0, 1.0)
    ensures input.color != v.colorValue
    ensures ImprovedEdit(HDRColorField, a, v, input, enabledBefore) == NoEdit
  {
    assert ColorsEqual(v.colorValue, input.color);
  }

  /** `MixModeEnabled*`: with several objects selected, whether some
      target's value differs from the first one's, by the type's `!=`. */
  function MixModeEnabled<V>(multi: bool, values: seq<V>, same: (V, V) -> bool): (r: bool)
    ensures r ==> multi && values != []
    ensures r <==> multi && exists v :: v in values && !same(v, values[0])
  {
    multi && exists i :: 0 <= i < |values| && !same(values[i], values[0])
  }

  /** For a comparison that is an equivalence, as exact equality of layers
      and tags is, the mixed-value test is "not all values are equal". */
  lemma MixModeIffValuesDiffer<V>(multi: bool, values: seq<V>, same: (V, V) -> bool)
    requires forall x, y :: same(x, y) ==> same(y, x)
    requires forall x, y, z :: same(x, y) && same(y, z) ==> same(x, z)
    ensures MixModeEnabled(multi, values, same) <==>
      multi && exists i, j :: 0 <= i < |values| && 0 <= j < |values| && !same(values[i], values[j])
  {
    if multi && (exists i, j :: 0 <= i < |values| && 0 <= j < |values| && !same(values[i], values[j])) {
      var i, j :| 0 <= i < |values| && 0 <= j < |values| && !same(values[i], values[j]);
      if same(values[i], values[0]) && same(values[j], values[0]) {
        assert false;
      }
    }
  }

  /** Exact equality is such an equivalence. */
  lemma ExactMixModeIffValuesDiffer<V>(multi: bool, values: seq<V>)
    ensures MixModeEnabled(multi, values, ExactlyEqual) <==>
      multi && exists i, j :: 0 <= i < |values| && 0 <= j < |values| && values[i] != values[j]
  {
    MixModeIffValuesDiffer(multi, values, ExactlyEqual);
  }

  /** Colour comparison is not: three colours, each step within the
      tolerance of the next, are not shown as mixed when the middle one
      comes first, though the outer two differ even by Unity's measure. */
  lemma ColorMixModeMissesOuterPair()
    ensures var lo, mid, hi := Color(0.0, 0.0, 0.0, 1.0), Color(0.000007, 0.0, 0.0, 1.0), Color(0.000014, 0.0, 0.0, 1.0);
      !MixModeEnabled(true, [mid, lo, hi], ColorsEqual) && !ColorsEqual(lo, hi)
  {
    var lo, mid, hi := Color(0.0, 0.0, 0.0, 1.0), Color(0.000007, 0.0, 0.0, 1.0), Color(0.000014, 0.0, 0.0, 1.0);
    var values := [mid, lo, hi];
    assert ColorsEqual(mid, mid) && ColorsEqual(lo, mid) && ColorsEqual(hi, mid);
    assert forall i :: 0 <= i < |values| ==> ColorsEqual(values[i], values[0]);
  }

  /** The helper reads the value of every property with the field's path,
      across all targets. */
  function MixModeFor<V>(so: SerializedObject, multi: bool, path: string, valueOf: SuperProperty -> V, same: (V, V) -> bool): (r: bool)
    ensures r ==> multi
  {
    var props := FindAllPropertiesByPath(so, path);
    MixModeEnabled(multi, seq(|props|, i requires 0 <= i < |props| => valueOf(props[i])), same)
  }

  /** A single object with one property of the path is never shown as
      mixed, whatever comparison the type uses, so long as equal values
      compare equal. */
  lemma SingleTargetNeverMixed<V>(so: SerializedObject, multi: bool, path: string, valueOf: SuperProperty -> V, same: (V, V) -> bool)
    requires |so.entries| == 1 && |so.entries[0].all| == 1
    requires forall x, y :: x == y ==> same(x, y)
    ensures !MixModeFor(so, multi, path, valueOf, same)
  {
    var props := FindAllPropertiesByPath(so, path);
    var values := seq(|props|, i requires 0 <= i < |props| => valueOf(props[i]));
    forall i | 0 <= i < |values| ensures same(values[i], values[0]) {
      assert props[i] in props && props[0] in props;
      assert props[i] in so.entries[0].all && props[0] in so.entries[0].all;
      assert props[i] == so.entries[0].all[0] == props[0];
      assert values[i] == values[0];
      SameIsReflexive(same, values[0]);
    }
  }

  lemma SameIsReflexive<V>(same: (V, V) -> bool, v: V)
    requires forall x, y :: x == y ==> same(x, y)
    ensures same(v, v)
  {
  }

  /** One field of the default inspector: the placed widgets and the
      edit it makes. The improved branch draws the attributes before, the
      field and the attributes after, disabled when read-only. */
  datatype FieldOutcome = FieldOutcome(placed: seq<Placed>, invoked: seq<Option<string>>, edit: Edit)

  /** One field of the fields loop. Buttons drawn while the GUI is
      disabled report no click, so a read-only field or a disabled scope
      invokes nothing. */
  function DrawField(p: PropertyView, v: FieldValue, input: FieldInput, enabledBefore: bool, clicked: ButtonAttribute -> bool): (r: FieldOutcome)
    ensures ActionFor(p.attrs) == SkipField ==> r == FieldOutcome([], [], NoEdit)
    ensures p.attrs.isReadOnly ==> r.edit == NoEdit && forall x :: x in r.placed ==> !x.enabled
    ensures forall x :: x in r.placed && x.enabled ==> enabledBefore
    ensures ActionFor(p.attrs) == StandardField ==> r.edit == NoEdit
    ensures !enabledBefore || p.attrs.isReadOnly ==> r.invoked == []
    ensures ActionFor(p.attrs) != SkipField && enabledBefore && !p.attrs.isReadOnly ==>
      r.invoked == SideInvocations(p.attrs.buttons, false, clicked)
        + (if ActionFor(p.attrs) == StandardField && Body(p) == MissingDrawerText then []
           else SideInvocations(p.attrs.buttons, true, clicked))
  {
    var enabled := if p.attrs.isReadOnly then false else enabledBefore;
    match ActionFor(p.attrs)
    case SkipField => FieldOutcome([], [], NoEdit)
    case StandardField =>
      var f := PropertyField(p, enabled, clicked);
      FieldOutcome(f.placed, f.invoked, NoEdit)
    case ImprovedField(kind) =>
      var before := DrawAttributesBefore(p, false, ClicksWhen(enabled, clicked));
      var after := DrawAttributesAfter(p, ClicksWhen(enabled, clicked));
      GatedInvocations(p, false, enabled, enabled, clicked);
      var placed := PlaceAround(before.widgets, ImprovedWidget, after.widgets, enabled);
      FieldOutcome(placed, before.invoked + after.invoked, ImprovedEdit(kind, p.attrs, v, input, enabledBefore))
  }

  /** Widgets around a control, all placed with the same enabled state. */
  function PlaceAround(before: seq<Widget>, w: Widget, after: seq<Widget>, enabled: bool): (r: seq<Placed>)
    ensures |r| == |before| + 1 + |after|
    ensures forall x :: x in r ==> x.enabled == enabled
  {
    var r := PlaceAll(before, enabled) + [Placed(w, enabled)] + PlaceAll(after, enabled);
    assert forall i :: 0 <= i < |r| ==> r[i].enabled == enabled;
    r
  }

  /** The layer, tag, colour or tab control of an improved field. */
  const ImprovedWidget: Widget := DefaultField

  /** The properties section. Nothing without properties; otherwise the
      foldout header, and the properties only while it is open, each
      disabled when read-only, outside play mode or when several objects
      are edited, and the methods their clicked buttons invoke. `open` is
      the foldout's state after this frame. */
  datatype Section = Section(header: bool, placed: seq<Placed>, invoked: seq<Option<string>>)

  /** What one property places: its `PropertyField` when it is active and
      visible, disabled when it is read-only or the section is disabled. */
  function PropertyPlaced(enabled: bool, clicked: ButtonAttribute -> bool): PropertyView -> seq<Placed> {
    (p: PropertyView) =>
      if !p.attrs.isActive || p.attrs.isHidden then [] else PropertyField(p, enabled && !p.attrs.isReadOnly, clicked).placed
  }

  /** The properties loop: every property's widgets, in order. */
  function DrawProperties(props: seq<PropertyView>, enabled: bool, clicked: ButtonAttribute -> bool): (r: seq<Placed>)
    ensures forall x :: x in r ==> !x.enabled || enabled
    ensures forall x :: x in r && x.enabled ==> exists p :: p in props && !p.attrs.isReadOnly && x in PropertyField(p, enabled, clicked).placed
    ensures (forall p :: p in props ==> !p.attrs.isActive || p.attrs.isHidden) ==> r == []
  {
    var f := PropertyPlaced(enabled, clicked);
    forall p | p in props
      ensures PropertyPlacedFacts(p, enabled, clicked)
    {
      PropertyPlacedHolds(p, enabled, clicked);
    }
    SelectManyMembers(props, f);
    var r := SelectMany(props, f);
    assert r != [] ==> r[0] in r;
    r
  }

  /** What `PropertyPlaced` gives one property: nothing when it is
      inactive or hidden, nothing enabled in a disabled section, and an
      enabled widget only from an editable property's field. */
  predicate PropertyPlacedFacts(p: PropertyView, enabled: bool, clicked: ButtonAttribute -> bool) {
    var placed := PropertyPlaced(enabled, clicked)(p);
    && (!p.attrs.isActive || p.attrs.isHidden ==> placed == [])
    && (forall x :: x in placed && x.enabled ==> enabled && !p.attrs.isReadOnly && x in PropertyField(p, enabled, clicked).placed)
  }

  lemma PropertyPlacedHolds(p: PropertyView, enabled: bool, clicked: ButtonAttribute -> bool)
    ensures PropertyPlacedFacts(p, enabled, clicked)
  {
    if p.attrs.isActive && !p.attrs.isHidden && p.attrs.isReadOnly {
      assert forall x :: x in PropertyPlaced(enabled, clicked)(p) ==> !x.enabled;
    }
  }

  /** What one property's clicked buttons invoke, under the same
      conditions as `PropertyPlaced`. */
  function PropertyInvoked(enabled: bool, clicked: ButtonAttribute -> bool): PropertyView -> seq<Option<string>> {
    (p: PropertyView) =>
      if !p.attrs.isActive || p.attrs.isHidden then [] else PropertyField(p, enabled && !p.attrs.isReadOnly, clicked).invoked
  }

  lemma DisabledPropertyInvokesNothing(p: PropertyView, enabled: bool, clicked: ButtonAttribute -> bool)
    requires !enabled || !p.attrs.isActive || p.attrs.isHidden || p.attrs.isReadOnly
    ensures PropertyInvoked(enabled, clicked)(p) == []
  {
    if p.attrs.isActive && !p.attrs.isHidden {
      assert PropertyField(p, enabled && !p.attrs.isReadOnly, clicked).invoked == [];
    }
  }

  /** The invocations of the properties loop, property by property. A
      disabled section, and a section whose visible properties are all
      read-only, invokes nothing. */
  function PropertiesInvoked(props: seq<PropertyView>, enabled: bool, clicked: ButtonAttribute -> bool): (r: seq<Option<string>>)
    ensures !enabled ==> r == []
    ensures (forall p :: p in props ==> !p.attrs.isActive || p.attrs.isHidden || p.attrs.isReadOnly) ==> r == []
  {
    if !enabled || (forall p :: p in props ==> !p.attrs.isActive || p.attrs.isHidden || p.attrs.isReadOnly) then
      PropertiesInvokeNothing(props, enabled, clicked);
      SelectMany(props, PropertyInvoked(enabled, clicked))
    else
      SelectMany(props, PropertyInvoked(enabled, clicked))
  }

  lemma PropertiesInvokeNothing(props: seq<PropertyView>, enabled: bool, clicked: ButtonAttribute -> bool)
    requires !enabled || forall p :: p in props ==> !p.attrs.isActive || p.attrs.isHidden || p.attrs.isReadOnly
    ensures SelectMany(props, PropertyInvoked(enabled, clicked)) == []
  {
    forall p | p in props
      ensures PropertyInvoked(enabled, clicked)(p) == []
    {
      DisabledPropertyInvokesNothing(p, enabled, clicked);
    }
    SelectManyOfEmpty(props, PropertyInvoked(enabled, clicked));
  }

  /** The loop draws property by property: one property places what
      `PropertyPlaced` says, and the properties of a concatenation are
      drawn one list after the other. */
  lemma DrawPropertiesSingleton(p: PropertyView, enabled: bool, clicked: ButtonAttribute -> bool)
    ensures DrawProperties([p], enabled, clicked) ==
      if !p.attrs.isActive || p.attrs.isHidden then [] else PropertyField(p, enabled && !p.attrs.isReadOnly, clicked).placed
  {
    SelectManySingleton(p, PropertyPlaced(enabled, clicked));
  }

  lemma PropertiesInvokedSingleton(p: PropertyView, enabled: bool, clicked: ButtonAttribute -> bool)
    ensures PropertiesInvoked([p], enabled, clicked) ==
      if !p.attrs.isActive || p.attrs.isHidden then [] else PropertyField(p, enabled && !p.attrs.isReadOnly, clicked).invoked
  {
    SelectManySingleton(p, PropertyInvoked(enabled, clicked));
  }

  lemma DrawPropertiesAppend(a: seq<PropertyView>, b: seq<PropertyView>, enabled: bool, clicked: ButtonAttribute -> bool)
    ensures DrawProperties(a + b, enabled, clicked) == DrawProperties(a, enabled, clicked) + DrawProperties(b, enabled, clicked)
    ensures PropertiesInvoked(a + b, enabled, clicked) == PropertiesInvoked(a, enabled, clicked) + PropertiesInvoked(b, enabled, clicked)
  {
    SelectManyAppend(a, b, PropertyPlaced(enabled, clicked));
    SelectManyAppend(a, b, PropertyInvoked(enabled, clicked));
  }

  function PropertiesSection(props: seq<PropertyView>, open: bool, isPlaying: bool, multi: bool,
                             enabledBefore: bool, clicked: ButtonAttribute -> bool): (r: Section)
    ensures props == [] ==> r == Section(false, [], [])
    ensures props != [] ==> r.header
    ensures !open ==> r.placed == [] && r.invoked == []
    ensures !isPlaying || multi ==> (forall x :: x in r.placed ==> !x.enabled) && r.invoked == []
    ensures open && props != [] ==> r.placed == DrawProperties(props, isPlaying && !multi && enabledBefore, clicked)
    ensures open && props != [] ==> r.invoked == PropertiesInvoked(props, isPlaying && !multi && enabledBefore, clicked)
  {
    if props == [] then Section(false, [], [])
    else if !open then Section(true, [], [])
    else
      var enabled := if !isPlaying || multi then false else enabledBefore;
      Section(true, DrawProperties(props, enabled, clicked), PropertiesInvoked(props, enabled, clicked))
  }

  /** What the code-smell list needs to know about a field. */
  datatype FieldSummary = FieldSummary(isField: bool, isPublic: bool, displayName: string)

  const CodeSmellsHighlightKey: string := "SuperBehaviour.CodeSmells.Highlight"

  function PublicFieldSmells(fields: seq<FieldSummary>): (r: seq<string>)
    ensures |r| <= |fields|
  {
    if fields == [] then []
    else
      var f := fields[0];
      (if f.isField && f.isPublic then ["Public Field: " + f.displayName] else []) + PublicFieldSmells(fields[1..])
  }

  function CountPublic(fields: seq<FieldSummary>): nat {
    if fields == [] then 0
    else (if fields[0].isField && fields[0].isPublic then 1 else 0) + CountPublic(fields[1..])
  }

  /** `DrawCodeSmellSummary`'s list: one entry per public field, none when
      either code-smell preference is off. */
  function CodeSmells(store: Store, fields: seq<FieldSummary>): (r: seq<string>)
    ensures !GetBool(store, "SuperBehaviour.CodeSmells.Enabled", true) ==> r == []
    ensures !GetBool(store, CodeSmellsHighlightKey, true) ==> r == []
  {
    if !GetBool(store, "SuperBehaviour.CodeSmells.Enabled", true) || !GetBool(store, CodeSmellsHighlightKey, true) then []
    else PublicFieldSmells(fields)
  }

  /** Each public field yields exactly one entry, named after it, in field
      order. */
  lemma {:induction false} OneSmellPerPublicField(fields: seq<FieldSummary>)
    ensures |PublicFieldSmells(fields)| == CountPublic(fields)
    ensures forall s :: s in PublicFieldSmells(fields) ==>
      exists f :: f in fields && f.isField && f.isPublic && s == "Public Field: " + f.displayName
    ensures forall f :: f in fields && f.isField && f.isPublic ==> "Public Field: " + f.displayName in PublicFieldSmells(fields)
  {
    if fields != [] {
      OneSmellPerPublicField(fields[1..]);
      assert forall f :: f in fields <==> f == fields[0] || f in fields[1..];
    }
  }

  /** With both preferences at their defaults the summary is shown exactly
      when some field is public. */
  lemma FreshStoreShowsSummaryForPublicFields(fields: seq<FieldSummary>)
    ensures CodeSmells(map[], fields) != [] <==> exists f :: f in fields && f.isField && f.isPublic
  {
    OneSmellPerPublicField(fields);
    var r := PublicFieldSmells(fields);
    if r != [] {
      assert r[0] in r;
    }
  }

  /** The number of toolbox buttons of one method: its buttons on the
      requested side, plus its context menus for the toolbox before the
      fields. */
  function MethodButtonCount(m: MethodInfo, displayAfter: bool): nat {
    |Where(ButtonsOf(m.attributes), OnSide(displayAfter))| + (if displayAfter then 0 else |ContextMenusOf(m.attributes)|)
  }

  function ToolboxCount(methods: seq<MethodInfo>, displayAfter: bool): nat {
    if methods == [] then 0 else MethodButtonCount(methods[0], displayAfter) + ToolboxCount(methods[1..], displayAfter)
  }

  /** What the toolbox draws: the buttons, and the method names that the
      buttons clicked this frame hand to `InvokeMethod`, in drawing order. */
  datatype Toolbox = Toolbox(buttons: seq<Widget>, invoked: seq<Option<string>>)

  function MethodWidgets(displayAfter: bool, clicked: ButtonAttribute -> bool, menuClicked: string -> bool): MethodInfo -> seq<Widget> {
    (m: MethodInfo) => DrawMethodButtons(m, displayAfter, clicked, menuClicked).widgets
  }

  function MethodInvocations(displayAfter: bool, clicked: ButtonAttribute -> bool, menuClicked: string -> bool): MethodInfo -> seq<Option<string>> {
    (m: MethodInfo) => DrawMethodButtons(m, displayAfter, clicked, menuClicked).invoked
  }

  /** The invocations a method's clicked buttons make: its own name once
      per click. */
  function ClickedNames(displayAfter: bool, clicked: ButtonAttribute -> bool, menuClicked: string -> bool): MethodInfo -> seq<Option<string>> {
    (m: MethodInfo) => Repeat(Some(m.name), MethodClicks(m, displayAfter, clicked, menuClicked))
  }

  /** The `DrawButtons(object, method)` loop over the methods. */
  function ToolboxButtons(methods: seq<MethodInfo>, displayAfter: bool, clicked: ButtonAttribute -> bool, menuClicked: string -> bool): Toolbox {
    Toolbox(SelectMany(methods, MethodWidgets(displayAfter, clicked, menuClicked)),
            SelectMany(methods, MethodInvocations(displayAfter, clicked, menuClicked)))
  }

  /** `DrawToolbox`: nothing without a serialized object, without methods
      or when the count is zero; otherwise the background sized for the
      count and each method's buttons, whose clicks invoke the method by
      name on the serialized object. */
  function DrawToolbox(so: Option<SerializedObject>, displayAfter: bool, clicked: ButtonAttribute -> bool, menuClicked: string -> bool): (r: Option<Toolbox>)
    ensures so.None? ==> r.None?
    ensures so.Some? && so.value.entries == [] ==> r.None?
    ensures r.Some? <==> (so.Some? && so.value.entries != [] && ToolboxCount(so.value.entries[0].methods, displayAfter) > 0)
    ensures r.Some? ==> |r.value.buttons| == ToolboxCount(so.value.entries[0].methods, displayAfter)
    ensures r.Some? ==> r.value.invoked == SelectMany(so.value.entries[0].methods, ClickedNames(displayAfter, clicked, menuClicked))
  {
    if so.None? then None
    else match FirstEntry(so.value)
      case None => None
      case Some(e) =>
        if e.methods == [] || ToolboxCount(e.methods, displayAfter) == 0 then None
        else
          ToolboxCountMatchesButtons(e.methods, displayAfter, clicked, menuClicked);
          ToolboxInvocations(e.methods, displayAfter, clicked, menuClicked);
          Some(ToolboxButtons(e.methods, displayAfter, clicked, menuClicked))
  }

  lemma MethodButtonsMatchCount(m: MethodInfo, displayAfter: bool, clicked: ButtonAttribute -> bool, menuClicked: string -> bool)
    ensures |DrawMethodButtons(m, displayAfter, clicked, menuClicked).widgets| == MethodButtonCount(m, displayAfter)
  {
  }

  /** The background is sized for exactly the buttons drawn into it. */
  lemma {:induction false} ToolboxCountMatchesButtons(methods: seq<MethodInfo>, displayAfter: bool,
                                                      clicked: ButtonAttribute -> bool, menuClicked: string -> bool)
    ensures |ToolboxButtons(methods, displayAfter, clicked, menuClicked).buttons| == ToolboxCount(methods, displayAfter)
  {
    if methods != [] {
      MethodButtonsMatchCount(methods[0], displayAfter, clicked, menuClicked);
      ToolboxCountMatchesButtons(methods[1..], displayAfter, clicked, menuClicked);
    }
  }

  /** A list whose every element is `x` is `x` repeated. */
  lemma RepeatOfConstant<T>(s: seq<T>, x: T)
    requires forall y :: y in s ==> y == x
    ensures s == Repeat(x, |s|)
  {
    forall i | 0 <= i < |s| ensures s[i] == Repeat(x, |s|)[i] {
      assert s[i] in s;
      assert Repeat(x, |s|)[i] in Repeat(x, |s|);
    }
  }

  /** The toolbox invokes, method by method in declaration order, each
      method's own name once per click on one of its buttons. */
  lemma {:induction false} ToolboxInvocations(methods: seq<MethodInfo>, displayAfter: bool,
                                              clicked: ButtonAttribute -> bool, menuClicked: string -> bool)
    ensures ToolboxButtons(methods, displayAfter, clicked, menuClicked).invoked
      == SelectMany(methods, ClickedNames(displayAfter, clicked, menuClicked))
  {
    if methods != [] {
      var m := methods[0];
      var d := DrawMethodButtons(m, displayAfter, clicked, menuClicked);
      RepeatOfConstant(d.invoked, Some(m.name));
      assert MethodInvocations(displayAfter, clicked, menuClicked)(m) == ClickedNames(displayAfter, clicked, menuClicked)(m);
      ToolboxInvocations(methods[1..], displayAfter, clicked, menuClicked);
    }
  }

  /** The value `m_lastIconAssigned` keeps: it is initialised to `None` and
      never assigned again. */
  const LastIconAssigned: I.SuperBehaviourIcon := I.None

  /** `UpdateIcon`: the class-name icon's file, replaced by the path of a
      `SuperIcon` attribute on the target's type. A missing type name
      raises, as `Contains` is called on null. The result is the path
      handed to the asset loader. */
  function UpdateIcon(typeName: Option<string>, superIcon: Option<SuperIcons.SuperIcon>): (r: Result<Option<string>>)
    ensures typeName.None? <==> r.Failure?
    ensures r.Failure? ==> r.error == NullReference
    ensures typeName.Some? && superIcon.None? ==>
      r == Success(Some(IconUtility.TexturePath(IconUtility.GetIconByClassName(typeName.value))))
    ensures typeName.Some? && superIcon.Some? ==> r == Success(SuperIcons.GetPath(superIcon.value))
  {
    match typeName
    case None => Failure(NullReference)
    case Some(name) =>
      var icon := IconUtility.GetIconByClassName(name);
      IconUtility.NeverNoneOrCustom(name);
      if icon == LastIconAssigned then Success(None)
      else
        var path := I.IconFile(I.IconName(icon));
        if superIcon.Some? then
          Success(SuperIcons.GetPath(superIcon.value))
        else Success(Some(path))
  }

  /** The early exit never fires: the classification is never `None`, the
      value `m_lastIconAssigned` keeps. */
  lemma UpdateIconNeverSkips(name: string)
    ensures IconUtility.GetIconByClassName(name) != LastIconAssigned
    ensures UpdateIcon(Some(name), Option.None).value.Some?
  {
    IconUtility.NeverNoneOrCustom(name);
  }
}

=== FILE: super_icon.dfy ===
/** The `SuperIcon` class attribute: an icon chosen from the
    `SuperBehaviourIcon` enumeration, or a custom texture path. */
module SuperIcons {
  import W = Wrappers
  import opened Strings
  import opened Icons
  import IconUtility

  /** The attribute as constructed: `basePath` is the path handed to Unity's
      `IconAttribute` base, `customPath` the path remembered for `Custom`. */
  datatype SuperIcon = SuperIcon(icon: SuperBehaviourIcon, customPath: W.Option<string>, basePath: string)

  /** The path of an enumeration icon; `None` is shown as `Default`. */
  function IconPath(icon: SuperBehaviourIcon): (p: string)
    ensures StartsWith(p, IconFolder) && EndsWith(p, ".png")
    ensures icon != SuperBehaviourIcon.None ==> p == IconUtility.TexturePath(icon)
    ensures icon == SuperBehaviourIcon.None ==> p == IconUtility.TexturePath(Default)
  {
    var shown := if icon == SuperBehaviourIcon.None then Default else icon;
    assert IconFile(IconName(shown)) == IconFolder + (IconName(shown) + ".png");
    IconFile(IconName(shown))
  }

  /** Two icons share a path exactly when they are equal or are `None` and
      `Default`. */
  lemma IconPathCollisions(a: SuperBehaviourIcon, b: SuperBehaviourIcon)
    ensures IconPath(a) == IconPath(b) <==>
      a == b || ({a, b} == {SuperBehaviourIcon.None, Default})
  {
    var sa := if a == SuperBehaviourIcon.None then Default else a;
    var sb := if b == SuperBehaviourIcon.None then Default else b;
    IconFileInjective(IconName(sa), IconName(sb));
    IconNameInjective(sa, sb);
    if {a, b} == {SuperBehaviourIcon.None, Default} {
      assert a in {SuperBehaviourIcon.None, Default} && b in {SuperBehaviourIcon.None, Default};
    }
  }

  /** The enumeration constructor: `Custom` is rejected, because a custom
      icon needs a path. */
  function FromIcon(icon: SuperBehaviourIcon): (r: W.Result<SuperIcon>)
    ensures r.Failure? <==> icon == Custom
    ensures r.Failure? ==> r.error.ArgumentException?
    ensures r.Success? ==> r.value.icon == icon
    ensures r.Success? ==> GetPath(r.value) == W.Some(IconPath(icon)) == W.Some(r.value.basePath)
  {
    if icon == Custom then
      W.Failure(W.ArgumentException("SuperBehaviourIcon.Custom has to specify a custom path."))
    else
      W.Success(SuperIcon(icon, W.None, IconPath(icon)))
  }

  /** The custom-path constructor: always `Custom`, and the path is kept as
      given. */
  function FromPath(customPath: string): (a: SuperIcon)
    ensures a.icon == Custom
    ensures GetPath(a) == W.Some(customPath) && a.basePath == customPath
  {
    SuperIcon(Custom, W.Some(customPath), customPath)
  }

  /** `GetPath()`: the custom path of a custom icon, otherwise the
      enumeration icon's path. A custom icon without a path reads as null. */
  function GetPath(a: SuperIcon): (r: W.Option<string>)
    ensures a.icon != Custom ==> r.Some? && StartsWith(r.value, IconFolder)
    ensures a.icon == Custom ==> r == a.customPath
  {
    if a.icon == Custom then a.customPath else W.Some(IconPath(a.icon))
  }
}

=== FILE: wrappers.dfy ===
/** Failure-carrying wrappers shared by the whole model: `Option` stands for a
    C# reference that may be null, `Result` for an operation that may throw. */
module Wrappers {

  datatype Option<+T> = None | Some(value: T) {
    /** The value, or `default` when there is none (C#'s `?? default`). */
    function GetOr(default: T): T {
      match this
      case Some(v) => v
      case None => default
    }
  }

  /** The exceptions the modelled code can raise. */
  datatype Error =
    | ArgumentException(message: string)
    | IndexOutOfRange
    | NullReference

  datatype Result<+T> = Success(value: T) | Failure(error: Error) {
    predicate IsFailure() {
      Failure?
    }
  }
}
